=== FILE: README.md ===
# Italian draughts client: a verified model

This project models the game logic of an Angular client for Italian draughts (dama). The client offers several boards:
- two players on one screen;
- the same board with a computer opponent, reached through a move oracle;
- an online board that plays against a remote opponent through a game server;
- an early board that only highlights squares.

Beside the boards are two move-history panels and the helpers of the online restart handshake.

The modules follow the client's structure:

| module | file | what it models |
|---|---|---|
| `Rules` | `rules.dfy` | The rules engine that every board carries a copy of, written as pure functions of the board. It covers the 8x8 board of cells, single-hop captures (forward-only for men, all four diagonals for kings), the whole-board scan for captures and the capture obligation, one-step simple moves, the board effect of a move (no legality check, promotion on the far row), piece counting with loops, and the end-of-game rule with its early-exit scan for a movable piece. |
| `LocalGame` | `local_board.dfy` | The two-players-on-one-screen board and the app board, which run the same engine. A `Game` value and the functions `InitGame`, `CheckedGame`, `AfterMove` and `AfterClick` say what each event does. The class `LocalBoard` keeps the same fields, and each of its methods is proved to follow one of these functions. |
| `OnlineGame` | `online_board.dfy` | The online board. It adds the turn gate on the player's team, the request that saves a move (letter column and `8 - row`), and the deletion request of a finished game. It also covers decoding the server's board and status, the team and nickname lookup of a poll, and the end-of-game check after every hop, mid-chain included. |
| `BotGame` | `bot_board.dfy` | The board against the oracle. It covers the board encoding (`""`, `w`, `b`, `W`, `B`) and its round trip with the online decoder, the `"RC"` digit-pair coordinates of the oracle's answer, and the request, answer and error events. It also covers the capture replay as a state machine: `Tick` is one firing of the interval. |
| `MoveList` | `move_list.dfy` | The material the two history panels share: square and move notation, the row span of a turn, and `Layout`. `Layout` is a reference arrangement of formatted moves into numbered turns, given each move's side part ("slot"). |
| `OnlineMoves`, `OfflineMoves` | `online_moves.dfy`, `offline_moves.dfy` | The two history panels. Their rebuild loops, which are nested `while` loops online and a `for` loop offline, are proved to produce `Layout` of their own slots. The two panels differ in two ways. Online, a continuation must start where the previous move landed and must record captures. Offline, starting there is enough. Online rows are labelled 1-8 from row 0; offline rows are labelled 8-1. |
| `Restart` | `restart.dfy` | The record updates and queries of the restart handshake. |
| `HighlightBoard` | `highlight_board.dfy` | The early board. It only shows the position and highlights the empty diagonal neighbours of a clicked piece. |
| `Notation`, `Options` | `notation.dfy`, `options.dfy` | Characters naming squares, and the optional value standing for `null`/`undefined`. |

Some of the boards' behaviour cannot be modelled directly:
- **HTTP calls** become a log of the requests issued: `requests` on the online and bot boards.
- **The oracle's answer and a request failure** become method calls: `OnBotResponse` and `OnBotError`.
- **A `setTimeout`** becomes a counter of scheduled oracle requests. `FireScheduledBotMove` issues one.
- **A `setInterval` firing** becomes a call to `Tick`.
- **The nickname in browser storage** is a parameter of `ApplyPoll`.

Where the code and its description disagree, the model follows the code:
- **`makeMove` does not validate its move.**
- **Promotion does not end a capture chain.** The chain test after a jump uses the crowned king's four directions (`PromotedPieceCapturesAsKing`).
- **Deletion of a finished online game.** The online end-of-game check asks for deletion only when it gets past the two "no pieces left" early returns. A game won by taking the last piece is therefore never deleted by the client (`DeleteRule`).
- **The capture chain is not enforced on a click.** While a chain is pending, clicking another own piece selects that piece instead (`ChainNotEnforced`).

## Model

| member | source | states |
|---|---|---|
| Rules.IsValidPosition | src/app/components/offline-board/offline-board.component.ts:493-495 | A square is on the board iff both coordinates lie in 0-7. No contract of its own: every board access in the model is guarded by it, and `InBounds` is this test on a square. |
| Rules.IsLight | src/app/components/offline-board/offline-board.component.ts:120-122 | A square is light iff its coordinate sum is even. No contract of its own: `LocalGame.InitialLayout` and `HighlightBoard.StartingPosition` prove that every starting piece sits on a dark square. |
| Rules.Opponent | src/app/components/offline-board/offline-board.component.ts:380 | The other side is never the side itself. |
| Rules.Put | src/app/components/offline-board/offline-board.component.ts:324-333 | Writing one cell keeps the 8x8 shape and changes that cell only. |
| Rules.Directions | src/app/components/offline-board/offline-board.component.ts:272-274 | A king has the four diagonals. A man has two, both one row forward for its colour (up for white, down for anything else). |
| Rules.CapturesAlong | src/app/components/offline-board/offline-board.component.ts:278-301 | The captures along the given directions are exactly the hops over an opposing piece onto an empty, on-board square, at most one per direction. |
| Rules.CapturesForPiece | src/app/components/offline-board/offline-board.component.ts:267-304 | A piece has at most 2 captures (a man) or 4 (a king), each starting on its square. |
| Rules.CapturesForPieceMembers | src/app/components/offline-board/offline-board.component.ts:267-304 | A move is among a piece's captures iff it is a capturing hop along one of that piece's own directions. |
| Rules.AllForcedCaptures | src/app/components/offline-board/offline-board.component.ts:241-259 | The row-major scan yields exactly the captures of the side's pieces. |
| Rules.ScanRowsMembers | src/app/components/offline-board/offline-board.component.ts:245-256 | The scan from row r on holds exactly the captures of the side's pieces in those rows. |
| Rules.Landings | src/app/components/offline-board/offline-board.component.ts:213 | The landing squares of the moves, in order. |
| Rules.StepsAlong | src/app/components/offline-board/offline-board.component.ts:224-232 | The one-step targets along the directions are exactly the empty, on-board neighbours in those directions, at most one per direction. |
| Rules.MovesFromScanRows | src/app/components/offline-board/offline-board.component.ts:210-214 | Filtering the board-wide scan for one square gives exactly that square's captures when the side owns it, and nothing otherwise. |
| Rules.CaptureObligation | src/app/components/offline-board/offline-board.component.ts:204-216 | While the side to move has any capture, a piece's valid moves are exactly its own capture landings in order. A piece of the other side, or one without captures, has none. |
| Rules.ValidMoves | src/app/components/offline-board/offline-board.component.ts:204-216 | A piece's valid moves. No contract of its own: `Rules.CaptureObligation` proves they are exactly its capture landings while its side has any capture, and `Rules.SimpleMovesWhenNoCapture` proves they are the empty one-step targets otherwise. |
| Rules.SimpleMovesWhenNoCapture | src/app/components/offline-board/offline-board.component.ts:218-234 | With no capture anywhere, the valid moves are the empty, on-board squares one step away in the piece's own directions. |
| Rules.HasCaptureIff | src/app/components/offline-board/offline-board.component.ts:208-210 | The capture obligation is in force iff some piece of the side to move has a capture. |
| Rules.CaptureImpliesValidMove | src/app/components/offline-board/offline-board.component.ts:455-469 | A side that can capture always has a piece with a valid move. |
| Rules.CaptureShape | src/app/components/offline-board/offline-board.component.ts:267-304 | Every capture lands two diagonal steps away, forward for a man, on an empty on-board square. It records exactly one captured square: the midpoint, which holds a piece of another colour. |
| Rules.ApplyMove | src/app/components/offline-board/offline-board.component.ts:318-356 | The board after a move keeps its 8x8 shape. |
| Rules.HistoryEntry | src/app/components/offline-board/offline-board.component.ts:359-363 | The history entry records from and to. It records captures iff the move spans two rows and two columns, and then exactly the midpoint. |
| Rules.JumpMidpoint | src/app/components/offline-board/offline-board.component.ts:336-339 | A jump's midpoint is on the board, distinct from both ends, and is the square halfway between them. |
| Rules.MoveEffect | src/app/components/offline-board/offline-board.component.ts:318-356 | The origin becomes empty. The destination holds the mover's colour, and it is a king iff the mover was a king or landed on its promotion row. A jump empties its midpoint. No other square changes. |
| Rules.PromotedPieceCapturesAsKing | src/app/components/offline-board/offline-board.component.ts:351-374 | A man landing on its promotion row is crowned before the chain check, so the check looks in all four directions. |
| Rules.CountsSplit | src/app/components/offline-board/offline-board.component.ts:429-436 | White pieces plus the other pieces are exactly the occupied squares. |
| Rules.OccupiedPut | src/app/components/offline-board/offline-board.component.ts:324-333 | Writing one cell changes the occupied count by the difference between the old and new cell. |
| Rules.MoveConservesPieces | src/app/components/offline-board/offline-board.component.ts:318-348 | Moving onto an empty square keeps the number of pieces, except that a jump over an occupied square removes exactly one. |
| Rules.CountPieces | src/app/components/offline-board/offline-board.component.ts:425-436 | The nested counting loops count the white and the non-white pieces, and the two counts add up to the occupied squares. |
| Rules.ScanAnswer | src/app/components/offline-board/offline-board.component.ts:455-468 | The early-exit scan answers "found" iff some piece of the side has a valid move. |
| Rules.HasAnyValidMove | src/app/components/offline-board/offline-board.component.ts:455-468 | The loop with its two `break`s returns true iff some piece of the side to move has a valid move. |
| Rules.OutcomeMonotone | src/app/components/offline-board/offline-board.component.ts:439-477 | The end-of-game rule never reopens a finished game, and whenever it changes the status it ends the game with a named winner. |
| Rules.Outcome | src/app/components/offline-board/offline-board.component.ts:439-477 | The end-of-game rule: white out of pieces, then black out of pieces, then the side to move stuck, else the status is kept. No contract of its own: `Rules.OutcomeMonotone`, `Rules.CapturingSideNotStuck` and `Rules.StuckSideLoses` characterise it. |
| Rules.CapturingSideNotStuck | src/app/components/offline-board/offline-board.component.ts:455-477 | With pieces on both sides, a side to move that can capture never loses by the check. |
| Rules.StuckSideLoses | src/app/components/offline-board/offline-board.component.ts:455-477 | With pieces on both sides and no valid move for the side to move, the opponent wins, and every piece of the stuck side has an empty list of valid moves. |
| LocalGame.SetupCell | src/app/components/offline-board/offline-board.component.ts:97-103 | `"b"` and `"w"` become men of their colour, and every other code an empty square. No piece is a king. |
| LocalGame.SetupRow | src/app/components/offline-board/offline-board.component.ts:97-103 | Each code of a row is set up as its own cell. |
| LocalGame.InitialBoard | src/app/components/offline-board/offline-board.component.ts:86-103 | The setup table gives an 8x8 board. |
| LocalGame.InitialLayout | src/app/components/offline-board/offline-board.component.ts:86-103 | In the starting position, black men occupy the dark squares (odd coordinate sum, where the light test is false) of rows 0-2 and white men those of rows 5-7. There are no kings and nothing else. |
| LocalGame.StartingRowCounts | src/app/components/offline-board/offline-board.component.ts:86-95 | Rows 0-2 hold four black men each, rows 5-7 four white men each, and rows 3-4 none. |
| LocalGame.InitialCounts | src/app/components/offline-board/offline-board.component.ts:86-103 | Twelve men a side, 24 pieces in all. |
| LocalGame.InitGame | src/app/components/offline-board/offline-board.component.ts:85-112 | Setup gives the starting position, white to move, an empty history, no selection or highlights, and no winner. The counters are untouched. |
| LocalGame.CheckedGame | src/app/components/offline-board/offline-board.component.ts:423-478 | The end-of-game check changes only the counters and the status. |
| LocalGame.NewGameNotOver | src/app/components/board/board.component.ts:59-86 | A fresh game is not over, white is to move, the history is empty, and there are twelve men a side. |
| LocalGame.MoveKeepsInvariant | src/app/components/offline-board/offline-board.component.ts:314-389 | A move keeps the board 8x8 and the selection on it. |
| LocalGame.ClickKeepsInvariant | src/app/components/offline-board/offline-board.component.ts:149-196 | A click keeps the board 8x8 and the selection on it. |
| LocalGame.TurnRule | src/app/components/offline-board/offline-board.component.ts:359-386 | A move appends exactly one history entry. The side to move is kept iff the move was a jump and the landed piece can jump again; then that piece stays selected with its capture landings highlighted. Otherwise the turn passes, the selection and highlights clear, and the end-of-game rule is applied. |
| LocalGame.AfterMove | src/app/components/offline-board/offline-board.component.ts:314-389 | The game after a move. No contract of its own: `LocalGame.TurnRule`, `LocalGame.MoveKeepsInvariant` and `LocalGame.GameOverIsFinal` characterise it, and `LocalGame.LocalBoard.MakeMove` is proved to follow it. |
| LocalGame.GameOverIsFinal | src/app/components/offline-board/offline-board.component.ts:150 | A finished game stays finished through a move, and a click changes nothing. |
| LocalGame.SelectOwnPiece | src/app/components/board/board.component.ts:144-147 | Clicking one's own piece selects it and highlights exactly its valid moves. Under the capture obligation, these are its capture landings. |
| LocalGame.ClickWithoutMoveKeepsPosition | src/app/components/board/board.component.ts:123-142 | A click that is not a move onto a highlighted square leaves the board, history, turn and status unchanged. A click on an empty or opposing square clears the selection and highlights. |
| LocalGame.AfterClick | src/app/components/board/board.component.ts:123-148 | The game after a click. No contract of its own: `LocalGame.ClickKeepsInvariant`, `LocalGame.SelectOwnPiece`, `LocalGame.ClickWithoutMoveKeepsPosition` and `LocalGame.ChainNotEnforced` characterise it, and `LocalGame.LocalBoard.OnCellClick` is proved to follow it. |
| LocalGame.ChainNotEnforced | src/app/components/offline-board/offline-board.component.ts:149-186 | While a capture chain is pending, clicking another own piece that is not a highlighted landing selects it instead. |
| LocalGame.CheckedWinner | src/app/components/offline-board/offline-board.component.ts:423-478 | No white pieces always makes black the winner, even when black has none either (an empty board included). Otherwise a declared white winner has pieces left against none, and a stuck side to move loses while both sides have pieces. A game the check leaves open has pieces on both sides and a movable piece for the side to move. |
| LocalGame.LocalBoard.constructor | src/app/components/offline-board/offline-board.component.ts:66-68 | Field initialisers (counters at 12) followed by setup. |
| LocalGame.LocalBoard.InitBoard | src/app/components/offline-board/offline-board.component.ts:85-112 | The fields become `InitGame` of the old ones. |
| LocalGame.LocalBoard.IsHighlight | src/app/components/offline-board/offline-board.component.ts:130-132 | True iff the square is among the highlighted ones. |
| LocalGame.LocalBoard.CheckGameOver | src/app/components/offline-board/offline-board.component.ts:423-478 | The counting loops and the early-exit scan produce `CheckedGame` of the old fields. |
| LocalGame.LocalBoard.MakeMove | src/app/components/offline-board/offline-board.component.ts:314-389 | The fields become `AfterMove` of the old ones: the board effect, one history entry, then the chain or the turn change and the check. |
| LocalGame.LocalBoard.MoveBoard | src/app/components/board/board.component.ts:269-303 | The in-place board writes of a move produce `ApplyMove` of the old board and change nothing else. |
| LocalGame.LocalBoard.OnCellClick | src/app/components/board/board.component.ts:123-148 | The fields become `AfterClick` of the old ones. |
| OnlineGame.DecodeCell | src/app/components/online-board/online-board.component.ts:193-199 | A code is a piece iff it is non-empty and a king iff it is `B` or `W`. `b`/`B` are black, `w`/`W` white, and any other code is a piece without colour. |
| OnlineGame.DecodeRow | src/app/components/online-board/online-board.component.ts:193-199 | Each code of a row is decoded as its own cell. |
| OnlineGame.DecodeBoard | src/app/components/online-board/online-board.component.ts:193-199 | Each row of the grid is decoded as its own row. |
| OnlineGame.DecodedShape | src/app/components/online-board/online-board.component.ts:190-200 | The decoded board is 8x8 iff the server's grid is. |
| OnlineGame.TeamName | src/app/components/online-board/online-board.component.ts:208-209 | The server calls the sides `WHITE` and `BLACK`. |
| OnlineGame.TurnFromServer | src/app/components/online-board/online-board.component.ts:168 | White is to move iff `turno` is `WHITE`. |
| OnlineGame.WireSquare | src/app/components/online-board/online-board.component.ts:494-495 | A square is sent as its column letter followed by the digit of `8 - row`. |
| OnlineGame.WireSquareInjective | src/app/components/online-board/online-board.component.ts:494-495 | Different squares are sent under different names. |
| OnlineGame.IsPlayerTurn | src/app/components/online-board/online-board.component.ts:205-212 | It is this client's turn iff its team is set and names the side to move. An unset or empty team never has the turn. |
| OnlineGame.StateFromServer | src/app/components/online-board/online-board.component.ts:166-185 | The server state sets the side to move (white iff `WHITE`), the board when one was sent, the counts as men plus kings, and the finished flag. The winner is replaced only on a finished game with a named winner. Nothing else changes. |
| OnlineGame.TeamOfFirstMatch | src/app/components/online-board/online-board.component.ts:134-136 | The team found is that of the first player listed under the nickname, and one is found iff such a player is listed. |
| OnlineGame.TeamOf | src/app/components/online-board/online-board.component.ts:134-136 | The team of the player listed under a nickname. No contract of its own: `OnlineGame.TeamOfFirstMatch` proves it is the first match, found iff one is listed. |
| OnlineGame.LastNicknameIsLastMatch | src/app/components/online-board/online-board.component.ts:146-152 | The nickname kept for a side is that of the last player listed on it, or the previous one when nobody is. |
| OnlineGame.LastNickname | src/app/components/online-board/online-board.component.ts:146-152 | The nickname kept for a side. No contract of its own: `OnlineGame.LastNicknameIsLastMatch` proves it is the last match, or the previous nickname. |
| OnlineGame.AfterPoll | src/app/components/online-board/online-board.component.ts:126-155 | A poll sets the team only when a non-empty stored nickname is found among the players, takes each side's nickname from the last player listed on it (keeping the previous one when nobody is), applies the server state, and issues no request. |
| OnlineGame.TurnGate | src/app/components/online-board/online-board.component.ts:284-287 | Off turn, neither a move nor a click changes anything, and nothing is sent. |
| OnlineGame.OnlineAfterMove | src/app/components/online-board/online-board.component.ts:427-513 | The session after a hop. No contract of its own: `OnlineGame.TurnGate`, `OnlineGame.OnlineMoveMatchesLocal`, `OnlineGame.SendRule` and `OnlineGame.OnlineGameOverIsFinal` characterise it, and `OnlineGame.OnlineBoard.MakeMove` is proved to follow it. |
| OnlineGame.OnlineAfterClick | src/app/components/online-board/online-board.component.ts:280-310 | The session after a click. No contract of its own: `OnlineGame.TurnGate` proves it changes nothing off turn, and `OnlineGame.OnlineBoard.OnCellClick` is proved to follow it. |
| OnlineGame.OnlineMoveMatchesLocal | src/app/components/online-board/online-board.component.ts:427-481 | On turn, the board and history change exactly as on the local board. The side to move is kept iff the hop was a jump from which the piece can jump again. |
| OnlineGame.SendRule | src/app/components/online-board/online-board.component.ts:476-512 | A hop that continues a chain sends no move. A hop that ends the move by a coloured piece sends exactly one request naming both squares in wire notation and the mover's side. A colourless piece sends nothing and leaves the status alone. After the move request, or mid-chain, exactly one deletion request follows iff both sides still have pieces and the game is over, and none otherwise. |
| OnlineGame.AfterHop | src/app/components/online-board/online-board.component.ts:475-512 | What follows a hop's board writes. No contract of its own: `OnlineGame.SendRule`, `OnlineGame.MidChainCheckKeepsGame` and `OnlineGame.LandedPieceCanCapture` characterise it, and `OnlineGame.OnlineBoard.EndHop` is proved to follow it. |
| OnlineGame.DeleteRule | src/app/components/online-board/online-board.component.ts:518-584 | The check asks for deletion exactly when both sides still have pieces and the game is over afterwards. |
| OnlineGame.CheckedSession | src/app/components/online-board/online-board.component.ts:518-584 | The online end-of-game check. No contract of its own: `OnlineGame.DeleteRule` proves when it asks for deletion, and `OnlineGame.OnlineBoard.CheckGameOver` is proved to follow it. |
| OnlineGame.MidChainCheckKeepsGame | src/app/components/online-board/online-board.component.ts:512 | The check that runs mid-chain cannot declare the mover's side stuck. The status changes only when a side has run out of pieces. |
| OnlineGame.LandedPieceCanCapture | src/app/components/online-board/online-board.component.ts:476-481 | After a hop that continues the chain, the side to move has a capture on the board. |
| OnlineGame.OnlineGameOverIsFinal | src/app/components/online-board/online-board.component.ts:518-584 | A finished game stays finished through a move. |
| OnlineGame.ServerWinner | src/app/components/online-board/online-board.component.ts:178-182 | A server winner replaces the local one only on a finished game. `NONE` never clears it. |
| OnlineGame.OnlineBoard.constructor | src/app/components/online-board/online-board.component.ts:92-98 | Field initialisers followed by setup: no team, no requests, and the default nicknames. |
| OnlineGame.OnlineBoard.InitBoard | src/app/components/online-board/online-board.component.ts:217-243 | The game fields become `InitGame` of the old ones, and the online fields are kept. |
| OnlineGame.OnlineBoard.IsHighlight | src/app/components/online-board/online-board.component.ts:261-263 | True iff the square is among the highlighted ones. |
| OnlineGame.OnlineBoard.UpdateBoardFromState | src/app/components/online-board/online-board.component.ts:190-200 | The board becomes the decoded server board when one was sent. Otherwise nothing changes. The class invariant is kept when the sent grid is 8x8. |
| OnlineGame.OnlineBoard.UpdateGameState | src/app/components/online-board/online-board.component.ts:166-185 | The fields become `StateFromServer` of the old ones. The class invariant is kept when the sent grid, if any, is 8x8. |
| OnlineGame.OnlineBoard.ApplyPoll | src/app/components/online-board/online-board.component.ts:126-155 | The poll callback's body produces `AfterPoll` of the old fields. The class invariant is kept when the sent grid, if any, is 8x8. |
| OnlineGame.OnlineBoard.IsPlayerTurnNow | src/app/components/online-board/online-board.component.ts:205-212 | True iff the team is set and names the side to move. |
| OnlineGame.OnlineBoard.CheckGameOver | src/app/components/online-board/online-board.component.ts:518-584 | The counting loops, scan and deletion request produce `CheckedSession` of the old fields. |
| OnlineGame.OnlineBoard.MakeMove | src/app/components/online-board/online-board.component.ts:427-513 | The fields become `OnlineAfterMove` of the old ones. |
| OnlineGame.OnlineBoard.EndHop | src/app/components/online-board/online-board.component.ts:475-512 | After the board writes: keep the chain, or pass the turn and send the move, then run the check. |
| OnlineGame.OnlineBoard.MoveBoard | src/app/components/online-board/online-board.component.ts:431-465 | The in-place board writes produce `ApplyMove` of the old board and change nothing else. |
| OnlineGame.OnlineBoard.OnCellClick | src/app/components/online-board/online-board.component.ts:280-310 | The fields become `OnlineAfterClick` of the old ones. |
| BotGame.EncodeCell | src/app/components/bot-board/bot-board.component.ts:77-82 | An empty square is `""`. A piece is one letter, `w`/`W` for white, otherwise `b`/`B`, and upper case iff it is a king. |
| BotGame.EncodeRow | src/app/components/bot-board/bot-board.component.ts:77-82 | Each cell of a row is encoded on its own. |
| BotGame.EncodeBoard | src/app/components/bot-board/bot-board.component.ts:77-82 | Each row of the board is encoded on its own. |
| BotGame.CellRoundTrip | src/app/components/online-board/online-board.component.ts:193-199 | The online decoder gives back every well-formed cell the bot encoder produced. |
| BotGame.CodeRoundTrip | src/app/components/bot-board/bot-board.component.ts:77-82 | Encoding a decoded code gives back each of the five codes. |
| BotGame.ColourlessPieceSentAsBlack | src/app/components/bot-board/bot-board.component.ts:79-81 | A piece without a colour is encoded, and so decoded, as black. |
| BotGame.BoardRoundTrip | src/app/components/bot-board/bot-board.component.ts:77-82 | Decoding an encoded well-formed board gives it back. |
| BotGame.CodesRoundTrip | src/app/components/online-board/online-board.component.ts:193-199 | Encoding a decoded grid of valid codes gives it back. |
| BotGame.ParseCoord | src/app/components/bot-board/bot-board.component.ts:93-96 | A coordinate gives a square iff its first two characters are digits. The square's row and column are those digits. |
| BotGame.CoordName | src/app/components/bot-board/bot-board.component.ts:93-96 | A square with single-digit row and column is named by two characters. |
| BotGame.CoordRoundTrip | src/app/components/bot-board/bot-board.component.ts:93-96 | Parsing reads back the square a coordinate names, and a coordinate that parses names its square in its first two characters. |
| BotGame.ParsePath | src/app/components/bot-board/bot-board.component.ts:128-131 | Each path entry is parsed as a coordinate, in order. |
| BotGame.PathSquares | src/app/components/bot-board/bot-board.component.ts:128-131 | The squares of a path whose entries all parse, in order. |
| BotGame.Crowned | src/app/components/bot-board/bot-board.component.ts:166-171 | The replayed piece keeps its colour and becomes a king iff it already was one or lands on its promotion row. |
| BotGame.ReplayStep | src/app/components/bot-board/bot-board.component.ts:141-191 | One hop empties the current and passed-over squares, places the piece (crowned when due) on the next square, and changes no other square. |
| BotGame.ReplayStepIsMove | src/app/components/bot-board/bot-board.component.ts:148-182 | Replaying a jump by the piece on its start square is the same board change as `makeMove` of that jump. |
| BotGame.ReplayFrom | src/app/components/bot-board/bot-board.component.ts:141-191 | Replaying the hops from `k` on keeps the board 8x8 and gives the piece after those hops. |
| BotGame.PlayFrom | src/app/components/offline-board/offline-board.component.ts:318-356 | Playing the same hops one by one with the engine keeps the board 8x8. |
| BotGame.ReplayIsPlay | src/app/components/bot-board/bot-board.component.ts:141-191 | Replaying a path of jumps leaves the same board as playing each jump with the engine. |
| BotGame.ReplayKeepsKing | src/app/components/bot-board/bot-board.component.ts:166-182 | The replayed piece keeps its colour, and once it is a king it stays one. |
| BotGame.ReplayPromotion | src/app/components/bot-board/bot-board.component.ts:166-182 | A man whose path reaches its promotion row comes out of the replay a king. |
| BotGame.BotBoard.constructor | src/app/components/bot-board/bot-board.component.ts:22-47 | The field initialisers and setup: the oracle plays black at difficulty 2, with nothing pending and no request issued. |
| BotGame.BotBoard.MakeMove | src/app/components/bot-board/bot-board.component.ts:58-69 | The board's move, then one oracle request scheduled iff the game is open and the oracle is to move. The sides, the difficulty and the replay fields are kept. |
| BotGame.BotBoard.GetBotMove | src/app/components/bot-board/bot-board.component.ts:72-87 | The oracle is marked as thinking, and one request is issued carrying the encoded board, the oracle's side and the difficulty. Nothing else changes. |
| BotGame.BotBoard.FireScheduledBotMove | src/app/components/bot-board/bot-board.component.ts:65-67 | A scheduled request is issued with the current difficulty, and one fewer remains scheduled. The oracle is marked as thinking, and the sides, the difficulty and the replay fields are kept. |
| BotGame.BotBoard.OnBotResponse | src/app/components/bot-board/bot-board.component.ts:88-106 | Thinking stops. A non-empty path starts the replay from the origin; otherwise the move is played on the board without scheduling another request. The replay's piece is a copy of the origin square. The sides and the difficulty are kept, and a direct move leaves the replay fields alone. |
| BotGame.BotBoard.OnBotError | src/app/components/bot-board/bot-board.component.ts:107-110 | Thinking stops, the class invariant is kept, and nothing else changes. |
| BotGame.BotBoard.AnimateBotCapturePath | src/app/components/bot-board/bot-board.component.ts:115-137 | The replay starts at step 0. Its path is the start square followed by each parsed entry (length = entries + 1), and its piece is a copy of the start square. The sides and the difficulty are kept. |
| BotGame.BotBoard.Tick | src/app/components/bot-board/bot-board.component.ts:140-207 | Before the end of the path, one hop is replayed and the step advances by exactly one. At the end, the replay stops, the turn passes once, and the counts and end-of-game check follow. The sides and the difficulty are kept. |
| BotGame.BotBoard.UpdatePieceCount | src/app/components/bot-board/bot-board.component.ts:211-224 | The counters become the white and non-white pieces, summing to the occupied squares. Nothing else changes. |
| BotGame.BotBoard.OnCellClick | src/app/components/bot-board/bot-board.component.ts:227-235 | Clicks while replaying, while thinking, or on the oracle's turn change nothing. Other clicks act as on the local board. The sides, the difficulty and the replay fields are kept. |
| BotGame.BotBoard.ResetGame | src/app/components/bot-board/bot-board.component.ts:256-274 | Setup; no replay and no pending answer; a request is scheduled iff the oracle moves first. The sides, the difficulty and the replay fields are kept. |
| BotGame.BotBoard.SetDifficulty | src/app/components/bot-board/bot-board.component.ts:238-240 | Only the difficulty changes. |
| BotGame.BotBoard.SetColors | src/app/components/bot-board/bot-board.component.ts:243-254 | The human always plays the opposite side of the oracle. The game restarts, and a request is issued at once, with the kept difficulty, iff the oracle plays white. The replay fields are kept. |
| MoveList.RowSpan | src/app/components/online-moves/online-moves.component.ts:128-131 | The row span is the longer of the two lists: at least each length, and equal to one of them. |
| MoveList.RowLabel | src/app/components/offline-moves/offline-moves.component.ts:120-124 | Row labels run 1-8 upward from row 0, or 8-1 downward. |
| MoveList.SquareNameInjective | src/app/components/online-moves/online-moves.component.ts:153-157 | Different squares on the board get different names. |
| MoveList.SquareName | src/app/components/online-moves/online-moves.component.ts:153-157 | A square's name: column letter and row label. No contract of its own: `MoveList.SquareNameInjective`, `MoveList.MirroredLabels` and `OnlineMoves.ToAlgebraic` characterise it. |
| MoveList.FormatMove | src/app/components/online-moves/online-moves.component.ts:162-166 | A move's notation. No contract of its own: `MoveList.NotationShape` and `MoveList.FormatMoveInjective` characterise it. |
| MoveList.FormatCaptureChain | src/app/components/online-moves/online-moves.component.ts:145-148 | A chain hop's notation. No contract of its own: `MoveList.NotationShape` proves it is `x` followed by the landing square. |
| MoveList.MirroredLabels | src/app/components/offline-moves/offline-moves.component.ts:120-124 | The two labellings name the same square by mirrored rows. |
| MoveList.NotationShape | src/app/components/online-moves/online-moves.component.ts:145-166 | A move's notation is from-square, `x` iff it captured (`-` otherwise), to-square. A chain hop's notation is `x` and the landing square. |
| MoveList.FormatMoveInjective | src/app/components/offline-moves/offline-moves.component.ts:129-133 | Moves on the board with the same notation have the same squares and agree on whether they captured. |
| MoveList.AddToLast | src/app/components/online-moves/online-moves.component.ts:65 | Adding to the last turn keeps the number of turns and all earlier turns. |
| MoveList.Place | src/app/components/offline-moves/offline-moves.component.ts:64-87 | Placing a move adds at most one turn. |
| MoveList.LayoutLength | src/app/components/offline-moves/offline-moves.component.ts:94-96 | The number of turns is half the last move's slot plus one, and zero without moves. |
| MoveList.LayoutNumbers | src/app/components/online-moves/online-moves.component.ts:41-50 | Turns are numbered 1, 2, … in order. |
| MoveList.LayoutWhiteFirst | src/app/components/online-moves/online-moves.component.ts:57-82 | Every turn holds a white move. |
| MoveList.LastTurnWhiteOnly | src/app/components/offline-moves/offline-moves.component.ts:65-74 | While white has yet to hand over, the last turn has no black move. |
| MoveList.LayoutFlatten | src/app/components/online-moves/online-moves.component.ts:53-122 | The turns hold exactly the moves, each once and in order, white's part of a turn before black's. |
| MoveList.LayoutOpensTurn | src/app/components/offline-moves/offline-moves.component.ts:84-85 | A move whose slot opens the next turn goes into a new turn appended after the others. |
| MoveList.LayoutExtendsTurn | src/app/components/offline-moves/offline-moves.component.ts:65-77 | A move in the last turn's current side part is added to that side's list. |
| OnlineMoves.ToAlgebraic | src/app/components/online-moves/online-moves.component.ts:153-157 | An on-board square is named by column letter `A`-`H` and row digit `1`-`8` for rows 0-7. |
| OnlineMoves.Entry | src/app/components/online-moves/online-moves.component.ts:59-75 | A move is marked as a continuation iff it starts where the previous move landed and records captures. Then it is formatted `xT`, and otherwise `F-T`/`FxT`. |
| OnlineMoves.IsFollowUpCapture | src/app/components/online-moves/online-moves.component.ts:136-140 | A move follows up a capture iff it starts where the previous move landed and records captures. No contract of its own: `OnlineMoves.ContinuationIffSamePart` and `OnlineMoves.FollowUpStep` use it. |
| OnlineMoves.Entries | src/app/components/online-moves/online-moves.component.ts:53-122 | One entry per move, in order. |
| OnlineMoves.SlotsValid | src/app/components/online-moves/online-moves.component.ts:53-122 | The side parts start at white's and advance by at most one per move. |
| OnlineMoves.CharacterisedUniquely | src/app/components/online-moves/online-moves.component.ts:53-122 | The loop's characterisation of entries and slots determines them. |
| OnlineMoves.DisplayShape | src/app/components/online-moves/online-moves.component.ts:35-123 | The panel lists every move once and in order, in turns numbered from 1 that each hold a white move. There are no turns without moves, and otherwise as many turns as pairs of side parts. |
| OnlineMoves.ContinuationIffSamePart | src/app/components/online-moves/online-moves.component.ts:69-79 | A move is a continuation iff it stays in its predecessor's side part. |
| OnlineMoves.OnlineMovesPanel.constructor | src/app/components/online-moves/online-moves.component.ts:35-37 | No moves and no turns. |
| OnlineMoves.OnlineMovesPanel.OnChanges | src/app/components/online-moves/online-moves.component.ts:35-123 | The nested loops leave the moves alone and set the turns to `Display` of the moves. |
| OnlineMoves.BuildStep | src/app/components/online-moves/online-moves.component.ts:53-122 | One pass of the outer loop consumes at least one move and keeps the loop's relation to `Layout`. |
| OnlineMoves.PushWhite | src/app/components/online-moves/online-moves.component.ts:57-82 | White's move and its follow-ups fill the turn opened for them, giving `Layout` of the moves consumed. |
| OnlineMoves.FinishTurn | src/app/components/online-moves/online-moves.component.ts:84-120 | Black's move and follow-ups, if moves remain, then a new empty turn only while moves remain. The turn counter advances by one. |
| OnlineMoves.PushBlack | src/app/components/online-moves/online-moves.component.ts:85-108 | Black's move and its follow-ups go into the turn white opened, giving `Layout` of the moves consumed. |
| OnlineMoves.PushFollowUps | src/app/components/online-moves/online-moves.component.ts:69-79 | The inner loop adds each follow-up to the side that began the chain, up to the first move that is not one. |
| OnlineMoves.FollowUpStep | src/app/components/online-moves/online-moves.component.ts:97-107 | A follow-up shares its predecessor's side part and is added as an `xT` continuation to that side's list. |
| OfflineMoves.ToAlgebraic | src/app/components/offline-moves/offline-moves.component.ts:120-124 | An on-board square is named by column letter `A`-`H` and row digit `8`-`1` for rows 0-7. |
| OfflineMoves.Entry | src/app/components/offline-moves/offline-moves.component.ts:52-62 | A move is marked as a continuation iff it starts where the previous move landed, captures or not. Then it is formatted `xT`, and otherwise `F-T`/`FxT`. |
| OfflineMoves.Entries | src/app/components/offline-moves/offline-moves.component.ts:48-91 | One entry per move, in order. |
| OfflineMoves.SlotsValid | src/app/components/offline-moves/offline-moves.component.ts:69-86 | The side parts start at white's and advance by at most one per move. |
| OfflineMoves.SlotCharacterised | src/app/components/offline-moves/offline-moves.component.ts:69-86 | The side switches after every move except a capture whose successor starts where it landed, and this determines each move's side part. |
| OfflineMoves.CharacterisedUniquely | src/app/components/offline-moves/offline-moves.component.ts:48-91 | The loop's characterisation of entries and slots determines them. |
| OfflineMoves.DisplayShape | src/app/components/offline-moves/offline-moves.component.ts:35-99 | The panel lists every move once and in order, in turns numbered from 1 that each hold a white move. There are no turns without moves, and otherwise as many turns as pairs of side parts. |
| OfflineMoves.SamePartIsContinuation | src/app/components/offline-moves/offline-moves.component.ts:52-54 | A move that stays in its predecessor's side part is marked as a continuation. |
| OfflineMoves.IsMultiCapture | src/app/components/offline-moves/offline-moves.component.ts:52-54 | A move continues a chain iff it starts where the previous move landed, whether or not it captured. No contract of its own: `OfflineMoves.SamePartIsContinuation` relates it to the side parts. |
| OfflineMoves.OpenCurrentTurn | src/app/components/offline-moves/offline-moves.component.ts:65-66 | A move into the empty current turn opens it with a white move. |
| OfflineMoves.ExtendCurrentTurn | src/app/components/offline-moves/offline-moves.component.ts:64-87 | A move goes to the side of the open current turn whose part its slot is. |
| OfflineMoves.OfflineMovesPanel.constructor | src/app/components/offline-moves/offline-moves.component.ts:35-37 | No moves and no turns. |
| OfflineMoves.OfflineMovesPanel.OnChanges | src/app/components/offline-moves/offline-moves.component.ts:35-99 | The loop leaves the moves alone and sets the turns to `Display` of the moves. An empty history gives no turns, and the last turn is kept only if it holds a move. |
| OfflineMoves.MirroredNames | src/app/components/offline-moves/offline-moves.component.ts:120-124 | The offline name of a square is the online name of the square with the mirrored row. |
| Restart.IsWhitePlayer | src/services/restart.service.ts:56-58 | True iff a nickname is given and it is white's. A missing nickname never matches. |
| Restart.IsBlackPlayer | src/services/restart.service.ts:66-68 | True iff a nickname is given and it is black's. A missing nickname never matches. |
| Restart.SetWhitePlayerRestart | src/services/restart.service.ts:76-81 | White's wish is replaced, and every other field is kept. |
| Restart.SetBlackPlayerRestart | src/services/restart.service.ts:89-94 | Black's wish is replaced, and every other field is kept. |
| Restart.NoOneIsBoth | src/services/restart.service.ts:56-68 | With two different nicknames recorded, nobody is both white and black. |
| Restart.SettersOverwrite | src/services/restart.service.ts:76-94 | Setting a wish twice keeps only the last value, and setting the value already held changes nothing. |
| Restart.SettersCommute | src/services/restart.service.ts:76-94 | The two players' updates give the same record in either order. |
| Restart.BothAgreed | src/services/restart.service.ts:101-103 | After both players have stated their wish, the restart is agreed iff both want it. |
| Restart.BothPlayersWantRestart | src/services/restart.service.ts:101-103 | A restart is agreed iff both players want it. No contract of its own: `Restart.BothAgreed` and `Restart.OneWishIsNotEnough` characterise it after the setters. |
| Restart.OneWishIsNotEnough | src/services/restart.service.ts:101-103 | One player's wish restarts only if the other's is already recorded. |
| HighlightBoard.HighlightedNeighbours | src/component/board/board.component.ts:58-70 | A click on a piece highlights exactly its empty, on-board diagonal neighbours in all four directions, whatever its colour: at most four. |
| HighlightBoard.StartingPosition | src/component/board/board.component.ts:26-44 | Twelve men a side, all on dark squares, none a king. Black men are exactly those in rows 0-2. |
| HighlightBoard.HighlightBoardPanel.constructor | src/component/board/board.component.ts:19-20 | No board and no highlights. |
| HighlightBoard.HighlightBoardPanel.InitBoard | src/component/board/board.component.ts:26-44 | The board becomes the starting position. |
| HighlightBoard.HighlightBoardPanel.IsHighlight | src/component/board/board.component.ts:50-52 | True iff some highlighted square has this row and column. |
| HighlightBoard.HighlightBoardPanel.OnCellClick | src/component/board/board.component.ts:54-71 | A click on an empty square changes nothing. A click on a piece replaces the highlights with its empty diagonal neighbours, in the order the loop visits them. |
| Notation.DigitChar | src/app/components/online-board/online-board.component.ts:494-495 | The decimal digit character of a number 0-9. |
| Notation.DigitValue | src/app/components/bot-board/bot-board.component.ts:93-96 | A digit's value reads back as the same digit. |
| Notation.ColumnLetter | src/app/components/online-board/online-board.component.ts:80 | Columns 0-7 are named `A`-`H`. |

## Left out

- Sound effects, the game-over modal flag, the turn-error message and its timer (`showTurnErrorMessage`, `hideGameOverModal`) are left out. They are display effects that no game logic reads.
- The piece indicators of the offline board (`piecesWithMoves`, `piecesWithoutMoves`, `hasAvailableMoves`, `hasNoAvailableMoves`, `resetMoveIndicators`) are left out. They are display-only lists that the rules never read.
- Dragging pieces and `getPieceElement` are left out. They are DOM handlers whose board logic re-enters `getValidMoves` and `makeMove`.
- `isSelected` on every board is left out. It is a display query.
- HTTP is not performed:
  - `saveMove` and `deleteGame` become entries in a request log;
  - the bot request becomes `GetBotMove` and the answer becomes a call to `OnBotResponse` or `OnBotError`;
  - `getRestartStatus`, `updateRestartStatus`, `resetGame` and `resetPlayerRestart` of the restart service are left out entirely;
  - the re-fetch after a saved move is left out.
- Polling (`startPolling`, and the interval and request of `fetchGameState`) is left out. `ApplyPoll` models only the body of the poll callback, with the stored nickname as a parameter.
- `ngOnInit`/`ngOnDestroy` are left out except where they set up the board (the constructors). Route parameters and interval clean-up are not modelled.
- Timers become counters and calls. A `setTimeout` becomes a count of scheduled oracle requests that `FireScheduledBotMove` issues. The replay interval becomes `Tick`, called once per firing. Clearing an interval is not modelled; the model does not capture two replays running at once.
- BotGame.BotBoard.OnBotResponse requires the oracle's origin to parse to an on-board square, its destination to do so when there is no path (the source parses it but uses it only then), and the path to consist of even hops. The source would carry on with `NaN` or fractional indices for malformed answers, and the model does not capture that behaviour.
- HighlightBoard cells are the engine's cells with the king flag false. The early board's cells have no king field at all.
- Aliasing is not modelled. The board is a value that each method reassigns, not an array of shared cell objects. The cell objects `makeMove` writes are fresh, so no aliasing is observable. The exception is the replay piece, which the source copies.
- Number widths are not modelled. Counts and indices are unbounded integers, which match the source's doubles on every value an 8x8 board produces.

=== FILE: bot_board.dfy ===
/**
 * The board against the computer: the local board, plus a request to a
 * move oracle (the board encoded as letter codes), the oracle's answer read
 * as digit-pair coordinates, and a timed replay of a multi-hop capture one
 * hop per tick. Timers are modelled by a count of scheduled oracle requests
 * and by calling `Tick` once per interval firing.
 */
module BotGame {
  import opened Options
  import opened Rules
  import opened LocalGame
  import opened Notation
  import OnlineGame

  // ---------------------------------------------------------------------------
  // The board as the oracle receives it
  // ---------------------------------------------------------------------------

  /** Empty is "", a man "w"/"b", a king "W"/"B"; any piece that is not white is sent as black. */
  function EncodeCell(c: Cell): (code: string)
    ensures code == "" <==> !c.hasPiece
    ensures c.hasPiece ==> |code| == 1
    ensures c.hasPiece && c.pieceColor == Some(White) ==> code == (if c.isKing then "W" else "w")
    ensures c.hasPiece && c.pieceColor != Some(White) ==> code == (if c.isKing then "B" else "b")
  {
    if !c.hasPiece then ""
    else if c.isKing then (if c.pieceColor == Some(White) then "W" else "B")
    else (if c.pieceColor == Some(White) then "w" else "b")
  }

  function EncodeRow(row: seq<Cell>): (codes: seq<string>)
    ensures |codes| == |row|
    ensures forall j :: 0 <= j < |row| ==> codes[j] == EncodeCell(row[j])
  {
    seq(|row|, j requires 0 <= j < |row| => EncodeCell(row[j]))
  }

  function EncodeBoard(b: Board): (rows: seq<seq<string>>)
    ensures |rows| == |b|
    ensures forall i :: 0 <= i < |b| ==> rows[i] == EncodeRow(b[i])
  {
    seq(|b|, i requires 0 <= i < |b| => EncodeRow(b[i]))
  }

  /** The five codes the encoder produces. */
  predicate ValidCode(code: string) {
    code == "" || code == "w" || code == "b" || code == "W" || code == "B"
  }

  predicate WellFormedBoard(b: Board) {
    forall i, j :: 0 <= i < |b| && 0 <= j < |b[i]| ==> WellFormedCell(b[i][j])
  }

  /** Decoding the server's codes gives back every well-formed square. */
  lemma CellRoundTrip(c: Cell)
    requires WellFormedCell(c)
    ensures OnlineGame.DecodeCell(EncodeCell(c)) == c
  {
    var d := OnlineGame.DecodeCell(EncodeCell(c));
    if !c.hasPiece {
      assert d == EmptyCell;
    } else if c.pieceColor == Some(White) {
      assert d.pieceColor == Some(White) && d.isKing == c.isKing;
    } else {
      assert c.pieceColor.Some? && c.pieceColor.value != White;
      assert c.pieceColor == Some(Black);
      assert d.pieceColor == Some(Black) && d.isKing == c.isKing;
    }
  }

  /** Encoding a decoded square gives back each of the five codes. */
  lemma CodeRoundTrip(code: string)
    requires ValidCode(code)
    ensures EncodeCell(OnlineGame.DecodeCell(code)) == code
  {
  }

  /** Only well-formed squares survive: a piece without a colour comes back black. */
  lemma ColourlessPieceSentAsBlack(isKing: bool)
    ensures OnlineGame.DecodeCell(EncodeCell(Cell(true, None, isKing))) == Cell(true, Some(Black), isKing)
  {
  }

  lemma BoardRoundTrip(b: Board)
    requires WellFormedBoard(b)
    ensures OnlineGame.DecodeBoard(EncodeBoard(b)) == b
  {
    var d := OnlineGame.DecodeBoard(EncodeBoard(b));
    forall i | 0 <= i < |b|
      ensures d[i] == b[i]
    {
      forall j | 0 <= j < |b[i]|
        ensures d[i][j] == b[i][j]
      {
        CellRoundTrip(b[i][j]);
      }
    }
  }

  lemma CodesRoundTrip(rows: seq<seq<string>>)
    requires forall i, j :: 0 <= i < |rows| && 0 <= j < |rows[i]| ==> ValidCode(rows[i][j])
    ensures EncodeBoard(OnlineGame.DecodeBoard(rows)) == rows
  {
    var e := EncodeBoard(OnlineGame.DecodeBoard(rows));
    forall i | 0 <= i < |rows|
      ensures e[i] == rows[i]
    {
      forall j | 0 <= j < |rows[i]|
        ensures e[i][j] == rows[i][j]
      {
        CodeRoundTrip(rows[i][j]);
      }
    }
  }

  // ---------------------------------------------------------------------------
  // The oracle's coordinates
  // ---------------------------------------------------------------------------

  /**
   * A coordinate "RC": row from the first character, column from the second,
   * each read as one decimal digit. Anything else gives no square (the component
   * would carry on with NaN).
   */
  function ParseCoord(s: string): (p: Option<Pos>)
    ensures p.Some? <==> |s| >= 2 && IsDigit(s[0]) && IsDigit(s[1])
    ensures p.Some? ==> 0 <= p.value.row <= 9 && 0 <= p.value.col <= 9
  {
    if |s| >= 2 && IsDigit(s[0]) && IsDigit(s[1]) then Some(Pos(DigitValue(s[0]), DigitValue(s[1]))) else None
  }

  /** The coordinate naming a square whose row and column are single digits. */
  function CoordName(p: Pos): (s: string)
    requires 0 <= p.row <= 9 && 0 <= p.col <= 9
    ensures |s| == 2
  {
    [DigitChar(p.row), DigitChar(p.col)]
  }

  /** Parsing reads back the square a coordinate names, and a coordinate that parses names its square in its first two characters. */
  lemma CoordRoundTrip(p: Pos, s: string)
    requires 0 <= p.row <= 9 && 0 <= p.col <= 9
    ensures ParseCoord(CoordName(p)) == Some(p)
    ensures ParseCoord(s) == Some(p) ==> s[..2] == CoordName(p)
  {
  }

  /** The path entries, each parsed as a coordinate. */
  function ParsePath(entries: seq<string>): (ps: seq<Option<Pos>>)
    ensures |ps| == |entries|
    ensures forall i :: 0 <= i < |entries| ==> ps[i] == ParseCoord(entries[i])
  {
    seq(|entries|, i requires 0 <= i < |entries| => ParseCoord(entries[i]))
  }

  predicate AllParse(entries: seq<string>) {
    forall i :: 0 <= i < |entries| ==> ParseCoord(entries[i]).Some?
  }

  /** The squares of a path whose entries all parse. */
  function PathSquares(entries: seq<string>): (ps: seq<Pos>)
    requires AllParse(entries)
    ensures |ps| == |entries|
    ensures forall i :: 0 <= i < |entries| ==> Some(ps[i]) == ParseCoord(entries[i])
  {
    seq(|entries|, i requires 0 <= i < |entries| => ParseCoord(entries[i]).value)
  }

  // ---------------------------------------------------------------------------
  // Replaying a capture path
  // ---------------------------------------------------------------------------

  /** A hop whose squares are on the board and whose passed-over square has whole coordinates. */
  predicate EvenHop(cur: Pos, next: Pos) {
    InBounds(cur) && InBounds(next) && (cur.row + next.row) % 2 == 0 && (cur.col + next.col) % 2 == 0
  }

  /** Every consecutive pair of a path is such a hop. */
  predicate Replayable(path: seq<Pos>) {
    (forall i :: 0 <= i < |path| ==> InBounds(path[i]))
    && forall i :: 0 <= i < |path| - 1 ==> EvenHop(path[i], path[i + 1])
  }

  function PassedOver(cur: Pos, next: Pos): Pos {
    Pos((cur.row + next.row) / 2, (cur.col + next.col) / 2)
  }

  datatype Replayed = Replayed(board: Board, piece: Cell)

  /** The piece after a hop that lands on `row`: a man reaching its promotion row is crowned. */
  function Crowned(piece: Cell, row: int): (c: Cell)
    ensures c.hasPiece == piece.hasPiece && c.pieceColor == piece.pieceColor
    ensures c.isKing <==> piece.isKing || PromotionRow(piece.pieceColor, row)
  {
    if !piece.isKing && PromotionRow(piece.pieceColor, row) then piece.(isKing := true) else piece
  }

  /**
   * One replayed hop: the current square and the passed-over square are
   * emptied, a man reaching its promotion row becomes a king for this and
   * every later hop, and the piece is placed on the next square.
   */
  function ReplayStep(b: Board, piece: Cell, cur: Pos, next: Pos): (r: Replayed)
    requires Shaped(b) && EvenHop(cur, next)
    ensures Shaped(r.board)
    ensures r.piece == Crowned(piece, next.row)
    ensures At(r.board, next) == Cell(true, piece.pieceColor, r.piece.isKing)
    ensures At(r.board, cur) == EmptyCell || cur == next
    ensures At(r.board, PassedOver(cur, next)) == EmptyCell || PassedOver(cur, next) == next
    ensures forall q :: InBounds(q) && q != cur && q != next && q != PassedOver(cur, next) ==> At(r.board, q) == At(b, q)
  {
    var mid := PassedOver(cur, next);
    var b1 := Put(b, cur, EmptyCell);
    var b2 := Put(b1, mid, EmptyCell);
    var p := Crowned(piece, next.row);
    Replayed(Put(b2, next, Cell(true, p.pieceColor, p.isKing)), p)
  }

  /**
   * A replayed jump by the piece standing on its start square is the same
   * board change as playing that jump on the board.
   */
  lemma ReplayStepIsMove(b: Board, piece: Cell, cur: Pos, next: Pos)
    requires Shaped(b) && EvenHop(cur, next) && IsJump(cur, next)
    requires At(b, cur) == Cell(true, piece.pieceColor, piece.isKing)
    ensures ReplayStep(b, piece, cur, next).board == ApplyMove(b, cur, next)
    ensures At(ApplyMove(b, cur, next), next) == Cell(true, piece.pieceColor, ReplayStep(b, piece, cur, next).piece.isKing)
  {
    var r := ReplayStep(b, piece, cur, next);
    var a := ApplyMove(b, cur, next);
    JumpMidpoint(cur, next);
    MoveEffect(b, cur, next);
    assert PassedOver(cur, next) == Midpoint(cur, next);
    forall q | InBounds(q)
      ensures At(r.board, q) == At(a, q)
    {
    }
    BoardsEqual(r.board, a);
  }

  /** The replayed piece after the hops from `k` on. */
  function PieceAfter(piece: Cell, path: seq<Pos>, k: nat): Cell
    requires k <= |path|
    decreases |path| - k
  {
    if k + 1 >= |path| then piece else PieceAfter(Crowned(piece, path[k + 1].row), path, k + 1)
  }

  /** The whole replay of the hops from `k` on. */
  function ReplayFrom(b: Board, piece: Cell, path: seq<Pos>, k: nat): (r: Replayed)
    requires Shaped(b) && Replayable(path) && k <= |path|
    ensures Shaped(r.board)
    ensures r.piece == PieceAfter(piece, path, k)
    decreases |path| - k
  {
    if k + 1 >= |path| then Replayed(b, piece)
    else
      var step := ReplayStep(b, piece, path[k], path[k + 1]);
      ReplayFrom(step.board, step.piece, path, k + 1)
  }

  /** The same hops played one after another with the rules engine. */
  function PlayFrom(b: Board, path: seq<Pos>, k: nat): (r: Board)
    requires Shaped(b) && Replayable(path) && k <= |path|
    ensures Shaped(r)
    decreases |path| - k
  {
    if k + 1 >= |path| then b else PlayFrom(ApplyMove(b, path[k], path[k + 1]), path, k + 1)
  }

  /**
   * Replaying a path of jumps, with the piece taken from its start square,
   * leaves the same board as playing each jump with the rules engine.
   */
  lemma {:induction false} ReplayIsPlay(b: Board, piece: Cell, path: seq<Pos>, k: nat)
    requires Shaped(b) && Replayable(path) && k < |path|
    requires forall i :: k <= i < |path| - 1 ==> IsJump(path[i], path[i + 1])
    requires At(b, path[k]) == Cell(true, piece.pieceColor, piece.isKing)
    ensures ReplayFrom(b, piece, path, k).board == PlayFrom(b, path, k)
    decreases |path| - k
  {
    if k + 1 < |path| {
      var step := ReplayStep(b, piece, path[k], path[k + 1]);
      ReplayStepIsMove(b, piece, path[k], path[k + 1]);
      ReplayIsPlay(step.board, step.piece, path, k + 1);
    }
  }

  /** The replayed piece keeps its colour, and once it is a king it stays one. */
  lemma {:induction false} ReplayKeepsKing(piece: Cell, path: seq<Pos>, k: nat)
    requires k <= |path|
    ensures PieceAfter(piece, path, k).pieceColor == piece.pieceColor
    ensures piece.isKing ==> PieceAfter(piece, path, k).isKing
    decreases |path| - k
  {
    if k + 1 < |path| {
      ReplayKeepsKing(Crowned(piece, path[k + 1].row), path, k + 1);
    }
  }

  /** A man whose path lands on its promotion row at hop `i` comes out of the replay a king. */
  lemma {:induction false} ReplayPromotion(piece: Cell, path: seq<Pos>, k: nat, i: nat)
    requires k < i < |path| && PromotionRow(piece.pieceColor, path[i].row)
    ensures PieceAfter(piece, path, k).isKing
    decreases |path| - k
  {
    var next := Crowned(piece, path[k + 1].row);
    if i == k + 1 {
      ReplayKeepsKing(next, path, k + 1);
    } else {
      ReplayPromotion(next, path, k + 1, i);
    }
  }

  // ---------------------------------------------------------------------------
  // The component
  // ---------------------------------------------------------------------------

  /** What is sent to the move oracle. */
  datatype BotRequest = BotRequest(board: seq<seq<string>>, playerColor: Color, difficulty: int)

  /** The oracle's answer: origin and destination coordinates and, for a capture, the path of landing squares. */
  datatype BotResponse = BotResponse(from: string, to: string, path: Option<seq<string>>)

  class BotBoard {
    const game: LocalBoard
    var botColor: Color
    var playerColor: Color
    var difficulty: int
    var isThinking: bool
    var isAnimatingCapture: bool
    var captureAnimationPath: seq<Pos>
    var captureAnimationStep: int
    /** The interval's own copy of the replayed piece. */
    var movingPiece: Cell
    var requests: seq<BotRequest>
    /** Oracle requests scheduled on a 500 ms timer and not yet issued. */
    var scheduledBotMoves: nat

    predicate Valid()
      reads this, game
    {
      && game.Valid()
      && (isAnimatingCapture ==> Replayable(captureAnimationPath) && 0 <= captureAnimationStep < |captureAnimationPath|)
    }

    /** The fields' initial values followed by the start-up of the underlying board; the oracle plays black. */
    constructor()
      ensures Valid() && fresh(game)
      ensures game.State() == InitGame(Game([], [], None, White, [], false, None, 12, 12))
      ensures botColor == Black && playerColor == White && difficulty == 2
      ensures !isThinking && !isAnimatingCapture && requests == [] && scheduledBotMoves == 0
    {
      game := new LocalBoard();
      botColor, playerColor, difficulty := Black, White, 2;
      isThinking, isAnimatingCapture := false, false;
      captureAnimationPath, captureAnimationStep, movingPiece := [], 0, EmptyCell;
      requests, scheduledBotMoves := [], 0;
    }

    /** A move by the human: the board's move, then an oracle request scheduled when the oracle is to move. */
    method MakeMove(from: Pos, to: Pos)
      requires Valid() && InBounds(from) && InBounds(to)
      modifies this, game
      ensures Valid()
      ensures game.State() == AfterMove(old(game.State()), from, to)
      ensures scheduledBotMoves == old(scheduledBotMoves) + if !game.gameOver && game.currentPlayer == botColor then 1 else 0
      ensures requests == old(requests) && isThinking == old(isThinking) && isAnimatingCapture == old(isAnimatingCapture)
      ensures botColor == old(botColor) && playerColor == old(playerColor) && difficulty == old(difficulty)
      ensures unchanged(this`captureAnimationPath, this`captureAnimationStep, this`movingPiece)
    {
      game.MakeMove(from, to);
      if !game.gameOver && game.currentPlayer == botColor {
        scheduledBotMoves := scheduledBotMoves + 1;
      }
    }

    /** Sends the board, encoded, to the oracle. */
    method GetBotMove()
      requires Valid()
      modifies this
      ensures Valid()
      ensures isThinking
      ensures requests == old(requests) + [BotRequest(EncodeBoard(game.board), botColor, difficulty)]
      ensures scheduledBotMoves == old(scheduledBotMoves) && isAnimatingCapture == old(isAnimatingCapture)
      ensures botColor == old(botColor) && playerColor == old(playerColor) && difficulty == old(difficulty)
      ensures unchanged(this`captureAnimationPath, this`captureAnimationStep, this`movingPiece)
    {
      isThinking := true;
      requests := requests + [BotRequest(EncodeBoard(game.board), botColor, difficulty)];
    }

    /** A scheduled oracle request fires. */
    method FireScheduledBotMove()
      requires Valid() && scheduledBotMoves > 0
      modifies this
      ensures Valid()
      ensures scheduledBotMoves == old(scheduledBotMoves) - 1
      ensures requests == old(requests) + [BotRequest(EncodeBoard(game.board), botColor, difficulty)]
      ensures isThinking && isAnimatingCapture == old(isAnimatingCapture)
      ensures botColor == old(botColor) && playerColor == old(playerColor) && difficulty == old(difficulty)
      ensures unchanged(this`captureAnimationPath, this`captureAnimationStep, this`movingPiece)
    {
      scheduledBotMoves := scheduledBotMoves - 1;
      GetBotMove();
    }

    /**
     * The oracle's answer: a non-empty path starts the replay from the origin;
     * otherwise the move is played directly on the board (without scheduling
     * another request).
     */
    method OnBotResponse(response: BotResponse)
      requires Valid()
      requires ParseCoord(response.from).Some? && InBounds(ParseCoord(response.from).value)
      requires !(response.path.Some? && |response.path.value| > 0) ==>
        ParseCoord(response.to).Some? && InBounds(ParseCoord(response.to).value)
      requires response.path.Some? && |response.path.value| > 0 ==>
        AllParse(response.path.value)
        && Replayable([ParseCoord(response.from).value] + PathSquares(response.path.value))
      modifies this, game
      ensures Valid() && !isThinking
      ensures response.path.Some? && |response.path.value| > 0 ==>
        && isAnimatingCapture && captureAnimationStep == 0
        && captureAnimationPath == [ParseCoord(response.from).value] + PathSquares(response.path.value)
        && movingPiece == At(old(game.board), ParseCoord(response.from).value)
        && game.State() == old(game.State())
      ensures !(response.path.Some? && |response.path.value| > 0) ==>
        && game.State() == AfterMove(old(game.State()), ParseCoord(response.from).value, ParseCoord(response.to).value)
        && isAnimatingCapture == old(isAnimatingCapture)
        && unchanged(this`captureAnimationPath, this`captureAnimationStep, this`movingPiece)
      ensures scheduledBotMoves == old(scheduledBotMoves) && requests == old(requests)
      ensures botColor == old(botColor) && playerColor == old(playerColor) && difficulty == old(difficulty)
    {
      isThinking := false;
      var from := ParseCoord(response.from).value;
      if response.path.Some? && |response.path.value| > 0 {
        AnimateBotCapturePath(from, response.path.value);
      } else {
        var to := ParseCoord(response.to).value;
        game.MakeMove(from, to);
      }
    }

    /** The oracle request failed: only the waiting flag is cleared. */
    method OnBotError()
      requires Valid()
      modifies this
      ensures Valid() && !isThinking
      ensures unchanged(this`botColor, this`playerColor, this`difficulty, this`isAnimatingCapture, this`requests, this`scheduledBotMoves)
      ensures unchanged(this`captureAnimationPath, this`captureAnimationStep, this`movingPiece)
    {
      isThinking := false;
    }

    /** Starts replaying a capture: the path is the start square followed by each parsed entry. */
    method AnimateBotCapturePath(start: Pos, entries: seq<string>)
      requires Valid() && InBounds(start) && AllParse(entries) && Replayable([start] + PathSquares(entries))
      modifies this
      ensures Valid()
      ensures isAnimatingCapture && captureAnimationStep == 0
      ensures captureAnimationPath == [start] + PathSquares(entries)
      ensures |captureAnimationPath| == |entries| + 1
      ensures movingPiece == At(game.board, start)
      ensures isThinking == old(isThinking) && requests == old(requests) && scheduledBotMoves == old(scheduledBotMoves)
      ensures botColor == old(botColor) && playerColor == old(playerColor) && difficulty == old(difficulty)
    {
      var path := [start];
      var i := 0;
      while i < |entries|
        invariant 0 <= i <= |entries|
        invariant path == [start] + PathSquares(entries)[..i]
      {
        var pos := ParseCoord(entries[i]).value;
        path := path + [pos];
        assert PathSquares(entries)[..i + 1] == PathSquares(entries)[..i] + [pos];
        i := i + 1;
      }
      assert PathSquares(entries)[..i] == PathSquares(entries);
      captureAnimationPath := path;
      captureAnimationStep := 0;
      movingPiece := At(game.board, start);
      isAnimatingCapture := true;
    }

    /**
     * One firing of the replay interval: replay the next hop and advance the
     * step by one; once the path is exhausted, stop, pass the turn once, and
     * recount and check for the end of the game.
     */
    method Tick()
      requires Valid() && isAnimatingCapture
      modifies this, game
      ensures Valid()
      ensures old(captureAnimationStep < |captureAnimationPath| - 1) ==>
        var r := ReplayStep(old(game.board), old(movingPiece), old(captureAnimationPath)[old(captureAnimationStep)],
                            old(captureAnimationPath)[old(captureAnimationStep) + 1]);
        && game.State() == old(game.State()).(board := r.board)
        && movingPiece == r.piece
        && captureAnimationStep == old(captureAnimationStep) + 1 && isAnimatingCapture
      ensures old(captureAnimationStep >= |captureAnimationPath| - 1) ==>
        && !isAnimatingCapture
        && game.State() == CheckedGame(old(game.State()).(currentPlayer := Opponent(old(game.currentPlayer))))
        && captureAnimationStep == old(captureAnimationStep) && movingPiece == old(movingPiece)
      ensures captureAnimationPath == old(captureAnimationPath)
      ensures isThinking == old(isThinking) && requests == old(requests) && scheduledBotMoves == old(scheduledBotMoves)
      ensures botColor == old(botColor) && playerColor == old(playerColor) && difficulty == old(difficulty)
    {
      if captureAnimationStep < |captureAnimationPath| - 1 {
        var current := captureAnimationPath[captureAnimationStep];
        var next := captureAnimationPath[captureAnimationStep + 1];
        var r := ReplayStep(game.board, movingPiece, current, next);
        game.board := r.board;
        movingPiece := r.piece;
        captureAnimationStep := captureAnimationStep + 1;
      } else {
        isAnimatingCapture := false;
        game.currentPlayer := Opponent(game.currentPlayer);
        UpdatePieceCount();
        game.CheckGameOver();
      }
    }

    /** Recounts the white and the other pieces on the board. */
    method UpdatePieceCount()
      requires Valid()
      modifies game
      ensures Valid()
      ensures game.State() == old(game.State()).(whiteCount := Whites(game.board), blackCount := Blacks(game.board))
      ensures game.whiteCount + game.blackCount == Occupied(game.board)
    {
      var white, black := CountPieces(game.board);
      game.whiteCount, game.blackCount := white, black;
    }

    /** Clicks are ignored while replaying, while waiting for the oracle, and on the oracle's turn. */
    method OnCellClick(row: int, col: int)
      requires Valid() && IsValidPosition(row, col)
      modifies this, game
      ensures Valid()
      ensures isAnimatingCapture == old(isAnimatingCapture) && isThinking == old(isThinking)
      ensures old(isAnimatingCapture || isThinking || game.currentPlayer == botColor) ==>
        game.State() == old(game.State()) && scheduledBotMoves == old(scheduledBotMoves)
      ensures !old(isAnimatingCapture || isThinking || game.currentPlayer == botColor) ==>
        && game.State() == AfterClick(old(game.State()), row, col)
        && scheduledBotMoves == old(scheduledBotMoves) +
             if old(!game.gameOver && game.IsHighlight(row, col) && game.selectedCell.Some?)
                && !game.gameOver && game.currentPlayer == botColor then 1 else 0
      ensures requests == old(requests)
      ensures botColor == old(botColor) && playerColor == old(playerColor) && difficulty == old(difficulty)
      ensures unchanged(this`captureAnimationPath, this`captureAnimationStep, this`movingPiece)
    {
      if isAnimatingCapture || isThinking || game.currentPlayer == botColor {
        return;
      }
      var moving := !game.gameOver && game.IsHighlight(row, col) && game.selectedCell.Some?;
      game.OnCellClick(row, col);
      if moving && !game.gameOver && game.currentPlayer == botColor {
        scheduledBotMoves := scheduledBotMoves + 1;
      }
    }

    /** Starts over: the board's setup, no replay, no pending answer, and a scheduled request when the oracle moves first. */
    method ResetGame()
      requires Valid()
      modifies this, game
      ensures Valid()
      ensures game.State() == InitGame(old(game.State()))
      ensures !isAnimatingCapture && !isThinking
      ensures scheduledBotMoves == old(scheduledBotMoves) + if botColor == White then 1 else 0
      ensures requests == old(requests) && botColor == old(botColor) && playerColor == old(playerColor)
      ensures difficulty == old(difficulty)
      ensures unchanged(this`captureAnimationPath, this`captureAnimationStep, this`movingPiece)
    {
      game.InitBoard();
      isAnimatingCapture := false;
      isThinking := false;
      if game.currentPlayer == botColor {
        scheduledBotMoves := scheduledBotMoves + 1;
      }
    }

    /** Sets the level sent with later oracle requests; nothing else changes. */
    method SetDifficulty(level: int)
      requires Valid()
      modifies this
      ensures Valid()
      ensures difficulty == level
      ensures unchanged(this`botColor, this`playerColor, this`isThinking, this`isAnimatingCapture, this`requests, this`scheduledBotMoves)
      ensures unchanged(this`captureAnimationPath, this`captureAnimationStep, this`movingPiece) && unchanged(game)
    {
      difficulty := level;
    }

    /** Chooses the oracle's side; the human plays the other one, and the game restarts. */
    method SetColors(color: Color)
      requires Valid()
      modifies this, game
      ensures Valid()
      ensures botColor == color && playerColor == Opponent(color) && playerColor != botColor
      ensures game.State() == InitGame(old(game.State()))
      ensures !isAnimatingCapture
      ensures color == White ==>
        scheduledBotMoves == old(scheduledBotMoves) + 1
        && requests == old(requests) + [BotRequest(EncodeBoard(InitialBoard()), White, difficulty)] && isThinking
      ensures color == Black ==> scheduledBotMoves == old(scheduledBotMoves) && requests == old(requests) && !isThinking
      ensures difficulty == old(difficulty)
      ensures unchanged(this`captureAnimationPath, this`captureAnimationStep, this`movingPiece)
    {
      botColor := color;
      playerColor := if color == Black then White else Black;
      ResetGame();
      if game.currentPlayer == botColor {
        GetBotMove();
      }
    }
  }
}

=== FILE: highlight_board.dfy ===
/**
 * The early board component that only shows a position and, when a piece
 * is clicked, highlights the empty squares diagonally next to it in all four
 * directions, whatever the piece's colour. It has no turns, no captures and
 * no kings; its cells are the engine's cells with the king flag left false.
 */
module HighlightBoard {
  import opened Options
  import opened Rules
  import opened LocalGame

  /** The four diagonal directions, in the order the click handler visits them. */
  const Diagonals: seq<Dir> := [Dir(1, 1), Dir(1, -1), Dir(-1, 1), Dir(-1, -1)]

  /** Along `ds ++ [d]`, the steps along `ds` and then the one along `d`. */
  lemma {:induction false} StepsAlongSnoc(b: Board, p: Pos, ds: seq<Dir>, d: Dir)
    requires Shaped(b)
    ensures StepsAlong(b, p, ds + [d])
      == StepsAlong(b, p, ds) + (if InBounds(Neighbour(p, d)) && !At(b, Neighbour(p, d)).hasPiece then [Neighbour(p, d)] else [])
  {
    if ds == [] {
      assert [d][1..] == [];
    } else {
      assert (ds + [d])[1..] == ds[1..] + [d];
      StepsAlongSnoc(b, p, ds[1..], d);
    }
  }

  /** The highlights after visiting one more of the four directions. */
  lemma HighlightStep(b: Board, p: Pos, i: nat)
    requires Shaped(b) && i < |Diagonals|
    ensures StepsAlong(b, p, Diagonals[..i + 1]) == StepsAlong(b, p, Diagonals[..i])
      + (if InBounds(Neighbour(p, Diagonals[i])) && !At(b, Neighbour(p, Diagonals[i])).hasPiece then [Neighbour(p, Diagonals[i])] else [])
  {
    StepsAlongSnoc(b, p, Diagonals[..i], Diagonals[i]);
    assert Diagonals[..i + 1] == Diagonals[..i] + [Diagonals[i]];
  }

  /**
   * The squares highlighted for a piece on `p` are exactly the on-board,
   * empty squares one diagonal step away, at most four of them.
   */
  lemma HighlightedNeighbours(b: Board, p: Pos)
    requires Shaped(b)
    ensures forall q :: q in StepsAlong(b, p, Diagonals) <==>
      && InBounds(q) && !At(b, q).hasPiece
      && (q.row == p.row + 1 || q.row == p.row - 1) && (q.col == p.col + 1 || q.col == p.col - 1)
    ensures |StepsAlong(b, p, Diagonals)| <= 4
  {
    forall q | InBounds(q) && !At(b, q).hasPiece
      && (q.row == p.row + 1 || q.row == p.row - 1) && (q.col == p.col + 1 || q.col == p.col - 1)
      ensures q in StepsAlong(b, p, Diagonals)
    {
      var d := Dir(q.row - p.row, q.col - p.col);
      assert d in Diagonals && q == Neighbour(p, d);
    }
  }

  class HighlightBoardPanel {
    var board: Board
    var highlightedCells: seq<Pos>

    constructor()
      ensures board == [] && highlightedCells == []
    {
      board, highlightedCells := [], [];
    }

    /** The standard starting position: twelve black men on rows 0-2, twelve white men on rows 5-7. */
    method InitBoard()
      modifies this
      ensures board == InitialBoard() && highlightedCells == old(highlightedCells)
    {
      board := InitialBoard();
    }

    /** Whether (row, col) is one of the highlighted squares. */
    function IsHighlight(row: int, col: int): (r: bool)
      reads this
      ensures r <==> exists i :: 0 <= i < |highlightedCells| && highlightedCells[i].row == row && highlightedCells[i].col == col
    {
      Pos(row, col) in highlightedCells
    }

    /**
     * A click on an empty square changes nothing; a click on a piece
     * replaces the highlights with its empty diagonal neighbours, visited in
     * the order of `Diagonals`.
     */
    method OnCellClick(row: int, col: int)
      requires Shaped(board) && IsValidPosition(row, col)
      modifies this
      ensures board == old(board)
      ensures !board[row][col].hasPiece ==> highlightedCells == old(highlightedCells)
      ensures board[row][col].hasPiece ==> highlightedCells == StepsAlong(board, Pos(row, col), Diagonals)
    {
      var cell := board[row][col];
      if !cell.hasPiece {
        return;
      }
      highlightedCells := [];
      for i := 0 to |Diagonals|
        invariant board == old(board)
        invariant highlightedCells == StepsAlong(board, Pos(row, col), Diagonals[..i])
      {
        var d := Diagonals[i];
        HighlightStep(board, Pos(row, col), i);
        var r2 := row + d.dr;
        var c2 := col + d.dc;
        if r2 >= 0 && r2 < 8 && c2 >= 0 && c2 < 8 {
          var target := board[r2][c2];
          if !target.hasPiece {
            highlightedCells := highlightedCells + [Pos(r2, c2)];
          }
        }
      }
      assert Diagonals[..|Diagonals|] == Diagonals;
    }
  }

  /** The starting position has twelve men of each colour, all on dark squares and none a king. */
  lemma StartingPosition()
    ensures Whites(InitialBoard()) == 12 && Blacks(InitialBoard()) == 12
    ensures forall p :: InBounds(p) && At(InitialBoard(), p).hasPiece ==>
      !IsLight(p.row, p.col) && !At(InitialBoard(), p).isKing
    ensures forall p :: InBounds(p) && At(InitialBoard(), p).hasPiece ==>
      (At(InitialBoard(), p).pieceColor == Some(Black) <==> p.row < 3)
  {
    InitialCounts();
    InitialLayout();
  }
}

=== FILE: local_board.dfy ===
/**
 * The local (two players on one screen) board: the offline board and the
 * app board run the same engine, so one class models both. The pure part is
 * a `Game` value and the functions that say what each event does to it; the
 * class keeps the same fields and its methods are proved to follow them.
 */
module LocalGame {
  import opened Options
  import opened Rules

  // ---------------------------------------------------------------------------
  // Starting position
  // ---------------------------------------------------------------------------

  /** The setup table, one code per square: black men on top, white men at the bottom. */
  const SetupTable: seq<seq<string>> := [
    ["", "b", "", "b", "", "b", "", "b"],
    ["b", "", "b", "", "b", "", "b", ""],
    ["", "b", "", "b", "", "b", "", "b"],
    ["", "", "", "", "", "", "", ""],
    ["", "", "", "", "", "", "", ""],
    ["w", "", "w", "", "w", "", "w", ""],
    ["", "w", "", "w", "", "w", "", "w"],
    ["w", "", "w", "", "w", "", "w", ""]
  ]

  /** A setup code becomes a man of its colour; every other code an empty square. */
  function SetupCell(code: string): (c: Cell)
    ensures WellFormedCell(c) && !c.isKing
    ensures c.hasPiece <==> code == "b" || code == "w"
    ensures c == if code == "b" then BlackMan else if code == "w" then WhiteMan else EmptyCell
  {
    Cell(code == "b" || code == "w", if code == "b" then Some(Black) else if code == "w" then Some(White) else None, false)
  }

  function SetupRow(codes: seq<string>): (row: seq<Cell>)
    ensures |row| == |codes|
    ensures forall i :: 0 <= i < |codes| ==> row[i] == SetupCell(codes[i])
  {
    seq(|codes|, i requires 0 <= i < |codes| => SetupCell(codes[i]))
  }

  function InitialBoard(): (b: Board)
    ensures Shaped(b)
  {
    seq(8, r requires 0 <= r < 8 => SetupRow(SetupTable[r]))
  }

  /** What the starting position holds on each square. */
  function StartingCell(p: Pos): Cell {
    if (p.row + p.col) % 2 == 1 && p.row < 3 then BlackMan
    else if (p.row + p.col) % 2 == 1 && p.row >= 5 then WhiteMan
    else EmptyCell
  }

  lemma SetupRowLayout(r: int)
    requires 0 <= r < 8
    ensures forall c :: 0 <= c < 8 ==> InitialBoard()[r][c] == StartingCell(Pos(r, c))
  {
    forall c | 0 <= c < 8
      ensures InitialBoard()[r][c] == StartingCell(Pos(r, c))
    {
      assert InitialBoard()[r][c] == SetupCell(SetupTable[r][c]);
      assert c == 0 || c == 1 || c == 2 || c == 3 || c == 4 || c == 5 || c == 6 || c == 7;
      assert r == 0 || r == 1 || r == 2 || r == 3 || r == 4 || r == 5 || r == 6 || r == 7;
    }
  }

  /**
   * The starting position: black men on the dark squares (odd coordinate
   * sum, where the light-square test is false) of rows 0-2, white men on
   * those of rows 5-7, no kings and nothing else.
   */
  lemma InitialLayout()
    ensures forall p :: InBounds(p) ==> At(InitialBoard(), p) == StartingCell(p)
    ensures forall p :: InBounds(p) && At(InitialBoard(), p).hasPiece ==>
      !IsLight(p.row, p.col) && !At(InitialBoard(), p).isKing && WellFormedCell(At(InitialBoard(), p))
  {
    forall p | InBounds(p)
      ensures At(InitialBoard(), p) == StartingCell(p)
    {
      SetupRowLayout(p.row);
    }
  }

  lemma RowCountsStep(row: seq<Cell>, k: int)
    requires 0 < k <= |row|
    ensures RowWhites(row[..k]) == RowWhites(row[..k - 1]) + CellWhite(row[k - 1])
    ensures RowBlacks(row[..k]) == RowBlacks(row[..k - 1]) + CellBlack(row[k - 1])
  {
    assert row[..k][..k - 1] == row[..k - 1];
  }

  lemma CountsStep(b: Board, k: int)
    requires 0 < k <= |b|
    ensures Whites(b[..k]) == Whites(b[..k - 1]) + RowWhites(b[k - 1])
    ensures Blacks(b[..k]) == Blacks(b[..k - 1]) + RowBlacks(b[k - 1])
  {
    assert b[..k][..k - 1] == b[..k - 1];
  }

  lemma RowCountsOfEight(row: seq<Cell>)
    requires |row| == 8
    ensures RowWhites(row) == CellWhite(row[0]) + CellWhite(row[1]) + CellWhite(row[2]) + CellWhite(row[3])
      + CellWhite(row[4]) + CellWhite(row[5]) + CellWhite(row[6]) + CellWhite(row[7])
    ensures RowBlacks(row) == CellBlack(row[0]) + CellBlack(row[1]) + CellBlack(row[2]) + CellBlack(row[3])
      + CellBlack(row[4]) + CellBlack(row[5]) + CellBlack(row[6]) + CellBlack(row[7])
  {
    assert row[..8] == row;
    RowCountsStep(row, 8); RowCountsStep(row, 7); RowCountsStep(row, 6); RowCountsStep(row, 5);
    RowCountsStep(row, 4); RowCountsStep(row, 3); RowCountsStep(row, 2); RowCountsStep(row, 1);
  }

  lemma CountsOfEight(b: Board)
    requires |b| == 8
    ensures Whites(b) == RowWhites(b[0]) + RowWhites(b[1]) + RowWhites(b[2]) + RowWhites(b[3])
      + RowWhites(b[4]) + RowWhites(b[5]) + RowWhites(b[6]) + RowWhites(b[7])
    ensures Blacks(b) == RowBlacks(b[0]) + RowBlacks(b[1]) + RowBlacks(b[2]) + RowBlacks(b[3])
      + RowBlacks(b[4]) + RowBlacks(b[5]) + RowBlacks(b[6]) + RowBlacks(b[7])
  {
    assert b[..8] == b;
    CountsStep(b, 8); CountsStep(b, 7); CountsStep(b, 6); CountsStep(b, 5);
    CountsStep(b, 4); CountsStep(b, 3); CountsStep(b, 2); CountsStep(b, 1);
  }

  /** Each starting row holds four men of one colour (rows 0-2 black, rows 5-7 white) or none. */
  lemma StartingRowCounts(r: int)
    requires 0 <= r < 8
    ensures RowWhites(InitialBoard()[r]) == if r >= 5 then 4 else 0
    ensures RowBlacks(InitialBoard()[r]) == if r < 3 then 4 else 0
  {
    SetupRowLayout(r);
    RowCountsOfEight(InitialBoard()[r]);
  }

  /** Twelve men a side. */
  lemma InitialCounts()
    ensures Whites(InitialBoard()) == 12 && Blacks(InitialBoard()) == 12
    ensures Occupied(InitialBoard()) == 24
  {
    var b := InitialBoard();
    CountsOfEight(b);
    StartingRowCounts(0); StartingRowCounts(1); StartingRowCounts(2); StartingRowCounts(3);
    StartingRowCounts(4); StartingRowCounts(5); StartingRowCounts(6); StartingRowCounts(7);
    CountsSplit(b);
  }

  // ---------------------------------------------------------------------------
  // The game state and what each event does to it
  // ---------------------------------------------------------------------------

  /** The fields the board component keeps. */
  datatype Game = Game(
    board: Board,
    highlightedCells: seq<Pos>,
    selectedCell: Option<Pos>,
    currentPlayer: Color,
    moves: seq<Move>,
    gameOver: bool,
    winner: Option<Color>,
    whiteCount: int,
    blackCount: int)

  /** The board has its 8x8 shape and a selection, if any, is on it. */
  predicate GameInv(g: Game) {
    Shaped(g.board) && (g.selectedCell.Some? ==> InBounds(g.selectedCell.value))
  }

  /**
   * Setup: the starting position, white to move, empty history, no
   * selection, no winner. The piece counters are not touched.
   */
  function InitGame(g: Game): (h: Game)
    ensures GameInv(h)
    ensures h.board == InitialBoard() && h.currentPlayer == White && h.moves == []
    ensures !h.gameOver && h.winner == None && h.highlightedCells == [] && h.selectedCell == None
    ensures h.whiteCount == g.whiteCount && h.blackCount == g.blackCount
  {
    Game(InitialBoard(), [], None, White, [], false, None, g.whiteCount, g.blackCount)
  }

  /** The square is one of the highlighted ones. */
  predicate Highlighted(cells: seq<Pos>, row: int, col: int) {
    exists i :: 0 <= i < |cells| && cells[i].row == row && cells[i].col == col
  }

  /** The end-of-game check: recount both sides, then apply the end-of-game rule for the side to move. */
  ghost function CheckedGame(g: Game): (h: Game)
    requires Shaped(g.board)
    ensures h.board == g.board && h.currentPlayer == g.currentPlayer && h.moves == g.moves
    ensures h.highlightedCells == g.highlightedCells && h.selectedCell == g.selectedCell
  {
    var st := Outcome(g.board, g.currentPlayer, Status(g.gameOver, g.winner));
    g.(whiteCount := Whites(g.board), blackCount := Blacks(g.board), gameOver := st.gameOver, winner := st.winner)
  }

  /**
   * A hop from `from` to `to`: the board effect, one history entry, then
   * either the same piece stays selected with its further capture landings
   * highlighted, or the turn passes and the end-of-game check runs.
   */
  ghost function AfterMove(g: Game, from: Pos, to: Pos): Game
    requires Shaped(g.board) && InBounds(from) && InBounds(to)
  {
    var b := ApplyMove(g.board, from, to);
    var g1 := g.(board := b, moves := g.moves + [HistoryEntry(from, to)]);
    if ChainContinues(b, from, to) then
      g1.(selectedCell := Some(to), highlightedCells := Landings(CapturesForPiece(b, to)))
    else
      CheckedGame(g1.(currentPlayer := Opponent(g.currentPlayer), selectedCell := None, highlightedCells := []))
  }

  /**
   * A click on a square: nothing once the game is over; a highlighted square
   * with a selection moves the selected piece there; an empty or opposing
   * square clears selection and highlights; an own piece becomes selected
   * with its valid moves highlighted.
   */
  ghost function AfterClick(g: Game, row: int, col: int): Game
    requires GameInv(g) && IsValidPosition(row, col)
  {
    if g.gameOver then g
    else if Highlighted(g.highlightedCells, row, col) && g.selectedCell.Some? then
      AfterMove(g, g.selectedCell.value, Pos(row, col))
    else if !Owns(g.board, Pos(row, col), g.currentPlayer) then
      g.(highlightedCells := [], selectedCell := None)
    else
      g.(selectedCell := Some(Pos(row, col)), highlightedCells := ValidMoves(g.board, g.currentPlayer, Pos(row, col)))
  }

  // ---------------------------------------------------------------------------
  // Properties of the events
  // ---------------------------------------------------------------------------

  /** A fresh game is not over, with white to move, no history and twelve men a side on the board. */
  lemma NewGameNotOver(g: Game)
    ensures var h := InitGame(g);
      && !h.gameOver && h.currentPlayer == White && h.moves == []
      && Whites(h.board) == 12 && Blacks(h.board) == 12
  {
    InitialCounts();
  }

  /** Every event keeps the board 8x8 and the selection on it. */
  lemma MoveKeepsInvariant(g: Game, from: Pos, to: Pos)
    requires GameInv(g) && InBounds(from) && InBounds(to)
    ensures GameInv(AfterMove(g, from, to))
  {
  }

  lemma ClickKeepsInvariant(g: Game, row: int, col: int)
    requires GameInv(g) && IsValidPosition(row, col)
    ensures GameInv(AfterClick(g, row, col))
  {
  }

  /**
   * Turn rule: a hop appends exactly one history entry and keeps the side to
   * move exactly when it was a jump after which the landed piece can jump
   * again; otherwise the turn passes, the selection clears and the end-of-game
   * rule has been applied.
   */
  lemma TurnRule(g: Game, from: Pos, to: Pos)
    requires Shaped(g.board) && InBounds(from) && InBounds(to)
    ensures var h := AfterMove(g, from, to);
      && h.board == ApplyMove(g.board, from, to)
      && |h.moves| == |g.moves| + 1 && h.moves[..|g.moves|] == g.moves
      && h.moves[|g.moves|] == HistoryEntry(from, to)
      && (h.currentPlayer == g.currentPlayer <==> IsJump(from, to) && |CapturesForPiece(h.board, to)| > 0)
      && (h.currentPlayer == g.currentPlayer ==>
            h.selectedCell == Some(to) && h.highlightedCells == Landings(CapturesForPiece(h.board, to))
            && h.gameOver == g.gameOver && h.winner == g.winner)
      && (h.currentPlayer != g.currentPlayer ==>
            h.currentPlayer == Opponent(g.currentPlayer) && h.selectedCell == None && h.highlightedCells == []
            && Status(h.gameOver, h.winner) == Outcome(h.board, h.currentPlayer, Status(g.gameOver, g.winner))
            && h.whiteCount == Whites(h.board) && h.blackCount == Blacks(h.board))
  {
    var h := AfterMove(g, from, to);
    assert h.moves == g.moves + [HistoryEntry(from, to)];
    assert (g.moves + [HistoryEntry(from, to)])[..|g.moves|] == g.moves;
  }

  /** A finished game stays finished: no hop and no click reopens it. */
  lemma GameOverIsFinal(g: Game, from: Pos, to: Pos, row: int, col: int)
    requires GameInv(g) && g.gameOver && InBounds(from) && InBounds(to) && IsValidPosition(row, col)
    ensures AfterMove(g, from, to).gameOver
    ensures AfterClick(g, row, col) == g
  {
    var b := ApplyMove(g.board, from, to);
    if !ChainContinues(b, from, to) {
      var g1 := g.(board := b, moves := g.moves + [HistoryEntry(from, to)]);
      OutcomeMonotone(b, Opponent(g.currentPlayer), Status(g.gameOver, g.winner));
    }
  }

  /** Selecting one's own piece highlights exactly its valid moves; under the capture obligation, its capture landings. */
  lemma SelectOwnPiece(g: Game, row: int, col: int)
    requires GameInv(g) && IsValidPosition(row, col) && !g.gameOver
    requires !(Highlighted(g.highlightedCells, row, col) && g.selectedCell.Some?)
    requires Owns(g.board, Pos(row, col), g.currentPlayer)
    ensures var h := AfterClick(g, row, col);
      && h.selectedCell == Some(Pos(row, col))
      && h.highlightedCells == ValidMoves(g.board, g.currentPlayer, Pos(row, col))
      && (HasCapture(g.board, g.currentPlayer) ==>
            h.highlightedCells == Landings(CapturesForPiece(g.board, Pos(row, col))))
      && h.board == g.board && h.moves == g.moves && h.currentPlayer == g.currentPlayer
  {
    if HasCapture(g.board, g.currentPlayer) {
      CaptureObligation(g.board, g.currentPlayer, Pos(row, col));
    }
  }

  /**
   * A click that is not a move onto a highlighted square never changes the
   * board, the history or the turn; on an empty or opposing square it clears
   * the selection and the highlights.
   */
  lemma ClickWithoutMoveKeepsPosition(g: Game, row: int, col: int)
    requires GameInv(g) && IsValidPosition(row, col)
    requires !(Highlighted(g.highlightedCells, row, col) && g.selectedCell.Some?)
    ensures var h := AfterClick(g, row, col);
      && h.board == g.board && h.moves == g.moves && h.currentPlayer == g.currentPlayer
      && h.gameOver == g.gameOver && h.winner == g.winner
      && (h.selectedCell.Some? <==>
            (!g.gameOver && Owns(g.board, Pos(row, col), g.currentPlayer)) || (g.gameOver && g.selectedCell.Some?))
      && (!g.gameOver && !Owns(g.board, Pos(row, col), g.currentPlayer) ==>
            h.highlightedCells == [] && h.selectedCell == None)
  {
  }

  /**
   * A capture chain is not enforced: while the same side is mid-chain, a
   * click on another of its own pieces that is not a highlighted landing
   * simply selects that piece instead.
   */
  lemma ChainNotEnforced(g: Game, from: Pos, to: Pos, q: Pos)
    requires GameInv(g) && InBounds(from) && InBounds(to) && InBounds(q) && !g.gameOver
    requires ChainContinues(ApplyMove(g.board, from, to), from, to)
    requires var h := AfterMove(g, from, to);
      Owns(h.board, q, h.currentPlayer) && !Highlighted(h.highlightedCells, q.row, q.col)
    ensures var h := AfterMove(g, from, to);
      AfterClick(h, q.row, q.col).selectedCell == Some(q)
  {
  }

  /**
   * The end-of-game check's verdicts, in its order: no white pieces makes
   * black the winner even when black has none either (an empty board included);
   * otherwise a declared white winner has pieces left against none; otherwise
   * both sides have pieces and the side to move, having no move, loses.
   */
  lemma CheckedWinner(g: Game)
    requires Shaped(g.board) && !g.gameOver
    ensures var h := CheckedGame(g);
      h.gameOver ==>
        || (h.winner == Some(Black) && Whites(g.board) == 0)
        || (h.winner == Some(White) && Whites(g.board) > 0 && Blacks(g.board) == 0)
        || (Whites(g.board) > 0 && Blacks(g.board) > 0 && !AnyValidMove(g.board, g.currentPlayer)
            && h.winner == Some(Opponent(g.currentPlayer)))
    ensures !CheckedGame(g).gameOver ==> Whites(g.board) > 0 && Blacks(g.board) > 0 && AnyValidMove(g.board, g.currentPlayer)
    ensures Whites(g.board) == 0 ==> CheckedGame(g).gameOver && CheckedGame(g).winner == Some(Black)
  {
  }

  // ---------------------------------------------------------------------------
  // The component
  // ---------------------------------------------------------------------------

  class LocalBoard {
    var board: Board
    var highlightedCells: seq<Pos>
    var selectedCell: Option<Pos>
    var currentPlayer: Color
    var moves: seq<Move>
    var gameOver: bool
    var winner: Option<Color>
    var whiteCount: int
    var blackCount: int

    function State(): Game
      reads this
    {
      Game(board, highlightedCells, selectedCell, currentPlayer, moves, gameOver, winner, whiteCount, blackCount)
    }

    predicate Valid()
      reads this
    {
      GameInv(State())
    }

    /** Field initialisers (twelve pieces counted a side) followed by setup on start-up. */
    constructor()
      ensures Valid()
      ensures State() == InitGame(Game([], [], None, White, [], false, None, 12, 12))
    {
      board, highlightedCells, selectedCell, currentPlayer := [], [], None, White;
      moves, gameOver, winner, whiteCount, blackCount := [], false, None, 12, 12;
      new;
      InitBoard();
    }

    method InitBoard()
      modifies this
      ensures Valid()
      ensures State() == InitGame(old(State()))
    {
      board := InitialBoard();
      currentPlayer := White;
      moves := [];
      gameOver := false;
      winner := None;
      highlightedCells := [];
      selectedCell := None;
    }

    /** Whether (row, col) is one of the highlighted squares. */
    function IsHighlight(row: int, col: int): (r: bool)
      reads this
      ensures r <==> Highlighted(highlightedCells, row, col)
      ensures r <==> Pos(row, col) in highlightedCells
    {
      Pos(row, col) in highlightedCells
    }

    /** Recounts both sides, then applies the end-of-game rule for the side to move. */
    method CheckGameOver()
      requires Valid()
      modifies this
      ensures Valid()
      ensures State() == CheckedGame(old(State()))
    {
      ghost var before := Status(gameOver, winner);
      var white, black := CountPieces(board);
      whiteCount, blackCount := white, black;
      if whiteCount == 0 {
        gameOver, winner := true, Some(Black);
        assert Outcome(board, currentPlayer, before) == Status(gameOver, winner);
        return;
      }
      if blackCount == 0 {
        gameOver, winner := true, Some(White);
        assert Outcome(board, currentPlayer, before) == Status(gameOver, winner);
        return;
      }
      var hasValidMoves := HasAnyValidMove(board, currentPlayer);
      if !hasValidMoves {
        gameOver, winner := true, Some(Opponent(currentPlayer));
      }
      assert Outcome(board, currentPlayer, before) == Status(gameOver, winner);
    }

    /** Moves the piece on `from` to `to` without checking legality, then keeps the chain or passes the turn. */
    method MakeMove(from: Pos, to: Pos)
      requires Valid() && InBounds(from) && InBounds(to)
      modifies this
      ensures Valid()
      ensures State() == AfterMove(old(State()), from, to)
    {
      ghost var g := State();
      var isCapture := IsJump(from, to);
      MoveBoard(from, to);
      moves := moves + [HistoryEntry(from, to)];
      ghost var g1 := g.(board := board, moves := moves);
      assert State() == g1;
      var additionalCaptures := CapturesForPiece(board, to);
      if isCapture && |additionalCaptures| > 0 {
        selectedCell := Some(to);
        highlightedCells := Landings(additionalCaptures);
      } else {
        currentPlayer := Opponent(currentPlayer);
        selectedCell := None;
        highlightedCells := [];
        CheckGameOver();
      }
    }

    /** The board writes of a move: place a copy of the piece, empty the origin, remove a jumped piece, crown on the far row. */
    method MoveBoard(from: Pos, to: Pos)
      requires Valid() && InBounds(from) && InBounds(to)
      modifies this
      ensures Valid()
      ensures State() == old(State()).(board := ApplyMove(old(board), from, to))
    {
      var movingPiece := At(board, from);
      board := Put(board, to, Cell(true, movingPiece.pieceColor, movingPiece.isKing));
      board := Put(board, from, EmptyCell);
      if IsJump(from, to) {
        board := Put(board, Midpoint(from, to), EmptyCell);
      }
      if !movingPiece.isKing && PromotionRow(movingPiece.pieceColor, to.row) {
        board := Put(board, to, At(board, to).(isKing := true));
      }
    }

    /** A click on the square (row, col). */
    method OnCellClick(row: int, col: int)
      requires Valid() && IsValidPosition(row, col)
      modifies this
      ensures Valid()
      ensures State() == AfterClick(old(State()), row, col)
    {
      if gameOver {
        return;
      }
      var cell := board[row][col];
      if IsHighlight(row, col) && selectedCell.Some? {
        MakeMove(selectedCell.value, Pos(row, col));
        return;
      }
      highlightedCells := [];
      if !cell.hasPiece {
        selectedCell := None;
        return;
      }
      if cell.pieceColor != Some(currentPlayer) {
        selectedCell := None;
        return;
      }
      selectedCell := Some(Pos(row, col));
      highlightedCells := ValidMoves(board, currentPlayer, Pos(row, col));
    }
  }
}

=== FILE: move_list.dfy ===
/**
 * What the two move-history panels share: the display records, the square
 * and move notation, and the arrangement of a flat sequence of formatted
 * moves into numbered turns, given for each move the "slot" it belongs to
 * (slot 2t is white's part of turn t+1, slot 2t+1 black's part).
 */
module MoveList {
  import opened Options
  import opened Rules
  import opened Notation

  datatype FormattedMove = FormattedMove(notation: string, isCaptureContinuation: bool)

  datatype TurnMoves = TurnMoves(number: int, white: seq<FormattedMove>, black: seq<FormattedMove>)

  /** The number of table rows a turn occupies: the longer of its two lists. */
  function RowSpan(turn: TurnMoves): (n: nat)
    ensures n >= |turn.white| && n >= |turn.black|
    ensures n == |turn.white| || n == |turn.black|
  {
    if |turn.white| >= |turn.black| then |turn.white| else |turn.black|
  }

  // ---------------------------------------------------------------------------
  // Notation
  // ---------------------------------------------------------------------------

  /** How string concatenation spells a missing value, and the sum of two of them. */
  const Undefined: string := "undefined"
  const NotANumber: string := "NaN"

  /**
   * The label of a board row: "1" for row 0 up to "8" for row 7 when
   * `ascending`, "8" for row 0 down to "1" for row 7 otherwise.
   */
  function RowLabel(ascending: bool, row: int): (ch: char)
    requires 0 <= row < 8
    ensures '1' <= ch <= '8'
    ensures ascending ==> ch as int - '1' as int == row
    ensures !ascending ==> '8' as int - ch as int == row
  {
    if ascending then ('1' as int + row) as char else ('8' as int - row) as char
  }

  /**
   * A column letter followed by a row label. An index outside the two
   * eight-entry tables reads as `undefined`, which string concatenation
   * spells out; with both outside, the sum of two `undefined`s is `NaN`.
   */
  function SquareName(ascending: bool, row: int, col: int): (s: string)
  {
    if 0 <= col < 8 && 0 <= row < 8 then [ColumnLetter(col), RowLabel(ascending, row)]
    else if 0 <= col < 8 then [ColumnLetter(col)] + Undefined
    else if 0 <= row < 8 then Undefined + [RowLabel(ascending, row)]
    else NotANumber
  }

  /** Different squares on the board get different names. */
  lemma SquareNameInjective(ascending: bool, p: Pos, q: Pos)
    requires InBounds(p) && InBounds(q)
    requires SquareName(ascending, p.row, p.col) == SquareName(ascending, q.row, q.col)
    ensures p == q
  {
    var s := SquareName(ascending, p.row, p.col);
    assert ColumnLetter(p.col) == s[0] == ColumnLetter(q.col);
    assert RowLabel(ascending, p.row) == s[1] == RowLabel(ascending, q.row);
  }

  /** The two labellings name the same square by mirrored rows. */
  lemma MirroredLabels(row: int, col: int)
    requires 0 <= row < 8
    ensures SquareName(false, row, col) == SquareName(true, 7 - row, col)
  {
  }

  /** "from-to" for a plain move, "fromxto" for a move that records captures. */
  function FormatMove(ascending: bool, m: Move): (s: string)
  {
    SquareName(ascending, m.from.row, m.from.col) + (if m.captured.Some? then "x" else "-")
      + SquareName(ascending, m.to.row, m.to.col)
  }

  /** "xto": a later hop of a capture chain, shown by its landing square only. */
  function FormatCaptureChain(ascending: bool, m: Move): (s: string)
  {
    "x" + SquareName(ascending, m.to.row, m.to.col)
  }

  predicate OnBoard(m: Move) {
    InBounds(m.from) && InBounds(m.to)
  }

  /**
   * On the board, a move's notation is five characters with the separator in
   * the middle, "x" exactly when it records captures, and a chain hop's is
   * three characters starting with "x", so the two never coincide.
   */
  lemma NotationShape(ascending: bool, m: Move)
    requires OnBoard(m)
    ensures |FormatMove(ascending, m)| == 5 && |FormatCaptureChain(ascending, m)| == 3
    ensures FormatMove(ascending, m)[..2] == SquareName(ascending, m.from.row, m.from.col)
    ensures FormatMove(ascending, m)[3..] == SquareName(ascending, m.to.row, m.to.col)
    ensures FormatMove(ascending, m)[2] == (if m.captured.Some? then 'x' else '-')
    ensures FormatCaptureChain(ascending, m)[0] == 'x'
    ensures FormatCaptureChain(ascending, m)[1..] == SquareName(ascending, m.to.row, m.to.col)
  {
  }

  /** A move's notation names its squares and whether it captured: two moves on the board with the same notation agree on these. */
  lemma FormatMoveInjective(ascending: bool, m: Move, n: Move)
    requires OnBoard(m) && OnBoard(n) && FormatMove(ascending, m) == FormatMove(ascending, n)
    ensures m.from == n.from && m.to == n.to && m.captured.Some? == n.captured.Some?
  {
    NotationShape(ascending, m);
    NotationShape(ascending, n);
    SquareNameInjective(ascending, m.from, n.from);
    SquareNameInjective(ascending, m.to, n.to);
  }

  // ---------------------------------------------------------------------------
  // Arranging moves into turns
  // ---------------------------------------------------------------------------

  /**
   * Entry `i` and slot `j`, as the terms on which the two panels'
   * characterisations of their entries and slots are instantiated.
   */
  ghost function EntryAt(e: seq<FormattedMove>, i: int): FormattedMove
    requires 0 <= i < |e|
  {
    e[i]
  }

  ghost function SlotAt(s: seq<nat>, j: int): nat
    requires 0 <= j < |s|
  {
    s[j]
  }

  /** Slots start at white's part of turn 1 and advance by at most one part per move. */
  ghost predicate ValidSlots(s: seq<nat>) {
    && (|s| > 0 ==> s[0] == 0)
    && forall i, j :: 0 <= i < j < |s| && j == i + 1 ==> s[j] == s[i] || s[j] == s[i] + 1
  }

  /** Appends a move to white's or black's list of the last turn. */
  function AddToLast(turns: seq<TurnMoves>, e: FormattedMove, toWhite: bool): (r: seq<TurnMoves>)
    requires |turns| > 0
    ensures |r| == |turns| && r[..|turns| - 1] == turns[..|turns| - 1]
  {
    var last := turns[|turns| - 1];
    turns[..|turns| - 1] + [if toWhite then last.(white := last.white + [e]) else last.(black := last.black + [e])]
  }

  /** Adding to the last turn leaves the turns before it alone. */
  lemma AddToLastSnoc(init: seq<TurnMoves>, last: TurnMoves, e: FormattedMove, toWhite: bool)
    ensures AddToLast(init + [last], e, toWhite)
      == init + [if toWhite then last.(white := last.white + [e]) else last.(black := last.black + [e])]
  {
    assert (init + [last])[..|init|] == init;
  }

  /** Places one formatted move in the turn its slot names: the last turn, or a new one after it. */
  function Place(turns: seq<TurnMoves>, e: FormattedMove, slot: nat): (r: seq<TurnMoves>)
    ensures |r| == |turns| || |r| == |turns| + 1
  {
    if |turns| > 0 && slot / 2 == |turns| - 1 then AddToLast(turns, e, slot % 2 == 0)
    else if slot % 2 == 0 then turns + [TurnMoves(|turns| + 1, [e], [])]
    else turns + [TurnMoves(|turns| + 1, [], [e])]
  }

  /** The turns holding the first `k` moves. */
  function Layout(e: seq<FormattedMove>, s: seq<nat>, k: nat): seq<TurnMoves>
    requires |e| == |s| && k <= |s|
  {
    if k == 0 then [] else Place(Layout(e, s, k - 1), e[k - 1], s[k - 1])
  }

  /** The moves of the turns read in order: each turn's white moves, then its black ones. */
  function Flatten(turns: seq<TurnMoves>): seq<FormattedMove> {
    if |turns| == 0 then [] else turns[0].white + turns[0].black + Flatten(turns[1..])
  }

  lemma {:induction false} FlattenSnoc(turns: seq<TurnMoves>, t: TurnMoves)
    ensures Flatten(turns + [t]) == Flatten(turns) + t.white + t.black
  {
    if |turns| == 0 {
      assert [t][1..] == [];
    } else {
      assert (turns + [t])[1..] == turns[1..] + [t];
      FlattenSnoc(turns[1..], t);
    }
  }
  /** The number of turns is fixed by the last move's slot. */
  lemma {:induction false} LayoutLength(e: seq<FormattedMove>, s: seq<nat>, k: nat)
    requires |e| == |s| && k <= |s| && ValidSlots(s)
    ensures k == 0 ==> |Layout(e, s, k)| == 0
    ensures k > 0 ==> |Layout(e, s, k)| == s[k - 1] / 2 + 1
  {
    if k > 1 {
      LayoutLength(e, s, k - 1);
    }
  }

  /** Consecutive slots differ by at most one part. */
  lemma SlotStep(s: seq<nat>, j: nat)
    requires ValidSlots(s) && 0 < j < |s|
    ensures s[j] == s[j - 1] || s[j] == s[j - 1] + 1
  {
  }

  /**
   * Slot arithmetic for a move after one in part `a`: black's part of a turn
   * is never the first part of that turn, white's part is either the
   * previous move's part or the next turn's.
   */
  lemma SlotParity(a: nat, b: nat)
    requires b == a || b == a + 1
    ensures b % 2 == 1 ==> b / 2 == a / 2
    ensures b / 2 == a / 2 && b % 2 == 0 ==> a == b
    ensures b % 2 == 0 && b != a ==> b / 2 == a / 2 + 1
  {
  }

  /** The turns are numbered 1, 2, … in order. */
  ghost predicate NumberedInOrder(turns: seq<TurnMoves>) {
    forall t :: 0 <= t < |turns| ==> turns[t].number == t + 1
  }

  /** Placing a move keeps the numbering. */
  lemma PlaceNumbers(turns: seq<TurnMoves>, e: FormattedMove, slot: nat)
    requires NumberedInOrder(turns)
    ensures NumberedInOrder(Place(turns, e, slot))
  {
    if |turns| > 0 && slot / 2 == |turns| - 1 {
      var n := |turns|;
      assert turns == turns[..n - 1] + [turns[n - 1]];
      AddToLastSnoc(turns[..n - 1], turns[n - 1], e, slot % 2 == 0);
    }
  }

  lemma {:induction false} LayoutNumbers(e: seq<FormattedMove>, s: seq<nat>, k: nat)
    requires |e| == |s| && k <= |s|
    ensures NumberedInOrder(Layout(e, s, k))
  {
    if k > 0 {
      LayoutNumbers(e, s, k - 1);
      PlaceNumbers(Layout(e, s, k - 1), e[k - 1], s[k - 1]);
    }
  }

  /** Every turn holds a white move. */
  ghost predicate WhiteOpensEach(turns: seq<TurnMoves>) {
    forall t :: 0 <= t < |turns| ==> |turns[t].white| > 0
  }

  /** A move placed in white's part, or in black's part of the last turn, keeps a white move in every turn. */
  lemma PlaceWhiteOpens(turns: seq<TurnMoves>, e: FormattedMove, slot: nat)
    requires WhiteOpensEach(turns)
    requires slot % 2 == 1 ==> |turns| > 0 && slot / 2 == |turns| - 1
    ensures WhiteOpensEach(Place(turns, e, slot))
  {
    if |turns| > 0 && slot / 2 == |turns| - 1 {
      var n := |turns|;
      assert turns == turns[..n - 1] + [turns[n - 1]];
      AddToLastSnoc(turns[..n - 1], turns[n - 1], e, slot % 2 == 0);
    }
  }

  /** Every turn opens with a white move. */
  lemma {:induction false} LayoutWhiteFirst(e: seq<FormattedMove>, s: seq<nat>, k: nat)
    requires |e| == |s| && k <= |s| && ValidSlots(s)
    ensures WhiteOpensEach(Layout(e, s, k))
  {
    if k > 0 {
      LayoutWhiteFirst(e, s, k - 1);
      if k > 1 {
        LayoutLength(e, s, k - 1);
        SlotStep(s, k - 1);
        SlotParity(s[k - 2], s[k - 1]);
      }
      PlaceWhiteOpens(Layout(e, s, k - 1), e[k - 1], s[k - 1]);
    }
  }

  /** A move placed in white's part leaves the last turn without black moves, if it had none when it was the move's turn. */
  lemma PlaceWhitePart(turns: seq<TurnMoves>, e: FormattedMove, slot: nat)
    requires slot % 2 == 0
    requires |turns| > 0 && slot / 2 == |turns| - 1 ==> turns[|turns| - 1].black == []
    ensures |Place(turns, e, slot)| > 0 && Place(turns, e, slot)[|Place(turns, e, slot)| - 1].black == []
  {
  }

  /** While white is still to finish the last turn, that turn has no black move. */
  lemma {:induction false} LastTurnWhiteOnly(e: seq<FormattedMove>, s: seq<nat>, k: nat)
    requires |e| == |s| && 0 < k <= |s| && ValidSlots(s) && s[k - 1] % 2 == 0
    ensures |Layout(e, s, k)| > 0 && Layout(e, s, k)[|Layout(e, s, k)| - 1].black == []
  {
    if k > 1 {
      LayoutLength(e, s, k - 1);
      SlotStep(s, k - 1);
      SlotParity(s[k - 2], s[k - 1]);
      if s[k - 1] == s[k - 2] {
        LastTurnWhiteOnly(e, s, k - 1);
      }
    }
    PlaceWhitePart(Layout(e, s, k - 1), e[k - 1], s[k - 1]);
  }

  /** Adding to the last turn appends to the flattened turns, unless it reopens white's part after black's. */
  lemma FlattenAddToLast(turns: seq<TurnMoves>, e: FormattedMove, toWhite: bool)
    requires |turns| > 0
    requires toWhite ==> turns[|turns| - 1].black == []
    ensures Flatten(AddToLast(turns, e, toWhite)) == Flatten(turns) + [e]
  {
    var n := |turns|;
    var last := turns[n - 1];
    var init := turns[..n - 1];
    var nl := if toWhite then last.(white := last.white + [e]) else last.(black := last.black + [e]);
    assert turns == init + [last];
    FlattenSnoc(init, last);
    FlattenSnoc(init, nl);
  }
  /** Placing a move appends it to the flattened turns, provided white's part is not reopened after black's. */
  lemma FlattenPlace(turns: seq<TurnMoves>, e: FormattedMove, slot: nat)
    requires |turns| > 0 && slot / 2 == |turns| - 1 && slot % 2 == 0 ==> turns[|turns| - 1].black == []
    ensures Flatten(Place(turns, e, slot)) == Flatten(turns) + [e]
  {
    if |turns| > 0 && slot / 2 == |turns| - 1 {
      FlattenAddToLast(turns, e, slot % 2 == 0);
    } else if slot % 2 == 0 {
      FlattenSnoc(turns, TurnMoves(|turns| + 1, [e], []));
    } else {
      FlattenSnoc(turns, TurnMoves(|turns| + 1, [], [e]));
    }
  }

  /** Placing the move after one in part `a` appends it to the flattened turns, white's part never being reopened after black's. */
  lemma FlattenPlaceAfter(turns: seq<TurnMoves>, e: FormattedMove, a: nat, b: nat)
    requires b == a || b == a + 1
    requires |turns| == a / 2 + 1
    requires b == a && a % 2 == 0 ==> turns[|turns| - 1].black == []
    ensures Flatten(Place(turns, e, b)) == Flatten(turns) + [e]
  {
    SlotParity(a, b);
    FlattenPlace(turns, e, b);
  }

  /** Placing move `k - 1` appends it to the flattened turns of the moves before it. */
  lemma LayoutStepFlatten(e: seq<FormattedMove>, s: seq<nat>, k: nat)
    requires |e| == |s| && 0 < k <= |s| && ValidSlots(s)
    ensures Flatten(Layout(e, s, k)) == Flatten(Layout(e, s, k - 1)) + [e[k - 1]]
  {
    if k == 1 {
      FlattenPlace([], e[0], s[0]);
    } else {
      LayoutLength(e, s, k - 1);
      SlotStep(s, k - 1);
      if s[k - 1] == s[k - 2] && s[k - 2] % 2 == 0 {
        LastTurnWhiteOnly(e, s, k - 1);
      }
      FlattenPlaceAfter(Layout(e, s, k - 1), e[k - 1], s[k - 2], s[k - 1]);
    }
  }

  lemma PrefixSnoc(e: seq<FormattedMove>, k: nat)
    requires 0 < k <= |e|
    ensures e[..k] == e[..k - 1] + [e[k - 1]]
  {
  }

  /** The turns hold exactly the moves, in order: white's part of each turn before black's. */
  lemma {:induction false} LayoutFlatten(e: seq<FormattedMove>, s: seq<nat>, k: nat)
    requires |e| == |s| && k <= |s| && ValidSlots(s)
    ensures Flatten(Layout(e, s, k)) == e[..k]
  {
    if k > 0 {
      LayoutFlatten(e, s, k - 1);
      LayoutStepFlatten(e, s, k);
      PrefixSnoc(e, k);
    }
  }

  /** A move whose slot opens the next turn goes into a new turn appended after the others. */
  lemma LayoutOpensTurn(e: seq<FormattedMove>, s: seq<nat>, k: nat)
    requires |e| == |s| && k < |s|
    requires s[k] == 2 * |Layout(e, s, k)|
    ensures Layout(e, s, k + 1) == Layout(e, s, k) + [TurnMoves(|Layout(e, s, k)| + 1, [e[k]], [])]
  {
  }

  /** Opening a new turn is the same as adding white's move to an empty turn appended after the others. */
  lemma LayoutFillsEmptyTurn(e: seq<FormattedMove>, s: seq<nat>, k: nat)
    requires |e| == |s| && k < |s|
    requires s[k] == 2 * |Layout(e, s, k)|
    ensures AddToLast(Layout(e, s, k) + [TurnMoves(|Layout(e, s, k)| + 1, [], [])], e[k], true) == Layout(e, s, k + 1)
  {
    LayoutOpensTurn(e, s, k);
    AddToLastSnoc(Layout(e, s, k), TurnMoves(|Layout(e, s, k)| + 1, [], []), e[k], true);
    assert [] + [e[k]] == [e[k]];
  }

  /** A move in the side part the last turn ends with is added to that side's list of the turn. */
  lemma LayoutExtendsTurn(e: seq<FormattedMove>, s: seq<nat>, k: nat, toWhite: bool)
    requires |e| == |s| && k < |s|
    requires s[k] == 2 * (|Layout(e, s, k)| - 1) + if toWhite then 0 else 1
    ensures |Layout(e, s, k)| > 0
    ensures Layout(e, s, k + 1) == AddToLast(Layout(e, s, k), e[k], toWhite)
  {
  }
}

=== FILE: notation.dfy ===
/** Characters the client uses to name squares: column letters and decimal digits. */
module Notation {
  function DigitChar(n: int): (ch: char)
    requires 0 <= n <= 9
    ensures '0' <= ch <= '9'
    ensures ch as int - '0' as int == n
  {
    ('0' as int + n) as char
  }

  predicate IsDigit(ch: char) {
    '0' <= ch <= '9'
  }

  /** The value of a decimal digit, as `parseInt` reads a one-character string. */
  function DigitValue(ch: char): (n: int)
    requires IsDigit(ch)
    ensures 0 <= n <= 9
    ensures DigitChar(n) == ch
  {
    ch as int - '0' as int
  }

  /** The letter naming a board column. */
  function ColumnLetter(col: int): (ch: char)
    requires 0 <= col < 8
    ensures 'A' <= ch <= 'H'
    ensures ch as int - 'A' as int == col
  {
    ('A' as int + col) as char
  }
}

=== FILE: offline_moves.dfy ===
/**
 * The move history of a game played on one device. A move is marked as a
 * continuation when it starts where the previous move landed; the side
 * changes after every move except a capture whose successor starts where
 * it landed; a turn is closed each time black hands over to white, and the
 * last turn is kept only if it holds a move. Rows are labelled 8 to 1 from
 * row 0.
 */
module OfflineMoves {
  import opened Options
  import opened Rules
  import opened MoveList

  /** The panel labels rows "8" to "1" from row 0 down. */
  const AscendingRows := false

  function ToAlgebraic(row: int, col: int): (s: string)
    ensures 0 <= row < 8 && 0 <= col < 8 ==>
      |s| == 2 && s[0] as int - 'A' as int == col && '8' as int - s[1] as int == row
  {
    SquareName(AscendingRows, row, col)
  }

  /** Move `i` starts on the square the previous move landed on. */
  predicate IsMultiCapture(moves: seq<Move>, i: nat)
    requires i < |moves|
  {
    i > 0 && moves[i].from == moves[i - 1].to
  }

  /** Move `i` captured and the next move starts where it landed, so the side does not change after it. */
  predicate KeepsSide(moves: seq<Move>, i: nat)
    requires i < |moves|
  {
    moves[i].captured.Some? && i < |moves| - 1 && moves[i + 1].from == moves[i].to
  }

  /** A continuation shows its landing square only; any other move shows both squares. */
  function Entry(moves: seq<Move>, i: nat): (f: FormattedMove)
    requires i < |moves|
    ensures f.isCaptureContinuation <==> IsMultiCapture(moves, i)
    ensures f.isCaptureContinuation ==> f.notation == FormatCaptureChain(AscendingRows, moves[i])
    ensures !f.isCaptureContinuation ==> f.notation == FormatMove(AscendingRows, moves[i])
  {
    if IsMultiCapture(moves, i) then FormattedMove(FormatCaptureChain(AscendingRows, moves[i]), true)
    else FormattedMove(FormatMove(AscendingRows, moves[i]), false)
  }

  function Entries(moves: seq<Move>): (es: seq<FormattedMove>)
    ensures |es| == |moves|
    ensures forall i :: 0 <= i < |moves| ==> es[i] == Entry(moves, i)
  {
    seq(|moves|, i requires 0 <= i < |moves| => Entry(moves, i))
  }

  /**
   * The side part move `i` goes to (for `i == |moves|`, the part a further
   * move would go to): it advances after every move that does not continue
   * a capture chain.
   */
  function Slot(moves: seq<Move>, i: nat): nat
    requires i <= |moves|
  {
    if i == 0 then 0 else Slot(moves, i - 1) + if KeepsSide(moves, i - 1) then 0 else 1
  }

  function Slots(moves: seq<Move>): (s: seq<nat>)
    ensures |s| == |moves|
    ensures forall i :: 0 <= i < |moves| ==> s[i] == Slot(moves, i)
  {
    seq(|moves|, i requires 0 <= i < |moves| => Slot(moves, i))
  }

  lemma SlotsValid(moves: seq<Move>)
    ensures ValidSlots(Slots(moves))
  {
  }

  /** `s` gives the slots of the moves. */
  ghost predicate SlotsOf(moves: seq<Move>, s: seq<nat>) {
    && |s| == |moves| && (|s| > 0 ==> s[0] == 0)
    && forall j {:trigger SlotAt(s, j)} :: 0 < j < |moves| ==>
         SlotAt(s, j) == s[j - 1] + if KeepsSide(moves, j - 1) then 0 else 1
  }

  /** `e` gives the formatted moves. */
  ghost predicate EntriesOf(moves: seq<Move>, e: seq<FormattedMove>) {
    && |e| == |moves|
    && forall i {:trigger EntryAt(e, i)} :: 0 <= i < |moves| ==>
         EntryAt(e, i) == if IsMultiCapture(moves, i) then FormattedMove(FormatCaptureChain(AscendingRows, moves[i]), true)
                          else FormattedMove(FormatMove(AscendingRows, moves[i]), false)
  }

  lemma SlotsAndEntries(moves: seq<Move>) returns (e: seq<FormattedMove>, s: seq<nat>)
    ensures SlotsOf(moves, s) && EntriesOf(moves, e)
  {
    e, s := Entries(moves), Slots(moves);
  }

  /** The characterisation of the slots determines each one. */
  lemma {:induction false} SlotCharacterised(moves: seq<Move>, s: seq<nat>, i: nat)
    requires SlotsOf(moves, s) && i < |moves|
    ensures s[i] == Slot(moves, i)
  {
    if i > 0 {
      SlotCharacterised(moves, s, i - 1);
      assert SlotAt(s, i) == s[i - 1] + if KeepsSide(moves, i - 1) then 0 else 1;
    }
  }

  /** The characterisations determine the entries and the slots. */
  lemma CharacterisedUniquely(moves: seq<Move>, e: seq<FormattedMove>, s: seq<nat>)
    requires SlotsOf(moves, s) && EntriesOf(moves, e)
    ensures e == Entries(moves) && s == Slots(moves)
  {
    forall i | 0 <= i < |moves|
      ensures e[i] == Entries(moves)[i] && s[i] == Slots(moves)[i]
    {
      assert EntryAt(e, i) == Entry(moves, i);
      SlotCharacterised(moves, s, i);
    }
  }

  /** The turns the panel shows for a history. */
  function Display(moves: seq<Move>): seq<TurnMoves> {
    Layout(Entries(moves), Slots(moves), |moves|)
  }

  /**
   * The panel lists every move once, in order, in turns numbered from 1 that
   * each open with a white move; and there are as many turns as pairs of
   * side parts.
   */
  lemma DisplayShape(moves: seq<Move>)
    ensures Flatten(Display(moves)) == Entries(moves)
    ensures forall t :: 0 <= t < |Display(moves)| ==> Display(moves)[t].number == t + 1 && |Display(moves)[t].white| > 0
    ensures |moves| == 0 ==> Display(moves) == []
    ensures |moves| > 0 ==> |Display(moves)| == Slot(moves, |moves| - 1) / 2 + 1
  {
    var e, s := Entries(moves), Slots(moves);
    SlotsValid(moves);
    LayoutFlatten(e, s, |moves|);
    LayoutNumbers(e, s, |moves|);
    LayoutWhiteFirst(e, s, |moves|);
    LayoutLength(e, s, |moves|);
    assert e[..|moves|] == e;
  }

  /** A move that stays in its predecessor's side part is marked as a continuation; the converse fails for a move that starts where a non-capture landed. */
  lemma SamePartIsContinuation(moves: seq<Move>, i: nat)
    requires 0 < i < |moves| && Slot(moves, i) == Slot(moves, i - 1)
    ensures Entries(moves)[i].isCaptureContinuation
  {
  }

  predicate IsEmptyTurn(turn: TurnMoves) {
    turn.white == [] && turn.black == []
  }

  /**
   * The turn being filled after the first `i` moves: with `organized` the
   * closed turns, it is empty (and white is to move) exactly when the first
   * `i` moves fill the closed turns, and otherwise it is the last of them.
   */
  ghost predicate TurnsSoFar(e: seq<FormattedMove>, s: seq<nat>, i: nat, organized: seq<TurnMoves>, current: TurnMoves, isWhiteTurn: bool)
    requires |e| == |s| && i <= |s|
  {
    && current.number == |organized| + 1
    && (IsEmptyTurn(current) ==> Layout(e, s, i) == organized && isWhiteTurn)
    && (!IsEmptyTurn(current) ==> Layout(e, s, i) == organized + [current])
  }

  /** Move `i` opens the current, empty turn with a white move. */
  lemma OpenCurrentTurn(e: seq<FormattedMove>, s: seq<nat>, i: nat, organized: seq<TurnMoves>, current: TurnMoves)
    requires |e| == |s| && i < |s| && Layout(e, s, i) == organized && s[i] == 2 * |organized|
    requires current == TurnMoves(|organized| + 1, [], [])
    ensures Layout(e, s, i + 1) == organized + [current.(white := current.white + [e[i]])]
  {
    LayoutOpensTurn(e, s, i);
    assert current.white + [e[i]] == [e[i]];
  }

  /** Move `i` goes to the side of the current, open turn whose part its slot is. */
  lemma ExtendCurrentTurn(e: seq<FormattedMove>, s: seq<nat>, i: nat, organized: seq<TurnMoves>, current: TurnMoves, toWhite: bool)
    requires |e| == |s| && i < |s| && Layout(e, s, i) == organized + [current]
    requires s[i] == 2 * |organized| + if toWhite then 0 else 1
    ensures Layout(e, s, i + 1)
      == organized + [if toWhite then current.(white := current.white + [e[i]]) else current.(black := current.black + [e[i]])]
  {
    LayoutExtendsTurn(e, s, i, toWhite);
    AddToLastSnoc(organized, current, e[i], toWhite);
  }

  class OfflineMovesPanel {
    var moves: seq<Move>
    var displayMoves: seq<TurnMoves>

    constructor()
      ensures moves == [] && displayMoves == []
    {
      moves, displayMoves := [], [];
    }

    /**
     * Rebuilds the turns in one pass: each move is formatted, added to the
     * side to move, and the side changes unless a capture chain goes on;
     * black's hand-over closes the turn, and the last turn is kept if it is
     * not empty. The turns are built in a local and stored at the end.
     */
    method OnChanges()
      modifies this
      ensures moves == old(moves)
      ensures displayMoves == Display(moves)
    {
      displayMoves := [];
      if |moves| == 0 {
        assert Display(moves) == [];
        return;
      }
      var ms := moves;
      ghost var e, s := SlotsAndEntries(ms);
      var organizedMoves: seq<TurnMoves> := [];
      var currentTurn := TurnMoves(1, [], []);
      var isWhiteTurn := true;
      var lastPosition: Option<Pos> := None;
      for i := 0 to |ms|
        invariant moves == ms == old(moves)
        invariant lastPosition == if i == 0 then None else Some(ms[i - 1].to)
        invariant i < |ms| ==> s[i] == 2 * |organizedMoves| + if isWhiteTurn then 0 else 1
        invariant TurnsSoFar(e, s, i, organizedMoves, currentTurn, isWhiteTurn)
      {
        var move := ms[i];
        var isMultiCapture := lastPosition.Some? && move.from == lastPosition.value;
        var formattedMove := FormattedMove(
          if isMultiCapture then FormatCaptureChain(AscendingRows, move) else FormatMove(AscendingRows, move),
          isMultiCapture);
        assert EntryAt(e, i) == formattedMove;
        if IsEmptyTurn(currentTurn) {
          OpenCurrentTurn(e, s, i, organizedMoves, currentTurn);
        } else {
          ExtendCurrentTurn(e, s, i, organizedMoves, currentTurn, isWhiteTurn);
        }
        if i + 1 < |ms| {
          assert SlotAt(s, i + 1) == s[i] + if KeepsSide(ms, i) then 0 else 1;
        }
        var switches := move.captured.None? || i == |ms| - 1
          || ms[i + 1].from.row != move.to.row || ms[i + 1].from.col != move.to.col;
        if isWhiteTurn {
          currentTurn := currentTurn.(white := currentTurn.white + [formattedMove]);
          if switches {
            isWhiteTurn := false;
          }
        } else {
          currentTurn := currentTurn.(black := currentTurn.black + [formattedMove]);
          if switches {
            isWhiteTurn := true;
            organizedMoves := organizedMoves + [currentTurn];
            currentTurn := TurnMoves(currentTurn.number + 1, [], []);
          }
        }
        lastPosition := Some(move.to);
      }
      if |currentTurn.white| > 0 || |currentTurn.black| > 0 {
        organizedMoves := organizedMoves + [currentTurn];
      }
      CharacterisedUniquely(ms, e, s);
      displayMoves := organizedMoves;
    }
  }

  /** Both panels name a square alike up to the direction of the row labels. */
  lemma MirroredNames(row: int, col: int)
    requires 0 <= row < 8
    ensures ToAlgebraic(row, col) == SquareName(true, 7 - row, col)
  {
    MirroredLabels(row, col);
  }
}

=== FILE: online_board.dfy ===
/**
 * The online board: the same rules engine, played against a remote opponent.
 * Moves are gated on the player's own turn; a hop that completes a move is
 * sent to the server as a request; the end-of-game check runs after every
 * hop and asks the server to delete a finished game. The server's state,
 * fetched by polling, overwrites the local board, turn, counts and status.
 * HTTP calls are modelled as a log of the requests issued.
 */
module OnlineGame {
  import opened Options
  import opened Rules
  import opened LocalGame
  import opened Notation

  // ---------------------------------------------------------------------------
  // Server data
  // ---------------------------------------------------------------------------

  datatype PlayerInfo = PlayerInfo(id: string, nickname: string, team: string)

  /** The game state as the server sends it; `board` is `None` where the field is null or not an array. */
  datatype GameResponse = GameResponse(
    id: string,
    board: Option<seq<seq<string>>>,
    turno: string,
    pedineW: int,
    pedineB: int,
    damaW: int,
    damaB: int,
    partitaTerminata: bool,
    vincitore: string,
    players: seq<PlayerInfo>)

  /** A request the client issues: saving a move, or deleting the finished game. */
  datatype Request = SaveMove(from: string, to: string, player: string) | DeleteGame

  /**
   * A server square code: any non-empty code is a piece, `b`/`B` black,
   * `w`/`W` white (another code leaves a piece without colour), and the
   * upper-case letters are kings.
   */
  function DecodeCell(code: string): (c: Cell)
    ensures c.hasPiece <==> code != ""
    ensures c.isKing <==> code == "B" || code == "W"
    ensures c.pieceColor == Some(Black) <==> code == "b" || code == "B"
    ensures c.pieceColor == Some(White) <==> code == "w" || code == "W"
    ensures c.pieceColor == None <==> code != "b" && code != "B" && code != "w" && code != "W"
  {
    Cell(code != "",
         if code == "b" || code == "B" then Some(Black) else if code == "w" || code == "W" then Some(White) else None,
         code == "B" || code == "W")
  }

  function DecodeRow(codes: seq<string>): (row: seq<Cell>)
    ensures |row| == |codes|
    ensures forall j :: 0 <= j < |codes| ==> row[j] == DecodeCell(codes[j])
  {
    seq(|codes|, j requires 0 <= j < |codes| => DecodeCell(codes[j]))
  }

  /** The board the server sends, decoded square by square with its own dimensions. */
  function DecodeBoard(rows: seq<seq<string>>): (b: Board)
    ensures |b| == |rows|
    ensures forall i :: 0 <= i < |rows| ==> b[i] == DecodeRow(rows[i])
  {
    seq(|rows|, i requires 0 <= i < |rows| => DecodeRow(rows[i]))
  }

  predicate GridShaped(rows: seq<seq<string>>) {
    |rows| == 8 && forall i :: 0 <= i < 8 ==> |rows[i]| == 8
  }

  /** Decoding keeps the grid's dimensions, so the decoded board is 8x8 exactly when the server's grid is. */
  lemma DecodedShape(rows: seq<seq<string>>)
    ensures Shaped(DecodeBoard(rows)) <==> GridShaped(rows)
  {
    if GridShaped(rows) {
      assert Shaped(DecodeBoard(rows));
    }
    if Shaped(DecodeBoard(rows)) {
      forall i | 0 <= i < 8
        ensures |rows[i]| == 8
      {
        assert |DecodeBoard(rows)[i]| == 8;
      }
    }
  }

  /** The name the server uses for a side. */
  function TeamName(c: Color): (s: string)
    ensures s == "WHITE" || s == "BLACK"
    ensures (s == "WHITE") <==> c == White
  {
    if c == White then "WHITE" else "BLACK"
  }

  /** The side the server names as `turno`: white for "WHITE", black for anything else. */
  function TurnFromServer(turno: string): (c: Color)
    ensures c == White <==> turno == "WHITE"
  {
    if turno == "WHITE" then White else Black
  }

  /** A square as the server expects it: column letter, then the row counted from the bottom, 1-8. */
  function WireSquare(p: Pos): (s: string)
    requires InBounds(p)
    ensures |s| == 2 && s[0] == ColumnLetter(p.col) && s[1] == DigitChar(8 - p.row)
  {
    [ColumnLetter(p.col)] + [DigitChar(8 - p.row)]
  }

  /** Distinct squares are sent under distinct names, and the name gives the square back. */
  lemma WireSquareInjective(p: Pos, q: Pos)
    requires InBounds(p) && InBounds(q)
    ensures WireSquare(p) == WireSquare(q) <==> p == q
  {
    if WireSquare(p) == WireSquare(q) {
      assert WireSquare(p)[0] == WireSquare(q)[0] && WireSquare(p)[1] == WireSquare(q)[1];
    }
  }

  /**
   * It is this client's turn iff its team is set and names the side to move.
   * An unset or empty team never has the turn.
   */
  function IsPlayerTurn(playerTeam: Option<string>, currentPlayer: Color): (r: bool)
    ensures r <==> playerTeam == Some(TeamName(currentPlayer))
    ensures r ==> playerTeam.Some? && playerTeam.value != ""
  {
    if playerTeam.None? || playerTeam.value == "" then false
    else (playerTeam.value == "WHITE" && currentPlayer == White) || (playerTeam.value == "BLACK" && currentPlayer == Black)
  }

  // ---------------------------------------------------------------------------
  // The session state and what each event does to it
  // ---------------------------------------------------------------------------

  /** The online component's fields: the game fields shared with the local board, plus the online ones. */
  datatype Session = Session(
    game: Game,
    playerTeam: Option<string>,
    requests: seq<Request>,
    whitePlayerNickname: string,
    blackPlayerNickname: string)

  predicate SessionInv(s: Session) {
    GameInv(s.game)
  }

  /**
   * The end-of-game check: recount, apply the end-of-game rule, and, when the
   * game is then over, ask for its deletion; the early returns for a side
   * without pieces issue no request.
   */
  ghost function CheckedSession(s: Session): Session
    requires Shaped(s.game.board)
  {
    var g := s.game;
    var h := CheckedGame(g);
    if Whites(g.board) == 0 || Blacks(g.board) == 0 then s.(game := h)
    else s.(game := h, requests := s.requests + if h.gameOver then [DeleteGame] else [])
  }

  /** The board effect of a hop and its history entry. */
  ghost function Hopped(s: Session, from: Pos, to: Pos): Session
    requires Shaped(s.game.board) && InBounds(from) && InBounds(to)
  {
    s.(game := s.game.(board := ApplyMove(s.game.board, from, to), moves := s.game.moves + [HistoryEntry(from, to)]))
  }

  /**
   * What follows the board effect of a hop by `moving`: a hop that ends the
   * move flips the turn and sends it (unless the moved piece has no colour,
   * which skips the rest); the end-of-game check then runs after every hop,
   * mid-chain included.
   */
  ghost function AfterHop(s: Session, from: Pos, to: Pos, moving: Cell): Session
    requires Shaped(s.game.board) && InBounds(from) && InBounds(to)
  {
    var g := s.game;
    if ChainContinues(g.board, from, to) then
      CheckedSession(s.(game := g.(selectedCell := Some(to), highlightedCells := Landings(CapturesForPiece(g.board, to)))))
    else
      var s2 := s.(game := g.(currentPlayer := Opponent(g.currentPlayer), selectedCell := None, highlightedCells := []));
      if moving.pieceColor.None? then s2
      else CheckedSession(s2.(requests := s2.requests + [SaveMove(WireSquare(from), WireSquare(to), TeamName(moving.pieceColor.value))]))
  }

  lemma AfterHopUnfold(s: Session, from: Pos, to: Pos, moving: Cell)
    requires Shaped(s.game.board) && InBounds(from) && InBounds(to)
    ensures var g := s.game;
      !ChainContinues(g.board, from, to) && moving.pieceColor.None? ==>
        AfterHop(s, from, to, moving) ==
          s.(game := g.(currentPlayer := Opponent(g.currentPlayer), selectedCell := None, highlightedCells := []))
    ensures var g := s.game;
      ChainContinues(g.board, from, to) ==>
        AfterHop(s, from, to, moving) ==
          CheckedSession(s.(game := g.(selectedCell := Some(to), highlightedCells := Landings(CapturesForPiece(g.board, to)))))
    ensures var g := s.game;
      var s2 := s.(game := g.(currentPlayer := Opponent(g.currentPlayer), selectedCell := None, highlightedCells := []));
      !ChainContinues(g.board, from, to) && moving.pieceColor.Some? ==>
        AfterHop(s, from, to, moving) ==
          CheckedSession(s2.(requests := s2.requests + [SaveMove(WireSquare(from), WireSquare(to), TeamName(moving.pieceColor.value))]))
  {
  }

  /** A hop, which only happens while it is this client's turn. */
  ghost function OnlineAfterMove(s: Session, from: Pos, to: Pos): Session
    requires Shaped(s.game.board) && InBounds(from) && InBounds(to)
  {
    if !IsPlayerTurn(s.playerTeam, s.game.currentPlayer) then s
    else AfterHop(Hopped(s, from, to), from, to, At(s.game.board, from))
  }

  /** A click: ignored once the game is over or while it is not this client's turn; otherwise as on the local board. */
  ghost function OnlineAfterClick(s: Session, row: int, col: int): Session
    requires SessionInv(s) && IsValidPosition(row, col)
  {
    var g := s.game;
    if g.gameOver || !IsPlayerTurn(s.playerTeam, g.currentPlayer) then s
    else if Highlighted(g.highlightedCells, row, col) && g.selectedCell.Some? then
      OnlineAfterMove(s, g.selectedCell.value, Pos(row, col))
    else if !Owns(g.board, Pos(row, col), g.currentPlayer) then
      s.(game := g.(highlightedCells := [], selectedCell := None))
    else
      s.(game := g.(selectedCell := Some(Pos(row, col)), highlightedCells := ValidMoves(g.board, g.currentPlayer, Pos(row, col))))
  }

  /**
   * Applying the server's state: the side to move, the board when one was
   * sent, the counts as men plus kings, the finished flag, and the winner
   * only when the game is finished with a named winner.
   */
  function StateFromServer(s: Session, r: GameResponse): (t: Session)
    ensures t.game.currentPlayer == White <==> r.turno == "WHITE"
    ensures t.game.board == if r.board.Some? then DecodeBoard(r.board.value) else s.game.board
    ensures t.game.whiteCount == r.pedineW + r.damaW && t.game.blackCount == r.pedineB + r.damaB
    ensures t.game.gameOver == r.partitaTerminata
    ensures !(r.partitaTerminata && r.vincitore != "NONE") ==> t.game.winner == s.game.winner
    ensures r.partitaTerminata && r.vincitore != "NONE" ==>
      t.game.winner == Some(if r.vincitore == "WHITE" then White else Black)
    ensures t.game.moves == s.game.moves && t.game.selectedCell == s.game.selectedCell
    ensures t.game.highlightedCells == s.game.highlightedCells
    ensures t.playerTeam == s.playerTeam && t.requests == s.requests
  {
    var g := s.game;
    var board := if r.board.Some? then DecodeBoard(r.board.value) else g.board;
    var winner := if r.partitaTerminata && r.vincitore != "NONE" then Some(if r.vincitore == "WHITE" then White else Black) else g.winner;
    s.(game := g.(currentPlayer := TurnFromServer(r.turno), board := board,
                  whiteCount := r.pedineW + r.damaW, blackCount := r.pedineB + r.damaB,
                  gameOver := r.partitaTerminata, winner := winner))
  }

  /** The team of the first listed player with this nickname. */
  function TeamOf(players: seq<PlayerInfo>, nickname: string): Option<string>
  {
    if players == [] then None
    else if players[0].nickname == nickname then Some(players[0].team)
    else TeamOf(players[1..], nickname)
  }

  /** The nickname of the last listed player on `team`, or `current` when none is. */
  function LastNickname(players: seq<PlayerInfo>, team: string, current: string): string
  {
    if players == [] then current
    else if players[|players| - 1].team == team then players[|players| - 1].nickname
    else LastNickname(players[..|players| - 1], team, current)
  }

  /** The team found is that of the first player listed under the nickname, and there is one exactly when such a player is listed. */
  lemma {:induction false} TeamOfFirstMatch(players: seq<PlayerInfo>, nickname: string)
    ensures TeamOf(players, nickname).Some? <==> exists i :: 0 <= i < |players| && players[i].nickname == nickname
    ensures TeamOf(players, nickname).Some? ==>
      exists i :: 0 <= i < |players| && players[i].nickname == nickname && TeamOf(players, nickname).value == players[i].team
        && (forall j :: 0 <= j < i ==> players[j].nickname != nickname)
  {
    if players != [] && players[0].nickname != nickname {
      TeamOfFirstMatch(players[1..], nickname);
      assert forall i :: 1 <= i < |players| ==> players[i] == players[1..][i - 1];
      if TeamOf(players, nickname).Some? {
        var k :| 0 <= k < |players[1..]| && players[1..][k].nickname == nickname
          && TeamOf(players, nickname).value == players[1..][k].team
          && (forall j :: 0 <= j < k ==> players[1..][j].nickname != nickname);
        assert players[k + 1].nickname == nickname;
        assert forall j :: 0 <= j < k + 1 ==> players[j].nickname != nickname;
      }
      if exists i :: 0 <= i < |players| && players[i].nickname == nickname {
        var i :| 0 <= i < |players| && players[i].nickname == nickname;
        assert players[1..][i - 1].nickname == nickname;
      }
    }
  }

  /** The nickname kept for a side is that of the last player listed on it, or the previous one when nobody is. */
  lemma {:induction false} LastNicknameIsLastMatch(players: seq<PlayerInfo>, team: string, current: string)
    ensures (forall i :: 0 <= i < |players| ==> players[i].team != team) ==> LastNickname(players, team, current) == current
    ensures (exists i :: 0 <= i < |players| && players[i].team == team) ==>
      exists i :: 0 <= i < |players| && players[i].team == team && LastNickname(players, team, current) == players[i].nickname
        && (forall j :: i < j < |players| ==> players[j].team != team)
  {
    if players != [] && players[|players| - 1].team != team {
      var init := players[..|players| - 1];
      LastNicknameIsLastMatch(init, team, current);
      assert forall i :: 0 <= i < |players| - 1 ==> players[i] == init[i];
      if exists i :: 0 <= i < |players| && players[i].team == team {
        var i :| 0 <= i < |players| && players[i].team == team;
        assert init[i].team == team;
      }
    }
  }

  /**
   * A poll result: the client learns its team from the player listed under
   * its stored nickname (when it has one), takes both sides' nicknames, and
   * applies the server's state.
   */
  function AfterPoll(s: Session, r: GameResponse, nickname: Option<string>): (t: Session)
    ensures nickname.Some? && nickname.value != "" && TeamOf(r.players, nickname.value).Some? ==>
      t.playerTeam == TeamOf(r.players, nickname.value)
    ensures !(nickname.Some? && nickname.value != "" && TeamOf(r.players, nickname.value).Some?) ==>
      t.playerTeam == s.playerTeam
    ensures t.whitePlayerNickname == LastNickname(r.players, "WHITE", s.whitePlayerNickname)
    ensures t.blackPlayerNickname == LastNickname(r.players, "BLACK", s.blackPlayerNickname)
    ensures t.game == StateFromServer(s, r).game && t.requests == s.requests
  {
    var team := if nickname.Some? && nickname.value != "" && TeamOf(r.players, nickname.value).Some?
      then TeamOf(r.players, nickname.value) else s.playerTeam;
    var s1 := s.(playerTeam := team,
                 whitePlayerNickname := LastNickname(r.players, "WHITE", s.whitePlayerNickname),
                 blackPlayerNickname := LastNickname(r.players, "BLACK", s.blackPlayerNickname));
    StateFromServer(s1, r)
  }

  // ---------------------------------------------------------------------------
  // Properties
  // ---------------------------------------------------------------------------

  /** Off turn, neither a move nor a click changes anything, and nothing is sent. */
  lemma TurnGate(s: Session, from: Pos, to: Pos, row: int, col: int)
    requires SessionInv(s) && InBounds(from) && InBounds(to) && IsValidPosition(row, col)
    requires !IsPlayerTurn(s.playerTeam, s.game.currentPlayer)
    ensures OnlineAfterMove(s, from, to) == s
    ensures OnlineAfterClick(s, row, col) == s
  {
  }

  /**
   * On turn, the board and history change exactly as on the local board,
   * and the side to move is kept exactly when the hop was a jump from which
   * the piece can jump again.
   */
  lemma OnlineMoveMatchesLocal(s: Session, from: Pos, to: Pos)
    requires SessionInv(s) && InBounds(from) && InBounds(to)
    requires IsPlayerTurn(s.playerTeam, s.game.currentPlayer)
    ensures var t := OnlineAfterMove(s, from, to);
      && t.game.board == AfterMove(s.game, from, to).board
      && t.game.moves == AfterMove(s.game, from, to).moves
      && t.game.currentPlayer == AfterMove(s.game, from, to).currentPlayer
      && t.game.selectedCell == AfterMove(s.game, from, to).selectedCell
      && t.game.highlightedCells == AfterMove(s.game, from, to).highlightedCells
      && (t.game.currentPlayer == s.game.currentPlayer <==> ChainContinues(t.game.board, from, to))
  {
  }

  /**
   * Sending: a hop that keeps the capture chain going sends no move; a hop
   * that ends the move by a coloured piece sends one request naming its
   * origin and landing squares and the mover's side; a colourless piece
   * sends nothing and skips the check. Where the check runs, it then asks for
   * deletion exactly when both sides still have pieces and the game is over.
   */
  lemma SendRule(s: Session, from: Pos, to: Pos)
    requires SessionInv(s) && InBounds(from) && InBounds(to)
    requires IsPlayerTurn(s.playerTeam, s.game.currentPlayer)
    ensures var t := OnlineAfterMove(s, from, to);
      var moving := At(s.game.board, from);
      var deletion := if Whites(t.game.board) > 0 && Blacks(t.game.board) > 0 && t.game.gameOver then [DeleteGame] else [];
      && (ChainContinues(t.game.board, from, to) ==> t.requests == s.requests + deletion)
      && (!ChainContinues(t.game.board, from, to) && moving.pieceColor.Some? ==>
            t.requests == s.requests + [SaveMove(WireSquare(from), WireSquare(to), TeamName(moving.pieceColor.value))] + deletion)
      && (!ChainContinues(t.game.board, from, to) && moving.pieceColor.None? ==>
            t.requests == s.requests && t.game.gameOver == s.game.gameOver)
  {
    var h := Hopped(s, from, to);
    var g := h.game;
    var moving := At(s.game.board, from);
    if ChainContinues(g.board, from, to) {
      DeleteRule(h.(game := g.(selectedCell := Some(to), highlightedCells := Landings(CapturesForPiece(g.board, to)))));
    } else if moving.pieceColor.Some? {
      var s2 := h.(game := g.(currentPlayer := Opponent(g.currentPlayer), selectedCell := None, highlightedCells := []));
      DeleteRule(s2.(requests := s2.requests + [SaveMove(WireSquare(from), WireSquare(to), TeamName(moving.pieceColor.value))]));
    }
  }

  /**
   * Deletion: the end-of-game check asks for deletion exactly when both sides
   * still have pieces and the game is over afterwards, so a game won by
   * taking the last piece is never deleted by the client.
   */
  lemma DeleteRule(s: Session)
    requires Shaped(s.game.board)
    ensures var t := CheckedSession(s);
      && t.game == CheckedGame(s.game)
      && (t.requests == s.requests + [DeleteGame] <==>
            Whites(s.game.board) > 0 && Blacks(s.game.board) > 0 && t.game.gameOver)
      && (t.requests == s.requests <==> !(Whites(s.game.board) > 0 && Blacks(s.game.board) > 0 && t.game.gameOver))
  {
    var t := CheckedSession(s);
    assert |s.requests + [DeleteGame]| != |s.requests|;
  }

  /**
   * The check that runs mid-chain cannot end the game on the mover's side
   * being stuck: the landed piece belongs to the side to move and can jump
   * again, so the status only changes when a side has run out of pieces.
   */
  lemma MidChainCheckKeepsGame(s: Session, from: Pos, to: Pos)
    requires SessionInv(s) && InBounds(from) && InBounds(to) && from != to
    requires IsPlayerTurn(s.playerTeam, s.game.currentPlayer) && Owns(s.game.board, from, s.game.currentPlayer)
    requires ChainContinues(ApplyMove(s.game.board, from, to), from, to)
    ensures var b := ApplyMove(s.game.board, from, to);
      Whites(b) > 0 && Blacks(b) > 0 ==>
        OnlineAfterMove(s, from, to).game.gameOver == s.game.gameOver
        && OnlineAfterMove(s, from, to).game.winner == s.game.winner
  {
    var b := ApplyMove(s.game.board, from, to);
    var player := s.game.currentPlayer;
    var st := Status(s.game.gameOver, s.game.winner);
    if Whites(b) > 0 && Blacks(b) > 0 {
      LandedPieceCanCapture(s.game.board, player, from, to);
      CapturingSideNotStuck(b, player, st);
      var h := Hopped(s, from, to);
      var pre := h.(game := h.game.(selectedCell := Some(to), highlightedCells := Landings(CapturesForPiece(b, to))));
      assert OnlineAfterMove(s, from, to) == CheckedSession(pre);
      assert CheckedSession(pre).game == CheckedGame(pre.game);
    }
  }

  /** After a hop that keeps the chain going, the side to move has a capture on the board. */
  lemma LandedPieceCanCapture(b: Board, player: Color, from: Pos, to: Pos)
    requires Shaped(b) && InBounds(from) && InBounds(to) && from != to && Owns(b, from, player)
    requires ChainContinues(ApplyMove(b, from, to), from, to)
    ensures HasCapture(ApplyMove(b, from, to), player)
  {
    var a := ApplyMove(b, from, to);
    MoveEffect(b, from, to);
    assert Owns(a, to, player);
    HasCaptureIff(a, player);
  }

  /** A finished game stays finished through a move. */
  lemma OnlineGameOverIsFinal(s: Session, from: Pos, to: Pos)
    requires SessionInv(s) && InBounds(from) && InBounds(to) && s.game.gameOver
    ensures OnlineAfterMove(s, from, to).game.gameOver
  {
    var b := ApplyMove(s.game.board, from, to);
    OutcomeMonotone(b, s.game.currentPlayer, Status(s.game.gameOver, s.game.winner));
    OutcomeMonotone(b, Opponent(s.game.currentPlayer), Status(s.game.gameOver, s.game.winner));
  }

  /** A winner named by the server replaces the local one only on a finished game, and "NONE" never clears it. */
  lemma ServerWinner(s: Session, r: GameResponse)
    ensures var t := StateFromServer(s, r);
      && (t.game.winner != s.game.winner ==> r.partitaTerminata && r.vincitore != "NONE")
      && (r.vincitore == "BLACK" && r.partitaTerminata ==> t.game.winner == Some(Black))
      && (r.vincitore == "WHITE" && r.partitaTerminata ==> t.game.winner == Some(White))
  {
  }

  // ---------------------------------------------------------------------------
  // The component
  // ---------------------------------------------------------------------------

  class OnlineBoard {
    var board: Board
    var highlightedCells: seq<Pos>
    var selectedCell: Option<Pos>
    var currentPlayer: Color
    var playerTeam: Option<string>
    var moves: seq<Move>
    var gameOver: bool
    var winner: Option<Color>
    var whiteCount: int
    var blackCount: int
    var requests: seq<Request>
    var whitePlayerNickname: string
    var blackPlayerNickname: string

    function State(): Session
      reads this
    {
      Session(Game(board, highlightedCells, selectedCell, currentPlayer, moves, gameOver, winner, whiteCount, blackCount),
              playerTeam, requests, whitePlayerNickname, blackPlayerNickname)
    }

    predicate Valid()
      reads this
    {
      SessionInv(State())
    }

    /** Field initialisers followed by setup on start-up; polling is not part of the model. */
    constructor()
      ensures Valid()
      ensures State() == Session(InitGame(Game([], [], None, White, [], false, None, 12, 12)), None, [],
                                 "Giocatore Bianco", "Giocatore Nero")
    {
      board, highlightedCells, selectedCell, currentPlayer, playerTeam := [], [], None, White, None;
      moves, gameOver, winner, whiteCount, blackCount := [], false, None, 12, 12;
      requests, whitePlayerNickname, blackPlayerNickname := [], "Giocatore Bianco", "Giocatore Nero";
      new;
      InitBoard();
    }

    method InitBoard()
      modifies this
      ensures Valid()
      ensures State() == old(State()).(game := InitGame(old(State()).game))
    {
      board := InitialBoard();
      currentPlayer := White;
      moves := [];
      gameOver := false;
      winner := None;
      highlightedCells := [];
      selectedCell := None;
    }

    function IsHighlight(row: int, col: int): (r: bool)
      reads this
      ensures r <==> Highlighted(highlightedCells, row, col)
    {
      Pos(row, col) in highlightedCells
    }

    /** Replaces the board with the server's when one was sent. */
    method UpdateBoardFromState(boardState: Option<seq<seq<string>>>)
      modifies this
      ensures State() == old(State()).(game := old(State()).game.(board :=
        if boardState.Some? then DecodeBoard(boardState.value) else old(board)))
      ensures old(Valid()) && (boardState.Some? ==> GridShaped(boardState.value)) ==> Valid()
    {
      if boardState.Some? {
        DecodedShape(boardState.value);
      }
      if boardState.None? {
        return;
      }
      board := DecodeBoard(boardState.value);
    }

    method UpdateGameState(response: GameResponse)
      modifies this
      ensures State() == StateFromServer(old(State()), response)
      ensures old(Valid()) && (response.board.Some? ==> GridShaped(response.board.value)) ==> Valid()
    {
      ghost var s0 := State();
      currentPlayer := TurnFromServer(response.turno);
      UpdateBoardFromState(response.board);
      whiteCount := response.pedineW + response.damaW;
      blackCount := response.pedineB + response.damaB;
      gameOver := response.partitaTerminata;
      if gameOver && response.vincitore != "NONE" {
        winner := Some(if response.vincitore == "WHITE" then White else Black);
      }
      assert State() == s0.(game := s0.game.(currentPlayer := currentPlayer, board := board,
        whiteCount := whiteCount, blackCount := blackCount, gameOver := gameOver, winner := winner));
    }

    /** The body of the poll callback, with the stored nickname as a parameter. */
    method ApplyPoll(response: GameResponse, nickname: Option<string>)
      modifies this
      ensures State() == AfterPoll(old(State()), response, nickname)
      ensures old(Valid()) && (response.board.Some? ==> GridShaped(response.board.value)) ==> Valid()
    {
      if nickname.Some? && nickname.value != "" {
        var playerMatch := TeamOf(response.players, nickname.value);
        if playerMatch.Some? {
          playerTeam := playerMatch;
        }
      }
      var i := 0;
      ghost var white0, black0 := whitePlayerNickname, blackPlayerNickname;
      ghost var before := State();
      while i < |response.players|
        invariant 0 <= i <= |response.players|
        invariant State() == before.(whitePlayerNickname := whitePlayerNickname, blackPlayerNickname := blackPlayerNickname)
        invariant whitePlayerNickname == LastNickname(response.players[..i], "WHITE", white0)
        invariant blackPlayerNickname == LastNickname(response.players[..i], "BLACK", black0)
      {
        var player := response.players[i];
        assert response.players[..i + 1][..i] == response.players[..i];
        if player.team == "WHITE" {
          whitePlayerNickname := player.nickname;
        } else if player.team == "BLACK" {
          blackPlayerNickname := player.nickname;
        }
        i := i + 1;
      }
      assert response.players[..i] == response.players;
      assert State() == old(State()).(playerTeam := playerTeam,
        whitePlayerNickname := LastNickname(response.players, "WHITE", old(whitePlayerNickname)),
        blackPlayerNickname := LastNickname(response.players, "BLACK", old(blackPlayerNickname)));
      UpdateGameState(response);
    }

    function IsPlayerTurnNow(): (r: bool)
      reads this
      ensures r <==> playerTeam == Some(TeamName(currentPlayer))
    {
      IsPlayerTurn(playerTeam, currentPlayer)
    }

    method CheckGameOver()
      requires Valid()
      modifies this
      ensures Valid()
      ensures State() == CheckedSession(old(State()))
    {
      ghost var before := Status(gameOver, winner);
      var white, black := CountPieces(board);
      whiteCount, blackCount := white, black;
      if white == 0 {
        gameOver, winner := true, Some(Black);
        assert Outcome(board, currentPlayer, before) == Status(gameOver, winner);
        return;
      }
      if black == 0 {
        gameOver, winner := true, Some(White);
        assert Outcome(board, currentPlayer, before) == Status(gameOver, winner);
        return;
      }
      var hasValidMoves := HasAnyValidMove(board, currentPlayer);
      if !hasValidMoves {
        gameOver, winner := true, Some(Opponent(currentPlayer));
      }
      assert Outcome(board, currentPlayer, before) == Status(gameOver, winner);
      if gameOver {
        requests := requests + [DeleteGame];
      }
    }

    method MakeMove(from: Pos, to: Pos)
      requires Valid() && InBounds(from) && InBounds(to)
      modifies this
      ensures Valid()
      ensures State() == OnlineAfterMove(old(State()), from, to)
    {
      if !IsPlayerTurnNow() {
        return;
      }
      var movingPiece := At(board, from);
      MoveBoard(from, to);
      moves := moves + [HistoryEntry(from, to)];
      assert State() == Hopped(old(State()), from, to);
      EndHop(from, to, movingPiece);
    }

    /** After the board writes and the history entry: keep the chain, or pass the turn and send the move; then the end-of-game check. */
    method EndHop(from: Pos, to: Pos, movingPiece: Cell)
      requires Valid() && InBounds(from) && InBounds(to)
      modifies this
      ensures Valid()
      ensures State() == AfterHop(old(State()), from, to, movingPiece)
    {
      ghost var s0 := State();
      ghost var g := s0.game;
      AfterHopUnfold(s0, from, to, movingPiece);
      var additionalCaptures := CapturesForPiece(board, to);
      if IsJump(from, to) && |additionalCaptures| > 0 {
        selectedCell := Some(to);
        highlightedCells := Landings(additionalCaptures);
        assert State() == s0.(game := g.(selectedCell := Some(to), highlightedCells := Landings(CapturesForPiece(g.board, to))));
      } else {
        currentPlayer := Opponent(currentPlayer);
        selectedCell := None;
        highlightedCells := [];
        ghost var s2 := s0.(game := g.(currentPlayer := Opponent(g.currentPlayer), selectedCell := None, highlightedCells := []));
        assert State() == s2;
        if movingPiece.pieceColor.None? {
          return;
        }
        requests := requests + [SaveMove(WireSquare(from), WireSquare(to), TeamName(movingPiece.pieceColor.value))];
        assert State() == s2.(requests := s2.requests + [SaveMove(WireSquare(from), WireSquare(to), TeamName(movingPiece.pieceColor.value))]);
      }
      CheckGameOver();
    }

    /** The board writes of a move, as on the local board. */
    method MoveBoard(from: Pos, to: Pos)
      requires Valid() && InBounds(from) && InBounds(to)
      modifies this
      ensures Valid()
      ensures State() == old(State()).(game := old(State()).game.(board := ApplyMove(old(board), from, to)))
    {
      var movingPiece := At(board, from);
      board := Put(board, to, Cell(true, movingPiece.pieceColor, movingPiece.isKing));
      board := Put(board, from, EmptyCell);
      if IsJump(from, to) {
        board := Put(board, Midpoint(from, to), EmptyCell);
      }
      if !movingPiece.isKing && PromotionRow(movingPiece.pieceColor, to.row) {
        board := Put(board, to, At(board, to).(isKing := true));
      }
    }

    method OnCellClick(row: int, col: int)
      requires Valid() && IsValidPosition(row, col)
      modifies this
      ensures Valid()
      ensures State() == OnlineAfterClick(old(State()), row, col)
    {
      if gameOver {
        return;
      }
      if !IsPlayerTurnNow() {
        return;
      }
      var cell := board[row][col];
      if IsHighlight(row, col) && selectedCell.Some? {
        MakeMove(selectedCell.value, Pos(row, col));
        return;
      }
      highlightedCells := [];
      if !cell.hasPiece || cell.pieceColor != Some(currentPlayer) {
        selectedCell := None;
        return;
      }
      selectedCell := Some(Pos(row, col));
      highlightedCells := ValidMoves(board, currentPlayer, Pos(row, col));
    }
  }
}

=== FILE: online_moves.dfy ===
/**
 * The move history of an online game. A move continues the previous one
 * when it starts where the previous one landed and records captures; such
 * moves stay with the side that made the previous one, every other move
 * passes to the other side, and white and black alternate turn by turn.
 * Rows are labelled 1 to 8 from row 0.
 */
module OnlineMoves {
  import opened Options
  import opened Rules
  import opened MoveList

  /** The panel labels rows "1" to "8" from row 0 up. */
  const AscendingRows := true

  function ToAlgebraic(row: int, col: int): (s: string)
    ensures 0 <= row < 8 && 0 <= col < 8 ==>
      |s| == 2 && s[0] as int - 'A' as int == col && s[1] as int - '1' as int == row
  {
    SquareName(AscendingRows, row, col)
  }

  /** The move is a further hop of the capture the previous move began. */
  predicate IsFollowUpCapture(prev: Move, cur: Move) {
    prev.to == cur.from && cur.captured.Some?
  }

  /** A continuation shows its landing square only; any other move shows both squares. */
  function Entry(moves: seq<Move>, i: nat): (f: FormattedMove)
    requires i < |moves|
    ensures f.isCaptureContinuation <==> i > 0 && IsFollowUpCapture(moves[i - 1], moves[i])
    ensures f.isCaptureContinuation ==> f.notation == FormatCaptureChain(AscendingRows, moves[i])
    ensures !f.isCaptureContinuation ==> f.notation == FormatMove(AscendingRows, moves[i])
  {
    if i > 0 && IsFollowUpCapture(moves[i - 1], moves[i]) then FormattedMove(FormatCaptureChain(AscendingRows, moves[i]), true)
    else FormattedMove(FormatMove(AscendingRows, moves[i]), false)
  }

  function Entries(moves: seq<Move>): (es: seq<FormattedMove>)
    ensures |es| == |moves|
    ensures forall i :: 0 <= i < |moves| ==> es[i] == Entry(moves, i)
  {
    seq(|moves|, i requires 0 <= i < |moves| => Entry(moves, i))
  }

  /** The side part move `i` belongs to: a follow-up stays in its predecessor's part, any other move opens the next one. */
  function Slot(moves: seq<Move>, i: nat): nat
    requires i < |moves|
  {
    if i == 0 then 0 else Slot(moves, i - 1) + if IsFollowUpCapture(moves[i - 1], moves[i]) then 0 else 1
  }

  function Slots(moves: seq<Move>): (s: seq<nat>)
    ensures |s| == |moves|
    ensures forall i :: 0 <= i < |moves| ==> s[i] == Slot(moves, i)
  {
    seq(|moves|, i requires 0 <= i < |moves| => Slot(moves, i))
  }

  lemma SlotsValid(moves: seq<Move>)
    ensures ValidSlots(Slots(moves))
  {
  }

  /** `s` gives the slots of the moves: each move after the first is in its predecessor's slot exactly when it follows up its capture. */
  ghost predicate SlotsOf(moves: seq<Move>, s: seq<nat>) {
    && |s| == |moves| && (|s| > 0 ==> s[0] == 0)
    && forall j {:trigger SlotAt(s, j)} :: 0 < j < |moves| ==>
         SlotAt(s, j) == s[j - 1] + if IsFollowUpCapture(moves[j - 1], moves[j]) then 0 else 1
  }

  /** `e` gives the formatted moves: a follow-up shows its landing square, any other move both squares. */
  ghost predicate EntriesOf(moves: seq<Move>, e: seq<FormattedMove>) {
    && |e| == |moves|
    && forall i {:trigger EntryAt(e, i)} :: 0 <= i < |moves| ==>
         EntryAt(e, i) == if i > 0 && IsFollowUpCapture(moves[i - 1], moves[i]) then FormattedMove(FormatCaptureChain(AscendingRows, moves[i]), true)
                 else FormattedMove(FormatMove(AscendingRows, moves[i]), false)
  }

  lemma SlotsAndEntries(moves: seq<Move>) returns (e: seq<FormattedMove>, s: seq<nat>)
    ensures SlotsOf(moves, s) && EntriesOf(moves, e)
  {
    e, s := Entries(moves), Slots(moves);
  }

  /** The characterisation of the slots determines each one. */
  lemma {:induction false} SlotCharacterised(moves: seq<Move>, s: seq<nat>, i: nat)
    requires SlotsOf(moves, s) && i < |moves|
    ensures s[i] == Slot(moves, i)
  {
    if i > 0 {
      SlotCharacterised(moves, s, i - 1);
      assert SlotAt(s, i) == s[i - 1] + if IsFollowUpCapture(moves[i - 1], moves[i]) then 0 else 1;
    }
  }

  /** The characterisations determine the entries and the slots. */
  lemma CharacterisedUniquely(moves: seq<Move>, e: seq<FormattedMove>, s: seq<nat>)
    requires SlotsOf(moves, s) && EntriesOf(moves, e)
    ensures e == Entries(moves) && s == Slots(moves)
  {
    forall i | 0 <= i < |moves|
      ensures e[i] == Entries(moves)[i] && s[i] == Slots(moves)[i]
    {
      assert EntryAt(e, i) == Entry(moves, i);
      SlotCharacterised(moves, s, i);
    }
  }

  /** The turns the panel shows for a history. */
  function Display(moves: seq<Move>): seq<TurnMoves> {
    Layout(Entries(moves), Slots(moves), |moves|)
  }

  /**
   * The panel lists every move once, in order, in turns numbered from 1 that
   * each open with a white move; and there are as many turns as pairs of
   * side parts.
   */
  lemma DisplayShape(moves: seq<Move>)
    ensures Flatten(Display(moves)) == Entries(moves)
    ensures forall t :: 0 <= t < |Display(moves)| ==> Display(moves)[t].number == t + 1 && |Display(moves)[t].white| > 0
    ensures |moves| == 0 ==> Display(moves) == []
    ensures |moves| > 0 ==> |Display(moves)| == Slot(moves, |moves| - 1) / 2 + 1
  {
    var e, s := Entries(moves), Slots(moves);
    SlotsValid(moves);
    LayoutFlatten(e, s, |moves|);
    LayoutNumbers(e, s, |moves|);
    LayoutWhiteFirst(e, s, |moves|);
    LayoutLength(e, s, |moves|);
    assert e[..|moves|] == e;
  }

  /** A move is marked as a continuation exactly when it shares its side part with the move before it. */
  lemma ContinuationIffSamePart(moves: seq<Move>, i: nat)
    requires 0 < i < |moves|
    ensures Entries(moves)[i].isCaptureContinuation <==> Slot(moves, i) == Slot(moves, i - 1)
  {
  }

  class OnlineMovesPanel {
    var moves: seq<Move>
    var displayMoves: seq<TurnMoves>

    constructor()
      ensures moves == [] && displayMoves == []
    {
      moves, displayMoves := [], [];
    }

    /**
     * Rebuilds the turns: a turn is opened ahead of white's move, white's move
     * and its follow-ups go in, then black's, then a new turn if moves remain.
     * The turns are built in a local and stored at the end.
     */
    method OnChanges()
      modifies this
      ensures moves == old(moves)
      ensures displayMoves == Display(moves)
    {
      displayMoves := [];
      if |moves| == 0 {
        assert Display(moves) == [];
        return;
      }
      var ms := moves;
      ghost var e, s := SlotsAndEntries(ms);
      var display: seq<TurnMoves> := [];
      var currentTurn := 1;
      var currentMove := 0;
      var isWhiteTurn := true;
      display := display + [TurnMoves(currentTurn, [], [])];
      while currentMove < |ms|
        invariant moves == ms == old(moves)
        invariant Building(ms, e, s, display, currentMove, currentTurn, isWhiteTurn)
        decreases |ms| - currentMove
      {
        display, currentMove, currentTurn, isWhiteTurn := BuildStep(ms, e, s, display, currentMove, currentTurn, isWhiteTurn);
      }
      CharacterisedUniquely(ms, e, s);
      displayMoves := display;
    }
  }

  /**
   * The state of the rebuild after the first `currentMove` moves: with white
   * to move, the turns so far plus the empty turn opened for white's move
   * (no turn is opened once the moves run out); with black to move, the
   * turns so far, the last of which white has just filled.
   */
  ghost predicate Building(ms: seq<Move>, e: seq<FormattedMove>, s: seq<nat>, display: seq<TurnMoves>,
                           currentMove: nat, currentTurn: nat, isWhiteTurn: bool) {
    && |e| == |s| == |ms| && currentMove <= |ms|
    && (isWhiteTurn && currentMove < |ms| ==>
          && display == Layout(e, s, currentMove) + [TurnMoves(currentTurn, [], [])]
          && currentTurn == |Layout(e, s, currentMove)| + 1 && s[currentMove] == 2 * |Layout(e, s, currentMove)|
          && (0 < currentMove ==> !IsFollowUpCapture(ms[currentMove - 1], ms[currentMove])))
    && (isWhiteTurn && currentMove == |ms| ==> display == Layout(e, s, currentMove))
    && (!isWhiteTurn ==>
          && currentMove > 0 && display == Layout(e, s, currentMove)
          && currentTurn == |display| && s[currentMove - 1] == 2 * (currentTurn - 1)
          && (currentMove < |ms| ==> !IsFollowUpCapture(ms[currentMove - 1], ms[currentMove])))
  }

  /** One pass of the rebuild loop: white's part of a turn, or black's part and the opening of the next turn. */
  method BuildStep(ms: seq<Move>, ghost e: seq<FormattedMove>, ghost s: seq<nat>, display: seq<TurnMoves>,
                   currentMove: nat, currentTurn: nat, isWhiteTurn: bool)
    returns (display': seq<TurnMoves>, currentMove': nat, currentTurn': nat, isWhiteTurn': bool)
    requires EntriesOf(ms, e) && SlotsOf(ms, s) && currentMove < |ms|
    requires Building(ms, e, s, display, currentMove, currentTurn, isWhiteTurn)
    ensures currentMove < currentMove'
    ensures Building(ms, e, s, display', currentMove', currentTurn', isWhiteTurn')
  {
    if isWhiteTurn {
      display', currentMove' := PushWhite(ms, e, s, display, currentMove);
      currentTurn', isWhiteTurn' := currentTurn, false;
    } else {
      display', currentMove', currentTurn' := FinishTurn(ms, e, s, display, currentMove, currentTurn);
      isWhiteTurn' := true;
    }
  }

  /** White's move of a turn, into the turn opened for it, followed by its follow-ups. */
  method PushWhite(ms: seq<Move>, ghost e: seq<FormattedMove>, ghost s: seq<nat>, display: seq<TurnMoves>, currentMove: nat)
    returns (turns: seq<TurnMoves>, next: nat)
    requires EntriesOf(ms, e) && SlotsOf(ms, s) && currentMove < |ms|
    requires display == Layout(e, s, currentMove) + [TurnMoves(|Layout(e, s, currentMove)| + 1, [], [])]
    requires s[currentMove] == 2 * |Layout(e, s, currentMove)|
    requires currentMove > 0 ==> !IsFollowUpCapture(ms[currentMove - 1], ms[currentMove])
    ensures currentMove < next <= |ms|
    ensures turns == Layout(e, s, next) && |turns| == |display| && s[next - 1] == 2 * (|display| - 1)
    ensures next < |ms| ==> !IsFollowUpCapture(ms[next - 1], ms[next])
  {
    var formattedMove := FormattedMove(FormatMove(AscendingRows, ms[currentMove]), false);
    assert EntryAt(e, currentMove) == formattedMove;
    LayoutFillsEmptyTurn(e, s, currentMove);
    turns := AddToLast(display, formattedMove, true);
    turns, next := PushFollowUps(ms, e, s, turns, currentMove + 1, true);
  }

  /** Black's move and its follow-ups, if moves remain, then a new, empty turn if moves still remain. */
  method FinishTurn(ms: seq<Move>, ghost e: seq<FormattedMove>, ghost s: seq<nat>, display: seq<TurnMoves>, currentMove: nat, currentTurn: nat)
    returns (turns: seq<TurnMoves>, next: nat, nextTurn: nat)
    requires EntriesOf(ms, e) && SlotsOf(ms, s) && 0 < currentMove <= |ms|
    requires display == Layout(e, s, currentMove) && currentTurn == |display| && s[currentMove - 1] == 2 * (currentTurn - 1)
    requires currentMove < |ms| ==> !IsFollowUpCapture(ms[currentMove - 1], ms[currentMove])
    ensures currentMove <= next <= |ms| && nextTurn == currentTurn + 1
    ensures currentMove < |ms| ==> currentMove < next
    ensures next < |ms| ==>
      && turns == Layout(e, s, next) + [TurnMoves(nextTurn, [], [])]
      && nextTurn == |Layout(e, s, next)| + 1 && s[next] == 2 * |Layout(e, s, next)|
      && !IsFollowUpCapture(ms[next - 1], ms[next])
    ensures next == |ms| ==> turns == Layout(e, s, next)
  {
    turns, next := display, currentMove;
    if currentMove < |ms| {
      turns, next := PushBlack(ms, e, s, display, currentMove);
    }
    nextTurn := currentTurn + 1;
    if next < |ms| {
      assert SlotAt(s, next) == s[next - 1] + 1;
      turns := turns + [TurnMoves(nextTurn, [], [])];
    }
  }

  /** Black's move of a turn, into the turn white opened, followed by its follow-ups. */
  method PushBlack(ms: seq<Move>, ghost e: seq<FormattedMove>, ghost s: seq<nat>, display: seq<TurnMoves>, currentMove: nat)
    returns (turns: seq<TurnMoves>, next: nat)
    requires EntriesOf(ms, e) && SlotsOf(ms, s) && 0 < currentMove < |ms|
    requires display == Layout(e, s, currentMove) && s[currentMove - 1] == 2 * (|display| - 1)
    requires !IsFollowUpCapture(ms[currentMove - 1], ms[currentMove])
    ensures currentMove < next <= |ms|
    ensures turns == Layout(e, s, next) && |turns| == |display| && s[next - 1] == 2 * |display| - 1
    ensures next < |ms| ==> !IsFollowUpCapture(ms[next - 1], ms[next])
  {
    assert SlotAt(s, currentMove) == s[currentMove - 1] + 1;
    LayoutExtendsTurn(e, s, currentMove, false);
    assert EntryAt(e, currentMove) == FormattedMove(FormatMove(AscendingRows, ms[currentMove]), false);
    turns := AddToLast(display, FormattedMove(FormatMove(AscendingRows, ms[currentMove]), false), false);
    turns, next := PushFollowUps(ms, e, s, turns, currentMove + 1, false);
  }

  /**
   * The further hops of a capture chain, each added as a continuation to the
   * list of the side that began it, up to the first move that is not one.
   */
  method PushFollowUps(ms: seq<Move>, ghost e: seq<FormattedMove>, ghost s: seq<nat>, turns: seq<TurnMoves>, start: nat, toWhite: bool)
    returns (result: seq<TurnMoves>, next: nat)
    requires EntriesOf(ms, e) && SlotsOf(ms, s) && 0 < start <= |ms|
    requires turns == Layout(e, s, start) && s[start - 1] == 2 * (|turns| - 1) + if toWhite then 0 else 1
    ensures start <= next <= |ms|
    ensures result == Layout(e, s, next) && |result| == |turns| && s[next - 1] == s[start - 1]
    ensures next < |ms| ==> !IsFollowUpCapture(ms[next - 1], ms[next])
  {
    result, next := turns, start;
    while next < |ms| && IsFollowUpCapture(ms[next - 1], ms[next])
      invariant start <= next <= |ms|
      invariant result == Layout(e, s, next) && |result| == |turns| && s[next - 1] == s[start - 1]
    {
      FollowUpStep(ms, e, s, next, toWhite);
      result := AddToLast(result, FormattedMove(FormatCaptureChain(AscendingRows, ms[next]), true), toWhite);
      next := next + 1;
    }
  }

  /** A follow-up joins the list its predecessor went to. */
  lemma FollowUpStep(ms: seq<Move>, e: seq<FormattedMove>, s: seq<nat>, k: nat, toWhite: bool)
    requires EntriesOf(ms, e) && SlotsOf(ms, s) && 0 < k < |ms| && IsFollowUpCapture(ms[k - 1], ms[k])
    requires s[k - 1] == 2 * (|Layout(e, s, k)| - 1) + if toWhite then 0 else 1
    ensures s[k] == s[k - 1]
    ensures Layout(e, s, k + 1) == AddToLast(Layout(e, s, k), FormattedMove(FormatCaptureChain(AscendingRows, ms[k]), true), toWhite)
  {
    assert SlotAt(s, k) == s[k - 1];
    assert EntryAt(e, k) == FormattedMove(FormatCaptureChain(AscendingRows, ms[k]), true);
    LayoutExtendsTurn(e, s, k, toWhite);
  }
}

=== FILE: options.dfy ===
/** The optional value used wherever the client stores `null` or leaves a field undefined. */
module Options {
  datatype Option<T> = None | Some(value: T)
}

=== FILE: restart.dfy ===
/**
 * The restart handshake of an online game: each player's wish to start
 * over is a flag in a shared status record, and the game restarts once both
 * flags are set. The helpers here are pure record updates and queries; the
 * requests that fetch and store the record are not part of this model.
 */
module Restart {
  import opened Options

  datatype PlayerRestartStatus = PlayerRestartStatus(
    gameID: string, nicknameB: string, nicknameW: string, restartB: bool, restartW: bool)

  /** Whether the given nickname is white's; a missing nickname (null) is nobody's. */
  function IsWhitePlayer(status: PlayerRestartStatus, nickname: Option<string>): (r: bool)
    ensures r ==> nickname.Some?
    ensures nickname.Some? ==> (r <==> nickname.value == status.nicknameW)
  {
    nickname == Some(status.nicknameW)
  }

  /** Whether the given nickname is black's; a missing nickname (null) is nobody's. */
  function IsBlackPlayer(status: PlayerRestartStatus, nickname: Option<string>): (r: bool)
    ensures r ==> nickname.Some?
    ensures nickname.Some? ==> (r <==> nickname.value == status.nicknameB)
  {
    nickname == Some(status.nicknameB)
  }

  /** The status with white's wish replaced and everything else kept. */
  function SetWhitePlayerRestart(status: PlayerRestartStatus, wantsRestart: bool): (r: PlayerRestartStatus)
    ensures r.restartW == wantsRestart
    ensures r.gameID == status.gameID && r.nicknameB == status.nicknameB && r.nicknameW == status.nicknameW
    ensures r.restartB == status.restartB
  {
    status.(restartW := wantsRestart)
  }

  /** The status with black's wish replaced and everything else kept. */
  function SetBlackPlayerRestart(status: PlayerRestartStatus, wantsRestart: bool): (r: PlayerRestartStatus)
    ensures r.restartB == wantsRestart
    ensures r.gameID == status.gameID && r.nicknameB == status.nicknameB && r.nicknameW == status.nicknameW
    ensures r.restartW == status.restartW
  {
    status.(restartB := wantsRestart)
  }

  predicate BothPlayersWantRestart(status: PlayerRestartStatus) {
    status.restartB && status.restartW
  }

  /** With two different nicknames in the record, nobody is both white and black. */
  lemma NoOneIsBoth(status: PlayerRestartStatus, nickname: Option<string>)
    requires status.nicknameW != status.nicknameB
    ensures !(IsWhitePlayer(status, nickname) && IsBlackPlayer(status, nickname))
  {
  }

  /** Setting a wish twice keeps only the last value; setting one is the identity when it already holds. */
  lemma SettersOverwrite(status: PlayerRestartStatus, a: bool, b: bool)
    ensures SetWhitePlayerRestart(SetWhitePlayerRestart(status, a), b) == SetWhitePlayerRestart(status, b)
    ensures SetBlackPlayerRestart(SetBlackPlayerRestart(status, a), b) == SetBlackPlayerRestart(status, b)
    ensures SetWhitePlayerRestart(status, status.restartW) == status
    ensures SetBlackPlayerRestart(status, status.restartB) == status
  {
  }

  /** The two players' updates do not interfere: applying them in either order gives the same record. */
  lemma SettersCommute(status: PlayerRestartStatus, w: bool, b: bool)
    ensures SetWhitePlayerRestart(SetBlackPlayerRestart(status, b), w)
      == SetBlackPlayerRestart(SetWhitePlayerRestart(status, w), b)
  {
  }

  /** After both players have stated their wish, the game restarts exactly when both want it. */
  lemma BothAgreed(status: PlayerRestartStatus, w: bool, b: bool)
    ensures BothPlayersWantRestart(SetBlackPlayerRestart(SetWhitePlayerRestart(status, w), b)) <==> w && b
  {
  }

  /** One player's wish alone never restarts the game unless the other's is already recorded. */
  lemma OneWishIsNotEnough(status: PlayerRestartStatus, w: bool)
    ensures BothPlayersWantRestart(SetWhitePlayerRestart(status, w)) <==> w && status.restartB
  {
  }
}

=== FILE: rules.dfy ===
/**
 * The checkers rules engine shared by the offline, app, bot and online boards:
 * an 8x8 grid of cells, single-hop captures (forward-only for men, all four
 * diagonals for kings), the board-wide capture obligation, one-step simple
 * moves, the board effect of a move, piece counting and the end-of-game rule.
 * Everything here is a pure function of the board; the components that keep
 * the board in a field are classes in their own modules.
 */
module Rules {
  import opened Options

  datatype Color = White | Black

  function Opponent(c: Color): (o: Color)
    ensures o != c
  {
    if c == White then Black else White
  }

  /** A square of the board, as the TypeScript board stores it: `pieceColor` is `None` where it stores `null`. */
  datatype Cell = Cell(hasPiece: bool, pieceColor: Option<Color>, isKing: bool)

  const EmptyCell := Cell(false, None, false)
  const WhiteMan := Cell(true, Some(White), false)
  const BlackMan := Cell(true, Some(Black), false)

  /** The cells that setup and legal play produce: a piece has a colour, an empty square has none and is no king. */
  predicate WellFormedCell(c: Cell) {
    (c.hasPiece <==> c.pieceColor.Some?) && (c.isKing ==> c.hasPiece)
  }

  datatype Pos = Pos(row: int, col: int)

  /** A history entry; `captured` is `None` where the component leaves it `undefined`. */
  datatype Move = Move(from: Pos, to: Pos, captured: Option<seq<Pos>>)

  type Board = seq<seq<Cell>>

  /** The 8x8 shape every engine query indexes into. */
  predicate Shaped(b: Board) {
    |b| == 8 && forall r :: 0 <= r < 8 ==> |b[r]| == 8
  }

  predicate IsValidPosition(row: int, col: int) {
    0 <= row < 8 && 0 <= col < 8
  }

  predicate InBounds(p: Pos) {
    IsValidPosition(p.row, p.col)
  }

  /** Light squares are those with an even coordinate sum. */
  predicate IsLight(row: int, col: int) {
    (row + col) % 2 == 0
  }

  function At(b: Board, p: Pos): Cell
    requires Shaped(b) && InBounds(p)
  {
    b[p.row][p.col]
  }

  /** Replaces one cell, as `board[r][c] = {...}` does. */
  function Put(b: Board, p: Pos, c: Cell): (r: Board)
    requires Shaped(b) && InBounds(p)
    ensures Shaped(r)
    ensures forall q :: InBounds(q) ==> At(r, q) == if q == p then c else At(b, q)
  {
    b[p.row := b[p.row][p.col := c]]
  }

  /** Two 8x8 boards that agree on every square are the same board. */
  lemma BoardsEqual(a: Board, b: Board)
    requires Shaped(a) && Shaped(b)
    requires forall q :: InBounds(q) ==> At(a, q) == At(b, q)
    ensures a == b
  {
    forall r | 0 <= r < 8
      ensures a[r] == b[r]
    {
      forall c | 0 <= c < 8
        ensures a[r][c] == b[r][c]
      {
        assert At(a, Pos(r, c)) == At(b, Pos(r, c));
      }
    }
  }

  predicate Owns(b: Board, p: Pos, player: Color)
    requires Shaped(b) && InBounds(p)
  {
    At(b, p).hasPiece && At(b, p).pieceColor == Some(player)
  }

  // ---------------------------------------------------------------------------
  // Directions
  // ---------------------------------------------------------------------------

  datatype Dir = Dir(dr: int, dc: int)

  /** The row direction a man moves in: up the board for White, down for anything else. */
  function Forward(color: Option<Color>): int {
    if color == Some(White) then -1 else 1
  }

  /** Kings use all four diagonals; men only the two toward the opponent's edge. */
  function Directions(c: Cell): (ds: seq<Dir>)
    ensures |ds| == if c.isKing then 4 else 2
    ensures forall d :: d in ds ==> (d.dr == 1 || d.dr == -1) && (d.dc == 1 || d.dc == -1)
    ensures !c.isKing ==> forall d :: d in ds ==> d.dr == Forward(c.pieceColor)
    ensures c.isKing ==> forall dr, dc :: (dr == 1 || dr == -1) && (dc == 1 || dc == -1) ==> Dir(dr, dc) in ds
  {
    if c.isKing then [Dir(1, 1), Dir(1, -1), Dir(-1, 1), Dir(-1, -1)]
    else if c.pieceColor == Some(White) then [Dir(-1, 1), Dir(-1, -1)]
    else [Dir(1, 1), Dir(1, -1)]
  }

  function Neighbour(p: Pos, d: Dir): Pos {
    Pos(p.row + d.dr, p.col + d.dc)
  }

  function Jump(p: Pos, d: Dir): Pos {
    Pos(p.row + 2 * d.dr, p.col + 2 * d.dc)
  }

  // ---------------------------------------------------------------------------
  // Captures
  // ---------------------------------------------------------------------------

  /** In direction `d` the piece on `p` can jump: an opposing piece next to it and an empty, on-board landing square. */
  predicate CanCapture(b: Board, p: Pos, d: Dir)
    requires Shaped(b) && InBounds(p)
  {
    var mid := Neighbour(p, d);
    var land := Jump(p, d);
    && InBounds(mid) && InBounds(land)
    && At(b, mid).hasPiece
    && At(b, mid).pieceColor != At(b, p).pieceColor
    && !At(b, land).hasPiece
  }

  function CaptureMove(p: Pos, d: Dir): Move {
    Move(p, Jump(p, d), Some([Neighbour(p, d)]))
  }

  /** The captures of the piece on `p` along `ds`, in the order of `ds`. */
  function CapturesAlong(b: Board, p: Pos, ds: seq<Dir>): (ms: seq<Move>)
    requires Shaped(b) && InBounds(p)
    ensures |ms| <= |ds|
    ensures forall m :: m in ms <==> exists d :: d in ds && CanCapture(b, p, d) && m == CaptureMove(p, d)
  {
    if ds == [] then []
    else
      var rest := CapturesAlong(b, p, ds[1..]);
      assert forall d :: d in ds <==> d == ds[0] || d in ds[1..];
      (if CanCapture(b, p, ds[0]) then [CaptureMove(p, ds[0])] else []) + rest
  }

  /** The single-hop captures available to the piece on `p`. */
  function CapturesForPiece(b: Board, p: Pos): (ms: seq<Move>)
    requires Shaped(b) && InBounds(p)
    ensures |ms| <= if At(b, p).isKing then 4 else 2
    ensures forall m :: m in ms ==> m.from == p
  {
    CapturesAlong(b, p, Directions(At(b, p)))
  }

  /** The captures of the piece on `p` are the capturing hops along its own directions. */
  lemma CapturesForPieceMembers(b: Board, p: Pos)
    requires Shaped(b) && InBounds(p)
    ensures forall m :: m in CapturesForPiece(b, p) <==>
      exists d :: d in Directions(At(b, p)) && CanCapture(b, p, d) && m == CaptureMove(p, d)
  {
  }

  /** The captures of the side to move in row `r`, columns `c` and right of it. */
  function ScanRow(b: Board, player: Color, r: int, c: int): seq<Move>
    requires Shaped(b) && 0 <= r < 8 && 0 <= c <= 8
    decreases 8 - c
  {
    if c == 8 then []
    else
      var p := Pos(r, c);
      (if Owns(b, p, player) then CapturesForPiece(b, p) else []) + ScanRow(b, player, r, c + 1)
  }

  /** The captures of the side to move in rows `r` and below. */
  function ScanRows(b: Board, player: Color, r: int): seq<Move>
    requires Shaped(b) && 0 <= r <= 8
    decreases 8 - r
  {
    if r == 8 then [] else ScanRow(b, player, r, 0) + ScanRows(b, player, r + 1)
  }

  lemma {:induction false} ScanRowMembers(b: Board, player: Color, r: int, c: int)
    requires Shaped(b) && 0 <= r < 8 && 0 <= c <= 8
    decreases 8 - c
    ensures forall m :: m in ScanRow(b, player, r, c) <==>
      m.from.row == r && c <= m.from.col < 8 && Owns(b, m.from, player) && m in CapturesForPiece(b, m.from)
  {
    if c < 8 {
      var q := Pos(r, c);
      var here := if Owns(b, q, player) then CapturesForPiece(b, q) else [];
      var rest := ScanRow(b, player, r, c + 1);
      assert ScanRow(b, player, r, c) == here + rest;
      ScanRowMembers(b, player, r, c + 1);
      forall m
        ensures m in ScanRow(b, player, r, c) <==>
          m.from.row == r && c <= m.from.col < 8 && Owns(b, m.from, player) && m in CapturesForPiece(b, m.from)
      {
        assert m in here <==> m.from == q && Owns(b, q, player) && m in CapturesForPiece(b, q);
        assert m in here + rest <==> m in here || m in rest;
        if m.from.row == r && m.from.col == c {
          assert m.from == q;
        }
      }
    }
  }

  lemma {:induction false} ScanRowsMembers(b: Board, player: Color, r: int)
    requires Shaped(b) && 0 <= r <= 8
    decreases 8 - r
    ensures forall m :: m in ScanRows(b, player, r) <==>
      r <= m.from.row < 8 && 0 <= m.from.col < 8 && Owns(b, m.from, player) && m in CapturesForPiece(b, m.from)
  {
    if r < 8 {
      ScanRowMembers(b, player, r, 0);
      ScanRowsMembers(b, player, r + 1);
    }
  }

  /** Every capture available to `player`, scanning the board row by row. */
  function AllForcedCaptures(b: Board, player: Color): (ms: seq<Move>)
    requires Shaped(b)
    ensures forall m :: m in ms <==>
      InBounds(m.from) && Owns(b, m.from, player) && m in CapturesForPiece(b, m.from)
  {
    ScanRowsMembers(b, player, 0);
    ScanRows(b, player, 0)
  }

  /** `ms.filter(m => m.from == p)` */
  function MovesFrom(ms: seq<Move>, p: Pos): seq<Move>
  {
    if ms == [] then []
    else (if ms[0].from == p then [ms[0]] else []) + MovesFrom(ms[1..], p)
  }

  /** `ms.map(m => m.to)` */
  function Landings(ms: seq<Move>): (r: seq<Pos>)
    ensures |r| == |ms|
    ensures forall i :: 0 <= i < |ms| ==> r[i] == ms[i].to
  {
    if ms == [] then [] else [ms[0].to] + Landings(ms[1..])
  }

  // ---------------------------------------------------------------------------
  // Valid moves
  // ---------------------------------------------------------------------------

  /** The one-step moves along `ds` onto empty on-board squares, in the order of `ds`. */
  function StepsAlong(b: Board, p: Pos, ds: seq<Dir>): (qs: seq<Pos>)
    requires Shaped(b)
    ensures |qs| <= |ds|
    ensures forall q :: q in qs <==>
      exists d :: d in ds && q == Neighbour(p, d) && InBounds(q) && !At(b, q).hasPiece
  {
    if ds == [] then []
    else
      var q := Neighbour(p, ds[0]);
      var rest := StepsAlong(b, p, ds[1..]);
      assert forall d :: d in ds <==> d == ds[0] || d in ds[1..];
      (if InBounds(q) && !At(b, q).hasPiece then [q] else []) + rest
  }

  function SimpleMoves(b: Board, p: Pos): seq<Pos>
    requires Shaped(b) && InBounds(p)
  {
    StepsAlong(b, p, Directions(At(b, p)))
  }

  /**
   * The squares the piece on `p` may move to: while any capture exists for
   * `player` anywhere on the board, only this piece's capture landings;
   * otherwise its one-step moves.
   */
  function ValidMoves(b: Board, player: Color, p: Pos): seq<Pos>
    requires Shaped(b) && InBounds(p)
  {
    var all := AllForcedCaptures(b, player);
    if |all| > 0 then Landings(MovesFrom(all, p)) else SimpleMoves(b, p)
  }

  predicate HasCapture(b: Board, player: Color)
    requires Shaped(b)
  {
    |AllForcedCaptures(b, player)| > 0
  }

  /** The piece on `q` belongs to `player` and has a valid move. */
  predicate Movable(b: Board, player: Color, q: Pos)
    requires Shaped(b) && InBounds(q)
  {
    Owns(b, q, player) && |ValidMoves(b, player, q)| > 0
  }

  /** Some piece of `player` has a valid move. */
  ghost predicate AnyValidMove(b: Board, player: Color)
    requires Shaped(b)
  {
    exists q :: InBounds(q) && Movable(b, player, q)
  }

  lemma {:induction false} MovesFromConcat(a: seq<Move>, c: seq<Move>, p: Pos)
    ensures MovesFrom(a + c, p) == MovesFrom(a, p) + MovesFrom(c, p)
  {
    if a != [] {
      assert (a + c)[0] == a[0];
      assert (a + c)[1..] == a[1..] + c;
      MovesFromConcat(a[1..], c, p);
      var h := if a[0].from == p then [a[0]] else [];
      assert MovesFrom(a + c, p) == h + (MovesFrom(a[1..], p) + MovesFrom(c, p));
      assert h + (MovesFrom(a[1..], p) + MovesFrom(c, p)) == (h + MovesFrom(a[1..], p)) + MovesFrom(c, p);
    } else {
      assert a + c == c;
    }
  }

  lemma {:induction false} MovesFromUniform(ms: seq<Move>, q: Pos, p: Pos)
    requires forall m :: m in ms ==> m.from == q
    ensures MovesFrom(ms, p) == if q == p then ms else []
  {
    if ms != [] {
      assert ms[0] in ms;
      assert forall m :: m in ms[1..] ==> m in ms;
      MovesFromUniform(ms[1..], q, p);
    }
  }

  /** Filtering two parts of a scan of which at most one holds the wanted moves. */
  lemma MovesFromEither(whole: seq<Move>, first: seq<Move>, second: seq<Move>, p: Pos, mine: seq<Move>, inWhole: bool, inFirst: bool, inSecond: bool)
    requires whole == first + second && inWhole == (inFirst || inSecond) && !(inFirst && inSecond)
    requires MovesFrom(first, p) == (if inFirst then mine else [])
    requires MovesFrom(second, p) == (if inSecond then mine else [])
    ensures MovesFrom(whole, p) == if inWhole then mine else []
  {
    MovesFromConcat(first, second, p);
    if inFirst {
      assert mine + [] == mine;
    } else {
      assert [] + MovesFrom(second, p) == MovesFrom(second, p);
    }
  }

  lemma {:induction false} MovesFromScanRow(b: Board, player: Color, r: int, c: int, p: Pos)
    requires Shaped(b) && 0 <= r < 8 && 0 <= c <= 8 && InBounds(p)
    decreases 8 - c
    ensures MovesFrom(ScanRow(b, player, r, c), p) ==
      if p.row == r && c <= p.col && Owns(b, p, player) then CapturesForPiece(b, p) else []
  {
    if c < 8 {
      var q := Pos(r, c);
      var here := if Owns(b, q, player) then CapturesForPiece(b, q) else [];
      var mine := if Owns(b, p, player) then CapturesForPiece(b, p) else [];
      MovesFromUniform(here, q, p);
      MovesFromScanRow(b, player, r, c + 1, p);
      MovesFromEither(ScanRow(b, player, r, c), here, ScanRow(b, player, r, c + 1), p, mine,
        p.row == r && c <= p.col, p == q, p.row == r && c + 1 <= p.col);
    }
  }

  lemma {:induction false} MovesFromScanRows(b: Board, player: Color, r: int, p: Pos)
    requires Shaped(b) && 0 <= r <= 8 && InBounds(p)
    decreases 8 - r
    ensures MovesFrom(ScanRows(b, player, r), p) ==
      if r <= p.row && Owns(b, p, player) then CapturesForPiece(b, p) else []
  {
    if r < 8 {
      var mine := if Owns(b, p, player) then CapturesForPiece(b, p) else [];
      MovesFromScanRow(b, player, r, 0, p);
      MovesFromScanRows(b, player, r + 1, p);
      MovesFromEither(ScanRows(b, player, r), ScanRow(b, player, r, 0), ScanRows(b, player, r + 1), p, mine,
        r <= p.row, p.row == r, r + 1 <= p.row);
    }
  }

  /**
   * Capture obligation: once any piece of the side to move can capture, the
   * valid moves of a piece are exactly the landings of its own captures, in
   * their order, and none at all for a piece that cannot capture.
   */
  lemma CaptureObligation(b: Board, player: Color, p: Pos)
    requires Shaped(b) && InBounds(p) && HasCapture(b, player)
    ensures ValidMoves(b, player, p) ==
      if Owns(b, p, player) then Landings(CapturesForPiece(b, p)) else []
    ensures !Owns(b, p, player) || |CapturesForPiece(b, p)| == 0 ==> ValidMoves(b, player, p) == []
  {
    MovesFromScanRows(b, player, 0, p);
  }

  /** Without a capture anywhere, a piece moves one diagonal step, in its own directions, onto an empty square. */
  lemma SimpleMovesWhenNoCapture(b: Board, player: Color, p: Pos, q: Pos)
    requires Shaped(b) && InBounds(p) && !HasCapture(b, player)
    ensures q in ValidMoves(b, player, p) <==>
      InBounds(q) && !At(b, q).hasPiece &&
      exists d :: d in Directions(At(b, p)) && q == Neighbour(p, d)
  {
  }

  /** The capture obligation is board-wide: it holds exactly when some piece of `player` has a capture. */
  lemma HasCaptureIff(b: Board, player: Color)
    requires Shaped(b)
    ensures HasCapture(b, player) <==>
      exists q :: InBounds(q) && Owns(b, q, player) && |CapturesForPiece(b, q)| > 0
  {
    var all := AllForcedCaptures(b, player);
    if |all| > 0 {
      var m := all[0];
      assert m in all;
      assert InBounds(m.from) && Owns(b, m.from, player) && m in CapturesForPiece(b, m.from);
    }
    if q :| InBounds(q) && Owns(b, q, player) && |CapturesForPiece(b, q)| > 0 {
      var m := CapturesForPiece(b, q)[0];
      assert m in CapturesForPiece(b, q) && m.from == q;
      assert m in all;
    }
  }

  /** A side that can capture is never without a valid move. */
  lemma CaptureImpliesValidMove(b: Board, player: Color)
    requires Shaped(b) && HasCapture(b, player)
    ensures AnyValidMove(b, player)
  {
    HasCaptureIff(b, player);
    var q :| InBounds(q) && Owns(b, q, player) && |CapturesForPiece(b, q)| > 0;
    CaptureObligation(b, player, q);
    assert Movable(b, player, q);
  }

  /** Every capture lands two diagonal steps away in an allowed direction, over an opposing piece, on an empty square. */
  lemma CaptureShape(b: Board, p: Pos, m: Move)
    requires Shaped(b) && InBounds(p) && m in CapturesForPiece(b, p)
    ensures m.from == p && InBounds(m.to) && !At(b, m.to).hasPiece
    ensures (m.to.row - p.row == 2 || m.to.row - p.row == -2) && (m.to.col - p.col == 2 || m.to.col - p.col == -2)
    ensures !At(b, p).isKing ==> m.to.row - p.row == 2 * Forward(At(b, p).pieceColor)
    ensures m.captured.Some? && |m.captured.value| == 1
    ensures var mid := m.captured.value[0];
      && mid == Pos((p.row + m.to.row) / 2, (p.col + m.to.col) / 2) && InBounds(mid)
      && At(b, mid).hasPiece && At(b, mid).pieceColor != At(b, p).pieceColor
  {
    var d :| d in Directions(At(b, p)) && CanCapture(b, p, d) && m == CaptureMove(p, d);
  }

  // ---------------------------------------------------------------------------
  // Moving a piece
  // ---------------------------------------------------------------------------

  /** A move is a capture when it spans two rows and two columns. */
  predicate IsJump(from: Pos, to: Pos) {
    (from.row - to.row == 2 || from.row - to.row == -2) && (from.col - to.col == 2 || from.col - to.col == -2)
  }

  /** `from + (to - from) / 2`, the square a jump passes over. */
  function Midpoint(from: Pos, to: Pos): Pos {
    Pos(from.row + (to.row - from.row) / 2, from.col + (to.col - from.col) / 2)
  }

  /** A man of this colour is promoted on landing in this row: row 0 for White, row 7 for Black. */
  predicate PromotionRow(color: Option<Color>, row: int) {
    (color == Some(White) && row == 0) || (color == Some(Black) && row == 7)
  }

  /**
   * The board after moving the piece on `from` to `to`: the piece is copied
   * to `to`, `from` is emptied, a jump empties the square it passes over,
   * and a man landing on its promotion row is crowned. Nothing is validated.
   */
  function ApplyMove(b: Board, from: Pos, to: Pos): (r: Board)
    requires Shaped(b) && InBounds(from) && InBounds(to)
    ensures Shaped(r)
  {
    var moving := At(b, from);
    var b1 := Put(b, to, Cell(true, moving.pieceColor, moving.isKing));
    var b2 := Put(b1, from, EmptyCell);
    var b3 := if IsJump(from, to) then Put(b2, Midpoint(from, to), EmptyCell) else b2;
    if !moving.isKing && PromotionRow(moving.pieceColor, to.row) then Put(b3, to, At(b3, to).(isKing := true))
    else b3
  }

  /** The history entry the component appends for a move. */
  function HistoryEntry(from: Pos, to: Pos): (m: Move)
    ensures m.from == from && m.to == to
    ensures m.captured.Some? <==> IsJump(from, to)
    ensures IsJump(from, to) ==> m.captured == Some([Midpoint(from, to)])
  {
    Move(from, to, if IsJump(from, to) then Some([Midpoint(from, to)]) else None)
  }

  /** After a hop the same side keeps moving iff it was a jump and the landed piece can capture again. */
  predicate ChainContinues(after: Board, from: Pos, to: Pos)
    requires Shaped(after) && InBounds(to)
  {
    IsJump(from, to) && |CapturesForPiece(after, to)| > 0
  }

  lemma JumpMidpoint(from: Pos, to: Pos)
    requires InBounds(from) && InBounds(to) && IsJump(from, to)
    ensures InBounds(Midpoint(from, to)) && Midpoint(from, to) != from && Midpoint(from, to) != to
    ensures Midpoint(from, to) == Pos((from.row + to.row) / 2, (from.col + to.col) / 2)
  {
  }

  /**
   * The board effect of a move: the origin is emptied, the destination holds
   * the mover's colour (crowned on its promotion row, a king staying a king),
   * a jump empties its midpoint, and no other square changes.
   */
  lemma MoveEffect(b: Board, from: Pos, to: Pos)
    requires Shaped(b) && InBounds(from) && InBounds(to) && from != to
    ensures var r := ApplyMove(b, from, to);
      && At(r, from) == EmptyCell
      && At(r, to).hasPiece && At(r, to).pieceColor == At(b, from).pieceColor
      && At(r, to).isKing == (At(b, from).isKing || PromotionRow(At(b, from).pieceColor, to.row))
      && (IsJump(from, to) ==> At(r, Midpoint(from, to)) == EmptyCell)
      && forall q :: InBounds(q) && q != from && q != to && (IsJump(from, to) ==> q != Midpoint(from, to)) ==>
           At(r, q) == At(b, q)
  {
    if IsJump(from, to) {
      JumpMidpoint(from, to);
    }
  }

  /**
   * No king-priority and no end-of-chain on promotion: a white man that jumps
   * onto row 0 is crowned on landing, and the chain check that follows looks
   * in all four directions, so the same piece may go on capturing.
   */
  lemma PromotedPieceCapturesAsKing(b: Board, from: Pos, to: Pos)
    requires Shaped(b) && InBounds(from) && InBounds(to) && from != to
    requires !At(b, from).isKing && PromotionRow(At(b, from).pieceColor, to.row)
    ensures At(ApplyMove(b, from, to), to).isKing
    ensures Directions(At(ApplyMove(b, from, to), to)) == [Dir(1, 1), Dir(1, -1), Dir(-1, 1), Dir(-1, -1)]
  {
    MoveEffect(b, from, to);
  }

  // ---------------------------------------------------------------------------
  // Counting pieces
  // ---------------------------------------------------------------------------

  function CellWhite(c: Cell): nat {
    if c.hasPiece && c.pieceColor == Some(White) then 1 else 0
  }

  /** The component counts every occupied square that is not white as black. */
  function CellBlack(c: Cell): nat {
    if c.hasPiece && c.pieceColor != Some(White) then 1 else 0
  }

  function CellOccupied(c: Cell): nat {
    if c.hasPiece then 1 else 0
  }

  function RowWhites(row: seq<Cell>): nat {
    if row == [] then 0 else RowWhites(row[..|row| - 1]) + CellWhite(row[|row| - 1])
  }

  function RowBlacks(row: seq<Cell>): nat {
    if row == [] then 0 else RowBlacks(row[..|row| - 1]) + CellBlack(row[|row| - 1])
  }

  function RowOccupied(row: seq<Cell>): nat {
    if row == [] then 0 else RowOccupied(row[..|row| - 1]) + CellOccupied(row[|row| - 1])
  }

  function Whites(b: Board): nat {
    if b == [] then 0 else Whites(b[..|b| - 1]) + RowWhites(b[|b| - 1])
  }

  function Blacks(b: Board): nat {
    if b == [] then 0 else Blacks(b[..|b| - 1]) + RowBlacks(b[|b| - 1])
  }

  function Occupied(b: Board): nat {
    if b == [] then 0 else Occupied(b[..|b| - 1]) + RowOccupied(b[|b| - 1])
  }

  lemma {:induction false} RowCountsSplit(row: seq<Cell>)
    ensures RowWhites(row) + RowBlacks(row) == RowOccupied(row)
  {
    if row != [] {
      RowCountsSplit(row[..|row| - 1]);
    }
  }

  /** White plus black pieces are exactly the occupied squares. */
  lemma {:induction false} CountsSplit(b: Board)
    ensures Whites(b) + Blacks(b) == Occupied(b)
  {
    if b != [] {
      CountsSplit(b[..|b| - 1]);
      RowCountsSplit(b[|b| - 1]);
    }
  }

  lemma {:induction false} RowOccupiedUpdate(row: seq<Cell>, i: int, x: Cell)
    requires 0 <= i < |row|
    ensures RowOccupied(row[i := x]) == RowOccupied(row) - CellOccupied(row[i]) + CellOccupied(x)
  {
    var n := |row| - 1;
    if i < n {
      assert row[i := x][..n] == row[..n][i := x];
      RowOccupiedUpdate(row[..n], i, x);
    } else {
      assert row[i := x][..n] == row[..n];
    }
  }

  lemma {:induction false} OccupiedUpdate(b: Board, i: int, row: seq<Cell>)
    requires 0 <= i < |b|
    ensures Occupied(b[i := row]) == Occupied(b) - RowOccupied(b[i]) + RowOccupied(row)
  {
    var n := |b| - 1;
    if i < n {
      assert b[i := row][..n] == b[..n][i := row];
      OccupiedUpdate(b[..n], i, row);
    } else {
      assert b[i := row][..n] == b[..n];
    }
  }

  /** Replacing one square changes the occupied count by the difference of the two cells. */
  lemma OccupiedPut(b: Board, p: Pos, c: Cell)
    requires Shaped(b) && InBounds(p)
    ensures Occupied(Put(b, p, c)) == Occupied(b) - CellOccupied(At(b, p)) + CellOccupied(c)
  {
    OccupiedUpdate(b, p.row, b[p.row][p.col := c]);
    RowOccupiedUpdate(b[p.row], p.col, c);
  }

  /**
   * Piece conservation: moving a piece onto an empty square keeps the number
   * of pieces, except that a jump over an occupied square removes exactly one.
   */
  lemma MoveConservesPieces(b: Board, from: Pos, to: Pos)
    requires Shaped(b) && InBounds(from) && InBounds(to) && from != to
    requires At(b, from).hasPiece && !At(b, to).hasPiece
    ensures Occupied(ApplyMove(b, from, to)) ==
      Occupied(b) - if IsJump(from, to) && At(b, Midpoint(from, to)).hasPiece then 1 else 0
    ensures Occupied(b) - 1 <= Occupied(ApplyMove(b, from, to)) <= Occupied(b)
  {
    var moving := At(b, from);
    var b1 := Put(b, to, Cell(true, moving.pieceColor, moving.isKing));
    OccupiedPut(b, to, Cell(true, moving.pieceColor, moving.isKing));
    var b2 := Put(b1, from, EmptyCell);
    OccupiedPut(b1, from, EmptyCell);
    var b3 := b2;
    if IsJump(from, to) {
      JumpMidpoint(from, to);
      b3 := Put(b2, Midpoint(from, to), EmptyCell);
      OccupiedPut(b2, Midpoint(from, to), EmptyCell);
    }
    if !moving.isKing && PromotionRow(moving.pieceColor, to.row) {
      OccupiedPut(b3, to, At(b3, to).(isKing := true));
    }
  }

  /** Counts the white and the other pieces, as the nested counting loops of the end-of-game check do. */
  method CountPieces(b: Board) returns (white: nat, black: nat)
    requires Shaped(b)
    ensures white == Whites(b) && black == Blacks(b)
    ensures white + black == Occupied(b)
  {
    white, black := 0, 0;
    var r := 0;
    while r < 8
      invariant 0 <= r <= 8
      invariant white == Whites(b[..r]) && black == Blacks(b[..r])
    {
      var c := 0;
      while c < 8
        invariant 0 <= c <= 8
        invariant white == Whites(b[..r]) + RowWhites(b[r][..c])
        invariant black == Blacks(b[..r]) + RowBlacks(b[r][..c])
      {
        var cell := b[r][c];
        if cell.hasPiece {
          if cell.pieceColor == Some(White) {
            white := white + 1;
          } else {
            black := black + 1;
          }
        }
        assert b[r][..c + 1][..c] == b[r][..c];
        c := c + 1;
      }
      assert b[r][..8] == b[r];
      assert b[..r + 1][..r] == b[..r];
      r := r + 1;
    }
    assert b[..8] == b;
    CountsSplit(b);
  }

  /** No piece of `player` on a square scanned before (r, c) in row-major order has a valid move. */
  ghost predicate NoneMovableBefore(b: Board, player: Color, r: int, c: int)
    requires Shaped(b)
  {
    forall q :: InBounds(q) && (q.row < r || (q.row == r && q.col < c)) ==> !Movable(b, player, q)
  }

  lemma ScannedOneMore(b: Board, player: Color, r: int, c: int)
    requires Shaped(b) && IsValidPosition(r, c)
    requires NoneMovableBefore(b, player, r, c) && !Movable(b, player, Pos(r, c))
    ensures NoneMovableBefore(b, player, r, c + 1)
  {
  }

  /** The scan's answer, once it has found a movable piece or looked at every square. */
  lemma ScanAnswer(b: Board, player: Color, found: bool, firstMovable: Pos)
    requires Shaped(b)
    requires found ==> InBounds(firstMovable) && Movable(b, player, firstMovable)
    requires !found ==> NoneMovableBefore(b, player, 8, 0)
    ensures found <==> AnyValidMove(b, player)
  {
  }

  /** Looks for a piece of `player` with a valid move, stopping at the first, as the end-of-game check does. */
  method HasAnyValidMove(b: Board, player: Color) returns (found: bool)
    requires Shaped(b)
    ensures found <==> AnyValidMove(b, player)
  {
    found := false;
    ghost var firstMovable := Pos(0, 0);
    var r := 0;
    while r < 8 && !found
      invariant 0 <= r <= 8
      invariant found ==> InBounds(firstMovable) && Movable(b, player, firstMovable)
      invariant !found ==> NoneMovableBefore(b, player, r, 0)
      decreases 8 - r, if found then 0 else 1
    {
      var c := 0;
      while c < 8 && !found
        invariant 0 <= c <= 8
        invariant found ==> InBounds(firstMovable) && Movable(b, player, firstMovable)
        invariant !found ==> NoneMovableBefore(b, player, r, c)
        decreases 8 - c, if found then 0 else 1
      {
        if Movable(b, player, Pos(r, c)) {
          found := true;
          firstMovable := Pos(r, c);
        } else {
          ScannedOneMore(b, player, r, c);
          c := c + 1;
        }
      }
      if !found {
        assert NoneMovableBefore(b, player, r + 1, 0) by {
          assert NoneMovableBefore(b, player, r, 8);
        }
        r := r + 1;
      }
    }
    ScanAnswer(b, player, found, firstMovable);
  }

  // ---------------------------------------------------------------------------
  // End of game
  // ---------------------------------------------------------------------------

  datatype Status = Status(gameOver: bool, winner: Option<Color>)

  /**
   * The end-of-game rule applied with `player` to move: a side without pieces
   * loses, then a side to move without a valid move loses; otherwise the
   * status is left as it was.
   */
  ghost function Outcome(b: Board, player: Color, before: Status): Status
    requires Shaped(b)
  {
    if Whites(b) == 0 then Status(true, Some(Black))
    else if Blacks(b) == 0 then Status(true, Some(White))
    else if !AnyValidMove(b, player) then Status(true, Some(Opponent(player)))
    else before
  }

  /** The end-of-game check never clears a finished game and, when it ends one, always names a winner. */
  lemma OutcomeMonotone(b: Board, player: Color, before: Status)
    requires Shaped(b)
    ensures before.gameOver ==> Outcome(b, player, before).gameOver
    ensures Outcome(b, player, before) != before ==> Outcome(b, player, before).gameOver && Outcome(b, player, before).winner.Some?
  {
  }

  /** A side to move that can capture, with pieces left on both sides, never loses by the check. */
  lemma CapturingSideNotStuck(b: Board, player: Color, before: Status)
    requires Shaped(b) && HasCapture(b, player) && Whites(b) > 0 && Blacks(b) > 0
    ensures Outcome(b, player, before) == before
  {
    CaptureImpliesValidMove(b, player);
  }

  /** The winner the check names is never the side it declared stuck. */
  lemma StuckSideLoses(b: Board, player: Color, before: Status)
    requires Shaped(b) && Whites(b) > 0 && Blacks(b) > 0 && !AnyValidMove(b, player)
    ensures Outcome(b, player, before) == Status(true, Some(Opponent(player)))
    ensures forall q :: InBounds(q) && Owns(b, q, player) ==> ValidMoves(b, player, q) == []
  {
    forall q | InBounds(q) && Owns(b, q, player)
      ensures ValidMoves(b, player, q) == []
    {
      assert !Movable(b, player, q);
    }
  }
}
